=== FILE: README.md ===
# Distributed bank ledger — a Dafny model

This project models the core of *bank-system-distributed*, a bank whose accounts are
split into partitions. A central server (`ServidorCentral`) is the coordinator. It
keeps the registry of workers and of which worker holds a replica of which partition.
It also hands out transaction ids and routes client requests. Workers hold partition
files and answer requests about them. There are workers in Java, Python and TypeScript.

The model covers these parts of the system:

- **Registry.** Worker registration and deregistration, the tentative-assignment
  rollback, and partition assignment with its replica cap. It also covers the
  transaction id counter and the initial split of accounts into three partitions.
- **Worker handshake.** The Java object-stream session and the Python JSON session.
  This includes the 4-byte length framing, the JSON sniffing of the first bytes, the
  hand-written JSON field extraction, and `escapeJson`.
- **Client handler.** Balance queries with replica fail-over and deregistration of
  dead workers, and intra-partition transfers. Cross-partition transfers use the
  two-phase protocol `PREPARAR_DEBITO` → `APLICAR_CREDITO` → `CONFIRMAR_DEBITO` /
  `REVERTIR_DEBITO`. The handler also covers replica propagation (`ACTUALIZAR_SALDO_REPLICA`)
  and the global audit (`ARQUEO_CUENTAS`).
- **Workers.** The Java and Python workers: every operation they dispatch, on a parsed
  view of their CSV partition files. The TypeScript worker: how it saves assigned
  partitions and answers a balance query.
- **Cross-partition protocol.** The protocol played out end to end against two Java
  workers, to see where the money goes.
- **The BankSystem prototype.** Its account and transfer records, its message factories
  and `toString`, and its worker's handling of query, check and update messages on
  CSV record strings. Amounts are exact hundredths, read and written in the plain
  decimal form that `Double.parseDouble` reads and that `Double.toString` writes for
  such values below 10^7; the prototype's floating-point sums can leave that form
  (see "## Left out").

The network is a parameter. Every contact the coordinator makes is appended to a call
log. The outcome of the k-th contact is `net(k)`: a reply, a communication failure, an
unexpected object, or an undecodable class. Iteration orders that the source leaves to
`HashMap` or `Collections.shuffle` are explicit `order`/`keys` parameters.

Several defects of the source are modelled as written, next to a corrected version (see
"## Findings"). The corrected versions are selected by a `fixed` (or `keepScalar`) flag,
or they are separate members (`RegisterFixed`, `EscapeJsonFixed`):

- no revert after a refused credit;
- the task wrapper keeps a scalar payload;
- re-registration drops stale memberships;
- `escapeJson` escapes backslashes first.

Where the written description of the system and the code disagree, the model follows
the code. Two examples:

- The Python worker's truthiness checks reject account `0` and an empty partition name.
- The prepare step of the cross-partition protocol checks funds and writes nothing.

## Model

| member | source | states |
|---|---|---|
| Info.NewInfo | commons/InfoWorker.java:19-28 | a new worker record is active and carries exactly the id, host, port, partitions and heartbeat it was built with |
| Info.SetPartitions | commons/InfoWorker.java:72-74 | only the partition list changes |
| Info.SetHeartbeat | commons/InfoWorker.java:80-83 | a heartbeat records the time and marks the worker active, nothing else changes |
| Info.SetActive | commons/InfoWorker.java:85-87 | only the active flag changes |
| Info.HeartbeatRevives | commons/InfoWorker.java:80-87 | a heartbeat revives an inactive worker, and the result is the same as a heartbeat on the active worker |
| Registry.EnrollAll | centralserver/ServidorCentral.java:64-73 | the replica map gains exactly the assigned partitions; each assigned partition's list ends with the worker; other lists are untouched |
| Registry.Register | centralserver/ServidorCentral.java:56-74 | the worker's record is replaced with one holding the assigned partitions; the worker is in each assigned partition's list; other partitions' lists and the rest of the state are untouched |
| Registry.RegisterFixed | centralserver/ServidorCentral.java:56-74 | the corrected registration: the record is replaced in the same way, and nothing outside the worker table and the replica map changes |
| Registry.DropAll | centralserver/ServidorCentral.java:81-95 | removal from a list of partitions never adds a partition or lengthens a list, and leaves partitions outside the list untouched |
| Registry.Deregister | centralserver/ServidorCentral.java:77-101 | the worker is gone; deregistering an unknown worker changes nothing; no partition is added and nothing outside the two tables changes |
| Registry.RemoveTentative | centralserver/ServidorCentral.java:164-182 | with no worker id or no partition list it does nothing; the worker table and everything else but the replica map are untouched |
| Registry.Assign | centralserver/ServidorCentral.java:110-154 | a partition is offered iff it is in the iteration order and eligible (fewer than the replica cap, worker not already in it); the offer carries exactly the offered partitions' data, copied unchanged; no duplicates when the order has none |
| Registry.NextTxId | centralserver/ServidorCentral.java:184-186 | the id is the counter plus one, wrapping from the largest 32-bit int to the smallest, and becomes the new counter |
| RegistryProps.EnrollAllExact | centralserver/ServidorCentral.java:64-73 | each assigned partition's list is its old list without the worker, then the worker, and lists stay free of duplicates |
| RegistryProps.DropAllExact | centralserver/ServidorCentral.java:81-95 | after removal a listed partition no longer names the worker, keeps its other workers in order, and disappears when it becomes empty |
| RegistryProps.RegisterExact | centralserver/ServidorCentral.java:56-74 | registration keeps the registry well formed, and each assigned partition's list names the worker last and once |
| RegistryProps.DeregisterExact | centralserver/ServidorCentral.java:77-101 | deregistration keeps the registry well formed, and removes the worker from every partition it held, dropping lists that become empty |
| RegistryProps.DeregisterConsistent | centralserver/ServidorCentral.java:77-101 | on a consistent registry (every listed worker is registered and holds the partition), deregistration keeps it consistent and no list names the worker |
| RegistryProps.RemoveTentativeConsistent | centralserver/ServidorCentral.java:164-182 | rolling back a tentative assignment keeps the registry well formed and consistent, and removes the worker from the rolled-back partitions |
| RegistryProps.RegisterFreshConsistent | centralserver/ServidorCentral.java:56-74 | registering a worker that was not registered keeps the registry consistent |
| RegistryProps.AssignThenRegisterBound | centralserver/ServidorCentral.java:110-154 | registering with the partitions just offered never takes a list beyond the replica cap (`MAX_REPLICAS_POR_PARTICION` = 3) |
| RegistryProps.AssignRaceExceedsBound | centralserver/ServidorCentral.java:129-138 | two offers computed from the same registry, then both registered, put four workers on a partition |
| RegistryProps.RegisterLeavesStale | centralserver/ServidorCentral.java:58-73 | re-registering a worker with other partitions breaks consistency: it stays in its old partition's list, and after deregistration that list names a worker that is not registered |
| RegistryProps.RegisterFixedConsistent | centralserver/ServidorCentral.java:56-74 | the corrected registration keeps any well-formed consistent registry consistent, even on re-registration, and lists the worker for a partition iff the partition was assigned |
| RegistryProps.RegisterFixedAgreesOnFresh | centralserver/ServidorCentral.java:56-74 | for a worker not yet registered the corrected and written registrations agree |
| RegistryProps.IssueIds | centralserver/ServidorCentral.java:184-186 | drawing n ids yields n ids and keeps the counter a 32-bit int |
| RegistryProps.TxIdsIncrease | centralserver/ServidorCentral.java:184-186 | away from the wrap, the i-th id drawn is the counter plus i + 1, so ids strictly increase |
| Partitioning.BucketSize | centralserver/ServidorCentral.java:322 | three buckets of the computed size cover all n items, and one less would not |
| Partitioning.PartitionName | centralserver/ServidorCentral.java:324 | the name is the prefix followed by the digit of the partition number, counting from 1 |
| Partitioning.Bucket | centralserver/ServidorCentral.java:325-331 | a bucket holds at most the bucket size |
| Partitioning.BucketsCover | centralserver/ServidorCentral.java:322-335 | the three buckets, concatenated in order, are exactly the item list |
| Partitioning.BucketOfPosition | centralserver/ServidorCentral.java:326-331 | the item at position j lands in a bucket numbered below three, and it is in that bucket |
| Partitioning.IndexUpTo | centralserver/ServidorCentral.java:326-330 | every id among the items indexed so far is a key of the account-to-partition index |
| Partitioning.IndexKeys | centralserver/ServidorCentral.java:326-330 | the index has no other keys: its key set is exactly the ids of the items indexed so far |
| Partitioning.Load | centralserver/ServidorCentral.java:321-335 | the three partition names map to the three buckets |
| Partitioning.IndexUpToCorrect | centralserver/ServidorCentral.java:326-330 | with unique ids, each account id maps to the name of the partition its bucket became |
| Partitioning.Initial | centralserver/ServidorCentral.java:269-339 | the initial registry has no workers, no replicas and counter 0, is consistent, and holds the account and client partitions as buckets |
| Partitioning.InitialPlacesAccounts | centralserver/ServidorCentral.java:321-335 | every account is indexed, to a partition whose data contains that account |
| Store.Body | workernode/NodoTrabajador.java:216 | the body of a partition file is everything after the header line; an empty file has none |
| Store.Rewrite | workernode/NodoTrabajador.java:362-369 | a rewritten line keeps its id and account type and holds the new balance; the reader always finds it again, and the rewriter matches it again iff it kept a fourth field: always for Python, and for Java only when the type is not blank, because Java writes the trimmed type and its next split drops the trailing empty field |
| Store.ReadRowsSpec | workernode/NodoTrabajador.java:213-236 | reading a balance finds nothing iff no line is readable for the account, and otherwise returns the balance of the first readable line |
| Store.RewriteRows | workernode/NodoTrabajador.java:356-381 | every line writable for the account is rewritten with the new balance, every other line is kept, and the length is kept |
| Store.UpdateOne | workernode/NodoTrabajador.java:332-408 | the update succeeds iff the partition file exists and has a writable line for the account; on success only that file changes, header kept |
| Store.RewriteTwo | workernode/NodoTrabajador.java:258-287 | the two-account rewrite keeps the number of lines |
| Store.UpdateTwoJava | workernode/NodoTrabajador.java:238-317 | the two-account update succeeds iff the file exists, the origin is writable (or is the `-1` sentinel) and the destination is rewritten |
| Store.UpdateTwoPy | workernode-py/nodo_trabajador.py:821-895 | the Python two-account update succeeds iff the file exists, the origin is writable and the destination is rewritten |
| StoreProps.ReadRowsAgree | workernode/NodoTrabajador.java:213-236 | lines that agree on everything the reader looks at read the same balance |
| StoreProps.ReadAfterRewrite | workernode/NodoTrabajador.java:332-408 | after a rewrite with a writable line, the account reads the new balance |
| StoreProps.ReadFrameRewrite | workernode/NodoTrabajador.java:332-408 | rewriting one account leaves every other account's balance as it was |
| StoreProps.UpdateThenRead | workernode/NodoTrabajador.java:332-408 | after a successful update the account reads the new balance |
| StoreProps.UpdateFrame | workernode/NodoTrabajador.java:332-408 | a successful update leaves every other account and partition reading as before |
| StoreProps.UpdateIdempotent | workernode/NodoTrabajador.java:332-408 | writing the same balance twice is the same as writing it once when one of the account's lines kept its fourth field; otherwise the second write fails |
| StoreProps.UpdateAgain | workernode/NodoTrabajador.java:332-408 | after a successful update the account can be updated again iff one of its lines kept its fourth field, and a file with no short line for the account keeps none iff all of them did |
| StoreProps.RewriteKeepsWritable | workernode/NodoTrabajador.java:362-369 | after a rewrite the account has a writable line iff one of its rewritten lines kept its fourth field |
| StoreProps.RewriteRowsIdempotent | workernode/NodoTrabajador.java:332-408 | rewriting lines twice with the same balance is the same as rewriting them once, whether or not the lines kept their fourth field |
| StoreProps.SumAfterRewrite | workernode/NodoTrabajador.java:591-613 | the partition sum changes by the new balance per rewritten line minus the balances those lines held |
| StoreProps.TidySingleRow | workernode/NodoTrabajador.java:213-236 | in a file with one line per account whose line for the account is full, the account has one writable line iff it reads a balance, and that line holds the balance read |
| StoreProps.RewriteFrameFull | workernode/NodoTrabajador.java:356-381 | a rewrite keeps ids unique and other accounts' lines full, and keeps the account's own lines full iff each kept its fourth field |
| StoreProps.RewriteKeepsTidy | workernode/NodoTrabajador.java:332-408 | a rewrite keeps a tidy file (one full line per account) tidy iff every rewritten line kept its fourth field, so a Java rewrite of a blank-type line breaks it; a tidy file has no short line |
| StoreProps.TypedSplitsAgree | workernode-py/nodo_trabajador.py:917-923 | on lines with no blank account type the Java and Python one- and two-row rewriters write the same lines |
| StoreProps.RewriteTwoComposes | workernode/NodoTrabajador.java:258-287 | the two-account rewrite equals rewriting the origin and then the destination, and the destination is rewritten iff it has a writable line |
| JavaWorker.Consult | workernode/NodoTrabajador.java:426-437 | `EXITO` with the balance iff account and partition are given and the balance can be read; a missing parameter is a general error, otherwise the origin does not exist |
| JavaWorker.Transfer | workernode/NodoTrabajador.java:439-477 | the intra-partition transfer succeeds iff both accounts read, the origin has the funds and the two-line update goes through; then both new balances are reported and written; on any failure the worker is unchanged |
| JavaWorker.Prepare | workernode/NodoTrabajador.java:479-495 | `DEBITO_PREPARADO_OK` iff the origin reads a balance of at least the amount, reporting that balance; the files are never touched |
| JavaWorker.Credit | workernode/NodoTrabajador.java:497-517 | the credit is applied iff the destination reads and its line can be rewritten with the amount added; it reports the new balance; a refused credit changes nothing |
| JavaWorker.Confirm | workernode/NodoTrabajador.java:519-540 | the debit is confirmed iff the origin reads and its line can be rewritten with the amount taken; a failed confirmation changes nothing |
| JavaWorker.Revert | workernode/NodoTrabajador.java:542-562 | the revert succeeds iff the origin reads and its line can be rewritten with the amount added back; a failed revert changes nothing |
| JavaWorker.Replica | workernode/NodoTrabajador.java:564-580 | the replica update succeeds iff the parameters are given and the line can be rewritten; the account then holds the given balance |
| JavaWorker.PartitionTotal | workernode/NodoTrabajador.java:582-619 | `EXITO` iff the partition is given and present, answering the sum of its balances |
| JavaWorker.Process | workernode/NodoTrabajador.java:410-625 | a request for a partition the worker does not hold is refused untouched; the worker's identity never changes; only successful writes change the files; queries never do |
| JavaWorkerProps.OneRowRewrite | workernode/NodoTrabajador.java:332-408 | in a file with one line per account whose line for the account is full, rewriting the account changes the partition sum by the new balance minus the old, the account reads back the new balance, ids stay unique and every other account's lines stay full |
| JavaWorkerProps.WCountPositive | workernode/NodoTrabajador.java:332-408 | an account with a writable line can be updated |
| JavaWorkerProps.TwoRowMoveConserves | workernode/NodoTrabajador.java:238-317 | moving an amount between two distinct accounts of a tidy file leaves the partition sum unchanged and the two accounts reading the debited and credited balances, whatever their account types |
| JavaWorkerProps.TransferConserves | workernode/NodoTrabajador.java:464-471 | a successful intra-partition transfer on a tidy file keeps the partition sum and moves exactly the amount |
| JavaWorkerProps.CreditReadBack | workernode/NodoTrabajador.java:503-513 | after an applied credit the destination reads its old balance plus the amount |
| JavaWorkerProps.ConfirmThenRevertRestores | workernode/NodoTrabajador.java:519-562 | after a confirmed debit the revert succeeds iff one of the origin's lines has a type that is not blank, and it restores every balance when none of them has a blank type |
| JavaWorkerProps.ReplicaIdempotent | workernode/NodoTrabajador.java:564-580 | applying the same replica update twice is the same as applying it once when one of the account's lines has a type that is not blank; otherwise the second answers the general error and leaves the files as the first left them |
| PyWorker.Consult | workernode-py/nodo_trabajador.py:419-438 | as the Java query, except that a falsy account or partition (0, empty) is a general error |
| PyWorker.Transfer | workernode-py/nodo_trabajador.py:439-529 | the Python intra-partition transfer succeeds iff the parameters are truthy, both accounts read, funds suffice and the update goes through; failures change nothing |
| PyWorker.Prepare | workernode-py/nodo_trabajador.py:530-569 | prepared iff the origin reads a balance of at least the amount; files untouched |
| PyWorker.Credit | workernode-py/nodo_trabajador.py:570-614 | applied iff the destination reads and can be rewritten; refused changes nothing |
| PyWorker.Confirm | workernode-py/nodo_trabajador.py:615-656 | confirmed iff the origin reads and can be rewritten with the amount taken |
| PyWorker.Revert | workernode-py/nodo_trabajador.py:657-698 | reverted iff the origin reads and can be rewritten with the amount added |
| PyWorker.Replica | workernode-py/nodo_trabajador.py:699-736 | the replica update succeeds iff the parameters are truthy and the line can be rewritten |
| PyWorker.PartitionTotal | workernode-py/nodo_trabajador.py:737-789 | `EXITO` with the partition sum iff the partition is truthy and present |
| PyWorker.Process | workernode-py/nodo_trabajador.py:366-418 | a request for a partition not held is refused untouched; identity never changes; only successful writes change files |
| PyWorkerProps.UpdateTwoAgree | workernode-py/nodo_trabajador.py:821-895 | without the `-1` sentinel the Python and Java two-account updates succeed on the same files, and write the same lines when no line has a blank account type |
| PyWorkerProps.UpdateOneAgree | workernode-py/nodo_trabajador.py:896-940 | the Python and Java one-account updates succeed on the same files, and write the same lines when no line has a blank account type |
| PyWorkerProps.SameTransfer | workernode-py/nodo_trabajador.py:439-528 | on plain parameters and files with no blank account type, the Python transfer answers and writes as the Java one |
| PyWorkerProps.SameCredit | workernode-py/nodo_trabajador.py:570-613 | on plain parameters and files with no blank account type, the Python credit answers and writes as the Java one |
| PyWorkerProps.SameConfirm | workernode-py/nodo_trabajador.py:615-655 | on plain parameters and files with no blank account type, the Python confirmation answers and writes as the Java one |
| PyWorkerProps.SameRevert | workernode-py/nodo_trabajador.py:657-697 | on plain parameters and files with no blank account type, the Python revert answers and writes as the Java one |
| PyWorkerProps.SameReplica | workernode-py/nodo_trabajador.py:699-735 | on plain parameters and files with no blank account type, the Python replica update answers and writes as the Java one |
| PyWorkerProps.SameAsJava | workernode-py/nodo_trabajador.py:366-418 | on parameters without 0, -1 or empty names and on files with a header and no blank account type, the Python worker answers and writes exactly as the Java worker |
| PyWorkerProps.ZeroAmountParts | workernode-py/nodo_trabajador.py:447 | a transfer of amount 0 is carried out by the Java worker and refused as incomplete by the Python worker |
| PyWorkerProps.EmptyFileParts | workernode-py/nodo_trabajador.py:737-789 | on an existing but empty partition file the Java total is `EXITO` with 0 and the Python total is a general error |
| PyWorkerProps.SameAccountTwoRowFails | workernode-py/nodo_trabajador.py:852-882 | the Python two-account update never succeeds when origin and destination are the same account |
| PyWorkerProps.TransferExample | workernode-py/nodo_trabajador.py:454-492 | moving 1000 from an account holding 5000 to one holding 3000 succeeds and leaves both reading 4000 |
| TsWorker.AccountLine | workernode-ts/src/NodoTrabajador.ts:138-140 | only account records become lines, with four fields, their id, their balance, and a blank type iff the record's type trims to nothing |
| TsWorker.ClientLine | workernode-ts/src/NodoTrabajador.ts:141-143 | a client line has four fields, the record's id (the owner's for an account record), no readable balance, and a blank fourth field iff it is a client whose phone trims to nothing |
| TsWorker.AccountLines | workernode-ts/src/NodoTrabajador.ts:138-140 | an account partition is written iff every record is an account, one line per record, in order |
| TsWorker.FileFor | workernode-ts/src/NodoTrabajador.ts:136-145 | non-account partitions always get a file; an account partition gets the header then its account lines, or fails |
| TsWorker.Save | workernode-ts/src/NodoTrabajador.ts:127-153 | saving writes every assigned partition that has data and leaves all other files; it reports failure only when some partition could not be written |
| TsWorker.Process | workernode-ts/src/NodoTrabajador.ts:204-236 | only balance queries are served; others and partitions not held are general errors; `EXITO` iff the balance reads, with that balance |
| TsWorkerProps.ReadRowsTsAgrees | workernode-ts/src/NodoTrabajador.ts:184-197 | on lines whose balances parse, the TypeScript reader finds the same balance as the Java reader |
| TsWorkerProps.UnparsedBalanceParts | workernode-ts/src/NodoTrabajador.ts:192-193 | on a matching line whose balance does not parse, the TypeScript worker answers `EXITO` with NaN where the Java worker reports the account missing |
| TsWorkerProps.ConsultLikeJava | workernode-ts/src/NodoTrabajador.ts:213-222 | on files whose balances parse, the TypeScript balance query succeeds iff the Java one does, with the same balance, and its not-found status matches the Java one |
| TsWorkerProps.AccountLinesTidy | workernode-ts/src/NodoTrabajador.ts:138-140 | account lines written from records with unique ids are one per account |
| TsWorkerProps.ReadFirstMatch | workernode-ts/src/NodoTrabajador.ts:184-197 | when the first line carrying the id is readable, the TypeScript reader answers with its balance, and so does the Java reader |
| TsWorkerProps.ReadAccountLines | workernode-ts/src/NodoTrabajador.ts:184-197 | an account record with no earlier record of the same id reads back its balance, by both readers |
| TsWorkerProps.SaveThenRead | workernode-ts/src/NodoTrabajador.ts:127-197 | after a successful save, each account of an assigned account partition reads back its balance |
| Coordinator.TryReplicas | centralserver/ManejadorClienteServidor.java:139-232 | the fail-over loop only appends to the call log and only deregisters; an answer is the last contact's reply from that worker; it gives up without contact only when none was live |
| ReplicaLoopProps.TryReplicasContacts | centralserver/ManejadorClienteServidor.java:139-232 | every contact goes to a listed replica live at the start, with the given request |
| ReplicaLoopProps.TryReplicasFirst | centralserver/ManejadorClienteServidor.java:139-232 | every contact but the last moved on (failure, or unexpected object when retrying), and all did when the loop ran out |
| ReplicaLoopProps.ExhaustedTriedAll | centralserver/ManejadorClienteServidor.java:233-240 | running out of replicas means every replica live at the start was contacted |
| ReplicaLoopProps.TryReplicasDeregisters | centralserver/ManejadorClienteServidor.java:206-218 | a worker is deregistered iff a contact with it failed; surviving workers are unchanged |
| Coordinator.Stamp | centralserver/ManejadorClienteServidor.java:651-656 | the wrapper adds the answering worker's id to a map payload, keeping every other field; as written a scalar payload is replaced by a map holding only the id |
| Coordinator.SubOp | centralserver/ManejadorClienteServidor.java:620-682 | no replicas is a general error; a reply is returned stamped; an unexpected object is a communication error; an undecodable class a general error; a loop that ends without a reply (no live replica, or only failures) asks the client to retry elsewhere |
| CoordinatorProps.SubOpSends | centralserver/ManejadorClienteServidor.java:620-682 | the wrapper sends only the given request, only to live replicas of the partition |
| Coordinator.Targets | centralserver/ManejadorClienteServidor.java:694-699 | a worker is a replication target iff it is listed, live and not the primary |
| Coordinator.Replicate | centralserver/ManejadorClienteServidor.java:684-744 | one replica update per target, appended in order; the registry is untouched |
| CoordinatorProps.ReplicateOps | centralserver/ManejadorClienteServidor.java:684-744 | replication sends replica updates only |
| Coordinator.Query | centralserver/ManejadorClienteServidor.java:108-241 | no account is a general error; an unmapped account is reported without contact; a reply reaches the client unchanged; an undecodable class is a general error; a loop that ends without a reply or an undecodable class asks the client to retry elsewhere |
| CoordinatorProps.QueryContacts | centralserver/ManejadorClienteServidor.java:119-240 | the query asks only live replicas of the account's partition, for that account, moving on only past failures and unexpected objects |
| CoordinatorProps.QueryTriesAll | centralserver/ManejadorClienteServidor.java:119-240 | a query that asks the client to retry without a worker reply has asked every live replica of the account's partition |
| Coordinator.Intra | centralserver/ManejadorClienteServidor.java:314-435 | a partition with no replicas is a general error without contact; a worker answer reaches the client as it came and only an `EXITO` map adds calls after the loop; an undecodable class is a general error and an exhausted loop asks the client to retry elsewhere, both with nothing replicated |
| CoordinatorProps.IntraReplicates | centralserver/ManejadorClienteServidor.java:371-391 | the client gets the first worker answer as it came; only an `EXITO` map is replicated, to live replicas other than the worker that answered |
| CoordinatorProps.ReplicateReaches | centralserver/ManejadorClienteServidor.java:684-705 | every live replica of the partition other than the primary is sent the new balance |
| CoordinatorProps.IntraFanoutReaches | centralserver/ManejadorClienteServidor.java:371-391 | the fan-out sends each new balance in the worker's map, origin and destination, to every live replica other than the worker that answered |
| CoordinatorProps.IntraReplicatesAll | centralserver/ManejadorClienteServidor.java:371-391 | after an `EXITO` map every live replica of the partition other than the worker that answered is sent each new balance the map holds |
| Coordinator.Settle | centralserver/ManejadorClienteServidor.java:521-562 | the confirmation step only appends calls and only deregisters |
| CoordinatorProps.SettleAnswer | centralserver/ManejadorClienteServidor.java:521-562 | a debit the origin does not confirm is a general error with nothing replicated; a confirmed one is `EXITO` |
| CoordinatorProps.SettleOps | centralserver/ManejadorClienteServidor.java:521-559 | the confirmation step sends confirmations and replica updates only |
| Coordinator.CreditThen | centralserver/ManejadorClienteServidor.java:473-516 | the step after the prepare only appends calls and only deregisters |
| CoordinatorProps.CreditThenAnswer | centralserver/ManejadorClienteServidor.java:473-516 | a refused credit answers with its own status: directly when no revert is modelled, else after a revert and only when the revert succeeded (a general error otherwise); an applied credit answers `EXITO` exactly when the debit is confirmed |
| CoordinatorProps.CreditThenOrder | centralserver/ManejadorClienteServidor.java:473-559 | credits come first; after a refused credit only reverts follow (none in the corrected protocol); after an applied credit only confirmations and replica updates |
| Coordinator.Cross | centralserver/ManejadorClienteServidor.java:437-563 | the cross-partition transfer only appends calls and only deregisters |
| CoordinatorProps.CrossPrepareGate | centralserver/ManejadorClienteServidor.java:447-476 | a refused prepare is answered as is, with nothing else sent; a credit is sent only after a prepare that succeeded and reported the origin balance |
| CoordinatorProps.CrossAbsent | centralserver/ManejadorClienteServidor.java:484-540 | a revert is sent only after a refused credit, a confirmation only after an applied one |
| CoordinatorProps.CrossNeverBoth | centralserver/ManejadorClienteServidor.java:484-540 | no cross-partition transfer both reverts and confirms |
| CoordinatorProps.CrossFixedNeverReverts | centralserver/ManejadorClienteServidor.java:484-516 | the corrected protocol never sends a revert |
| CoordinatorProps.ReplicationSkipsPreparer | centralserver/ManejadorClienteServidor.java:554-556 | replication skips the worker that answered the prepare: when the preparer fails on the confirmation and the next replica confirms, the confirming replica is also sent a replica update of the balance it wrote |
| CoordinatorProps.SubOpFailover | centralserver/ManejadorClienteServidor.java:620-682 | when the first of two replicas fails and the second answers, the wrapper deregisters the first and returns the second's answer stamped with its id |
| CoordinatorProps.SettleConfirmed | centralserver/ManejadorClienteServidor.java:521-562 | a confirmed debit carrying the origin's new balance, with no destination balance, answers `EXITO` after replicating the origin only |
| CoordinatorProps.SettleFailover | centralserver/ManejadorClienteServidor.java:521-562 | a confirmation that fails over from one replica to the next answers `EXITO` and replicates from the registry without the failed replica |
| CoordinatorProps.ReplicateSingle | centralserver/ManejadorClienteServidor.java:684-705 | a partition whose only live replica is not the primary gets exactly one replica update |
| Coordinator.Route | centralserver/ManejadorClienteServidor.java:251-311 | a missing or non-positive amount, a missing account or a self-transfer is a general error; unmapped accounts are reported origin first; a valid transfer goes to the intra-partition path when both accounts share a partition and to the cross-partition protocol otherwise |
| Coordinator.Transfer | centralserver/ManejadorClienteServidor.java:243-312 | a transaction id is drawn first; missing or non-positive parameters and equal accounts are general errors without contact; an unmapped origin or destination is reported without contact |
| Coordinator.AccountParts | centralserver/ManejadorClienteServidor.java:579-581 | the audited partitions are exactly the account partitions among the keys |
| Coordinator.Collect | centralserver/ManejadorClienteServidor.java:588-608 | one answer per partition; as written no answer carries a number |
| CoordinatorProps.CollectAllAnswer | centralserver/ManejadorClienteServidor.java:588-608 | when every worker answers, the corrected collection's total is the sum the workers reported, and all answers count iff every partition had a live replica |
| Coordinator.Audit | centralserver/ManejadorClienteServidor.java:565-618 | with no account partition the audit is a general error without contact; otherwise it carries the sum of the counted replies and is `EXITO` exactly when every reply was counted |
| CoordinatorProps.AuditAlwaysFails | centralserver/ManejadorClienteServidor.java:596-597 | as written the audit always reports a general error with total 0, whatever the workers answer |
| CoordinatorProps.AuditFixedReports | centralserver/ManejadorClienteServidor.java:596-617 | the corrected audit reports the sum the workers gave, and `EXITO` iff every account partition had a live replica |
| CoordinatorProps.SubOpCounted | centralserver/ManejadorClienteServidor.java:620-682 | whatever the network does, the wrapper's reply is counted exactly when the contact that ended its loop answered `EXITO` with a number, and carries that number |
| CoordinatorProps.CollectCounted | centralserver/ManejadorClienteServidor.java:588-608 | whatever the network does, the collected total is the sum of the counted worker answers and the number of counted replies is the number of counted answers |
| CoordinatorProps.AuditCounts | centralserver/ManejadorClienteServidor.java:565-618 | the corrected audit over any network carries the sum of the counted worker answers and is `EXITO` exactly when every account partition produced one |
| CoordinatorProps.CountOfAll | centralserver/ManejadorClienteServidor.java:596-616 | the counted replies reach their number exactly when every reply is counted |
| Coordinator.Handle | centralserver/ManejadorClienteServidor.java:69-78 | a balance query is answered by `Query`, a transfer by `Transfer` (with the protocol version chosen) and an audit by `Audit` over the partition keys; any other operation is a general error without contact; only a transfer can end without an answer |
| CoordinatorProps.HandleAudit | centralserver/ManejadorClienteServidor.java:69-78 | a client's audit over at least one account partition is answered, as written, with a general error and total 0; with the corrected wrapper, with the counted sum and `EXITO` iff every account partition was counted |
| CrossProtocol.Play | centralserver/ManejadorClienteServidor.java:437-563 | playing the protocol against two workers never changes their identity or the partitions they hold |
| CrossProtocolProps.ReadableIsWritable | workernode/NodoTrabajador.java:332-408 | on a file with no short lines, a balance the reader finds can be written back |
| CrossProtocolProps.PreparedReads | workernode/NodoTrabajador.java:479-495 | a successful prepare means the origin worker holds the partition and the origin reads at least the amount |
| CrossProtocolProps.ConfirmSucceeds | workernode/NodoTrabajador.java:519-540 | confirming the debit of a readable origin succeeds and leaves it the amount poorer |
| CrossProtocolProps.PlaySucceeds | centralserver/ManejadorClienteServidor.java:447-562 | a good prepare, applied credit and good confirmation give `EXITO` with the confirmed origin and credited destination |
| CrossProtocolProps.ConfirmAfterCredit | centralserver/ManejadorClienteServidor.java:521-562 | after a good prepare and an applied credit the corrected run succeeds, moving the amount between the two balances |
| CrossProtocolProps.FixedAllOrNothing | centralserver/ManejadorClienteServidor.java:437-563 | the corrected protocol is all or nothing: success moves exactly the amount, any other outcome leaves both workers as they were |
| CrossProtocolProps.FixedConserves | centralserver/ManejadorClienteServidor.java:437-563 | the corrected protocol keeps the combined balance of the two accounts |
| CrossProtocolProps.RefusedCreditAddsToOrigin | workernode/NodoTrabajador.java:542-562 | as written, a refused credit after a good prepare leaves the destination untouched and the origin richer by the amount |
| CrossProtocolProps.RefusedCreditExample | workernode/NodoTrabajador.java:552 | 30 sent from account 1 (100) to an account the destination lacks leaves account 1 at 130; the corrected run leaves it at 100 |
| Wire.GetInt | centralserver/ManejadorWorkerServidor.java:318 | a big-endian 4-byte read is a 32-bit int, negative iff the top bit is set |
| Wire.PutInt | centralserver/ManejadorWorkerServidor.java:347 | a 32-bit int is written as 4 bytes, top bit clear when non-negative |
| WireProps.GetPutInt | centralserver/ManejadorWorkerServidor.java:318 | reading back a written int gives the int |
| WireProps.PutGetInt | centralserver/ManejadorWorkerServidor.java:347 | writing back any 4 bytes read gives the bytes |
| Wire.Frame | centralserver/ManejadorWorkerServidor.java:344-356 | a frame is 4 length bytes followed by the body |
| Wire.ReadFrame | centralserver/ManejadorWorkerServidor.java:311-341 | a frame is read iff its length is positive, at most the cap, and the bytes are there; the body has the announced length and the rest follows it |
| WireProps.ReadFrameOfFrame | centralserver/ManejadorWorkerServidor.java:311-356 | reading a written frame gives back its body and the bytes after it |
| WireProps.ReadFrameIsFrame | centralserver/ManejadorWorkerServidor.java:311-341 | whatever is read is a frame of the body followed by the rest |
| Wire.ReadFirstFrame | centralserver/ManejadorWorkerServidor.java:277-307 | after sniffing 8 bytes, the first frame is read iff enough bytes follow, with the announced length |
| WireProps.PythonFrameDetected | centralserver/ManejadorWorkerServidor.java:277-307 | a framed JSON object is recognised as JSON and its first frame read back whole |
| WireProps.JavaStreamNotJson | centralserver/ManejadorWorkerServidor.java:66-78 | a Java object stream's magic bytes are never taken for JSON |
| WireProps.OversizedFrameRefused | centralserver/ManejadorWorkerServidor.java:318-322 | a frame longer than the cap is refused |
| JsonText.ExtractWorkerId | centralserver/ManejadorWorkerServidor.java:358-367 | an id is found only when the key is present, and never contains a quote |
| JsonText.PortEnd | centralserver/ManejadorWorkerServidor.java:374-376 | the port ends at a comma or closing brace after its start |
| JsonText.ExtractWorkerPort | centralserver/ManejadorWorkerServidor.java:369-382 | without the key the port is -1; the result is always a 32-bit int |
| JsonTextProps.ExtractIdAt | centralserver/ManejadorWorkerServidor.java:358-367 | the id is the text between the first quotes after the first key |
| JsonTextProps.ExtractIdRoundTrip | centralserver/ManejadorWorkerServidor.java:358-367 | a quote-free id written after the key is extracted back |
| JsonTextProps.ExtractPortAt | centralserver/ManejadorWorkerServidor.java:369-382 | the port is the number between the key's colon and the first separator |
| JsonTextProps.ExtractPortRoundTrip | centralserver/ManejadorWorkerServidor.java:369-382 | a port written after the key, with blanks around it, is extracted back |
| JsonText.ReplaceChar | centralserver/ManejadorWorkerServidor.java:443 | replacing a character removes it when the replacement lacks it, adds only the replacement's characters, and changes nothing when absent |
| JsonText.Unescape | centralserver/ManejadorWorkerServidor.java:441-444 | the JSON string decoder of section 7 of RFC 8259, used as the reference for escaping; decoding never lengthens |
| JsonTextProps.EscapeCharAsWritten | centralserver/ManejadorWorkerServidor.java:441-444 | as written, escaping a single character gives the per-character form with quotes escaped before backslashes |
| JsonTextProps.EscapeSplit | centralserver/ManejadorWorkerServidor.java:441-444 | as written, escaping distributes over the first character |
| JsonTextProps.EscapeJsonBreaksQuotes | centralserver/ManejadorWorkerServidor.java:441-444 | as written, any text containing a quote escapes to something that does not decode |
| JsonTextProps.EscapeJsonQuoteExample | centralserver/ManejadorWorkerServidor.java:441-444 | the one-character text `"` escapes to `\\"`, which does not decode |
| JsonTextProps.EscapeFixedSplit | centralserver/ManejadorWorkerServidor.java:441-444 | corrected escaping distributes over the first character |
| JsonTextProps.EscapeFixedRoundTrip | centralserver/ManejadorWorkerServidor.java:441-444 | corrected escaping of text without control characters decodes back to the text |
| Handshake.Enlist | centralserver/ServidorCentral.java:56-74 | the worker's record is replaced by one with the assigned partitions |
| Handshake.Complete | centralserver/ManejadorWorkerServidor.java:250-263 | when the confirmation is sent the worker is registered and offer and confirmation were sent; otherwise it is registered then deregistered |
| Handshake.JavaSession | centralserver/ManejadorWorkerServidor.java:191-272 | anything but a registration is refused untouched; the registry changes only on registration; registered iff the offer was acknowledged and the confirmation sent |
| Handshake.PythonSession | centralserver/ManejadorWorkerServidor.java:131-189 | a hello without a worker id is refused untouched; the registry changes only on registration; registered iff acknowledged and confirmed |
| HandshakeProps.DropAllAbsent | centralserver/ServidorCentral.java:164-182 | removing a worker from partitions that do not list it changes nothing |
| HandshakeProps.RollbackIsNoOp | centralserver/ManejadorWorkerServidor.java:265-270 | rolling back a tentative assignment that was never registered leaves the registry unchanged |
| HandshakeProps.JavaRegistryOnlyOnAck | centralserver/ManejadorWorkerServidor.java:250-271 | the Java session changes the registry only after the acknowledgement |
| HandshakeProps.PythonRegistryOnlyOnAck | centralserver/ManejadorWorkerServidor.java:174-188 | the Python session changes the registry only after the acknowledgement |
| HandshakeProps.EnlistPlaces | centralserver/ServidorCentral.java:64-73 | enlisting puts the worker last in each assigned partition's list |
| HandshakeProps.JavaRegisteredPlacesWorker | centralserver/ManejadorWorkerServidor.java:250-263 | a registered Java worker is in the list of every partition it was offered |
| HandshakeProps.JavaRejectsOtherType | centralserver/ManejadorWorkerServidor.java:250 | an `ERROR` message naming the acknowledgement word is not taken as the acknowledgement: the offer is rolled back |
| HandshakeProps.PythonHelloId | centralserver/ManejadorWorkerServidor.java:358-367 | the Python hello's worker id is extracted back |
| HandshakeProps.PythonAcceptsAnyMention | centralserver/ManejadorWorkerServidor.java:174 | any Python reply that mentions the acknowledgement word anywhere registers the worker |
| WorkerMessage.Registration | commons/MensajeWorker.java:32-38 | a registration carries its kind, id, suggested partitions, port and fixed text, nothing else |
| WorkerMessage.Assignment | commons/MensajeWorker.java:41-47 | an assignment carries its kind, data, ids and text, nothing else |
| WorkerMessage.DataReceived | commons/MensajeWorker.java:50-54 | the acknowledgement carries its kind, id and text, nothing else |
| WorkerMessage.RegistrationComplete | commons/MensajeWorker.java:58-62 | the confirmation carries its kind, id and text; the final flag is not kept |
| WorkerMessage.ForTask | commons/MensajeWorker.java:65-74 | a task message exists only for the two task kinds and carries kind, id and task only |
| WorkerMessage.Plain | commons/MensajeWorker.java:77-81 | a plain message carries kind, id and text only |
| WorkerMessageProps.ConstructorKinds | commons/MensajeWorker.java:32-81 | the constructors produce distinct kinds; the final flag makes no difference; task messages reject other kinds |
| WorkerMessageProps.RenderMinimal | commons/MensajeWorker.java:117-135 | a message with only a kind renders as the kind alone |
| WorkerMessageProps.RenderHidesPort | commons/MensajeWorker.java:127-128 | a zero port is not rendered |
| WorkerMessageProps.RenderShowsKind | commons/MensajeWorker.java:119-120 | the rendering starts with the kind |
| WorkerMessageProps.RenderShowsId | commons/MensajeWorker.java:121-122 | a present worker id appears quoted |
| WorkerMessageProps.RenderShowsPort | commons/MensajeWorker.java:127-128 | a non-zero port appears |
| WorkerMessageProps.RenderShowsText | commons/MensajeWorker.java:131-132 | a present text appears quoted |
| WorkerMessageProps.ListTextExample | commons/MensajeWorker.java:124 | partition lists render in Java list form |
| Decimal.Digit | BankSystem/node/src/NodoTrabajador.java:360 | a value below ten is written as a decimal digit |
| Decimal.FractionValue | BankSystem/node/src/NodoTrabajador.java:288 | one or two fraction digits denote fewer than a hundred hundredths |
| Decimal.ParseAmount | BankSystem/node/src/NodoTrabajador.java:288 | a parsed amount comes from non-blank text, negative only when written with a minus |
| Decimal.FractionText | BankSystem/node/src/NodoTrabajador.java:360 | the fraction is one or two digits, never empty |
| Decimal.UnsignedText | BankSystem/node/src/NodoTrabajador.java:360 | an unsigned amount is written starting and ending with a digit |
| Decimal.AmountText | BankSystem/node/src/NodoTrabajador.java:360 | the text has no surrounding blanks and starts with a minus iff the amount is negative |
| DecimalProps.AmountRoundTrip | BankSystem/node/src/NodoTrabajador.java:360-368 | every amount written is read back exactly |
| Account.Debit | BankSystem/server/src/model/Cuenta.java:42-49 | the debit goes through iff funds suffice, taking the amount; a refused debit changes nothing; identity is kept |
| Account.Credit | BankSystem/server/src/model/Cuenta.java:56-58 | the credit adds the amount, whatever its sign, and keeps identity |
| AccountProps.DebitThenCreditRestores | BankSystem/server/src/model/Cuenta.java:42-58 | a debit that goes through, undone by a credit, restores the account |
| AccountProps.CreditThenDebitRestores | BankSystem/server/src/model/Cuenta.java:42-58 | a credit followed by a debit of the same amount goes through and restores a non-negative account |
| AccountProps.RefusedDebitIsStable | BankSystem/server/src/model/Cuenta.java:43-45 | retrying a refused debit is refused again |
| AccountProps.DebitKeepsNonNegative | BankSystem/server/src/model/Cuenta.java:32-49 | debits keep a non-negative balance non-negative and refuse more than the balance |
| Transaction.Empty | BankSystem/server/src/model/Transaccion.java:20-23 | a blank record is pending, stamped with the time, with no id, accounts or amount |
| Transaction.Create | BankSystem/server/src/model/Transaccion.java:25-32 | a new record is pending, stamped, and carries its id, accounts and amount |
| Transaction.Confirm | BankSystem/server/src/model/Transaccion.java:37-39 | confirming sets the confirmed status and nothing else |
| Transaction.Reject | BankSystem/server/src/model/Transaccion.java:44-46 | rejecting sets the rejected status and nothing else |
| TransactionProps.LastCallWins | BankSystem/server/src/model/Transaccion.java:37-46 | there is no terminal status: the last confirmation or rejection decides |
| TransactionProps.FreshIsUndecided | BankSystem/server/src/model/Transaccion.java:20-46 | a fresh record is neither confirmed nor rejected, and the two decisions differ |
| BankMessage.BalanceQuery | BankSystem/server/src/communication/Message.java:61-67 | a balance query carries its type and account, nothing else |
| BankMessage.TransferRequest | BankSystem/server/src/communication/Message.java:69-77 | a transfer request carries its type, accounts and amount, nothing else |
| BankMessage.QueryOrder | BankSystem/server/src/communication/Message.java:79-85 | a query order carries its type and account, nothing else |
| BankMessage.CheckOrder | BankSystem/server/src/communication/Message.java:87-94 | a check order carries its type, account and amount, nothing else |
| BankMessage.UpdateOrder | BankSystem/server/src/communication/Message.java:96-102 | an update order exists iff the amount is given, and carries the amount or its negation by direction |
| BankMessage.BalanceReply | BankSystem/server/src/communication/Message.java:105-112 | a balance reply carries its type, account and balance, nothing else |
| BankMessage.TransferReply | BankSystem/server/src/communication/Message.java:114-121 | the status is the confirmed word iff the transfer succeeded, the rejected word otherwise |
| BankMessage.NodeRegistration | BankSystem/server/src/communication/Message.java:123-130 | a registration carries its type, node id and partitions, nothing else |
| BankMessage.ErrorReply | BankSystem/server/src/communication/Message.java:132-138 | an error carries its type and text, nothing else |
| BankMessage.PongReply | BankSystem/node/src/NodoTrabajador.java:524-529 | the reply to a ping is a bare `PONG` |
| BankMessageProps.OppositeUpdates | BankSystem/server/src/communication/Message.java:96-102 | an increment and a decrement of the same amount carry opposite amounts and agree otherwise |
| BankMessageProps.RenderMinimal | BankSystem/server/src/communication/Message.java:221-245 | a message with only a type renders as the type alone |
| BankMessageProps.RenderShowsType | BankSystem/server/src/communication/Message.java:222-223 | the rendering starts with the type |
| BankMessageProps.RenderOmitsPartitions | BankSystem/server/src/communication/Message.java:221-245 | partitions never appear in the rendering |
| BankMessageProps.RenderTransferRequest | BankSystem/server/src/communication/Message.java:221-245 | a transfer request renders its accounts and amount, in order |
| BankMessageProps.RenderShowsAmount | BankSystem/server/src/communication/Message.java:231-232 | a present amount appears in the decimal form the worker reads back |
| Node.Find | BankSystem/node/src/NodoTrabajador.java:641-648 | the first record starting with the id and a comma, or none when no record does |
| Node.Add | BankSystem/node/src/NodoTrabajador.java:650-652 | the record is appended and the rest kept |
| Node.ReplaceRecord | BankSystem/node/src/NodoTrabajador.java:654-659 | the first equal record is replaced, others kept; an absent record changes nothing |
| Node.Key | BankSystem/node/src/NodoTrabajador.java:284 | the lookup key of an account never contains a comma |
| Node.Locate | BankSystem/node/src/NodoTrabajador.java:282-297 | the first account partition holding a record for the id, with that record's index and fields, or none when no partition does |
| Node.Query | BankSystem/node/src/NodoTrabajador.java:277-301 | an absent account is reported not found; otherwise the balance read from the found record |
| Node.Check | BankSystem/node/src/NodoTrabajador.java:309-338 | an absent account is not found; an unparseable balance or a missing amount on a found account is a fault; otherwise the answer carries the balance read and tells whether it covers the amount |
| Node.UpdateAt | BankSystem/node/src/NodoTrabajador.java:358-383 | an unparseable balance or missing amount is a fault; a negative result is refused unchanged; otherwise the record is rewritten with the new balance and the answer says so; the partitions change only then |
| Node.Update | BankSystem/node/src/NodoTrabajador.java:346-389 | an absent account is not found and nothing changes; otherwise the update at the record found |
| Node.Dispatch | BankSystem/node/src/NodoTrabajador.java:228-269 | a missing type is a fault; ping, query, check and update go to their handlers; any other type is an error reply; only updates change the partitions |
| NodeProps.MatchIsFirstField | BankSystem/node/src/NodoTrabajador.java:641-648 | a record matches iff its first comma-separated field is the id and there is a second field |
| NodeProps.FindAt | BankSystem/node/src/NodoTrabajador.java:641-648 | the first matching record is the one found |
| NodeProps.LocateAt | BankSystem/node/src/NodoTrabajador.java:282-297 | the first partition with a match is the one located |
| NodeProps.SplitRewrite | BankSystem/node/src/NodoTrabajador.java:368 | a rewritten record splits back into its fields, dropping an empty last field |
| NodeProps.RewriteFound | BankSystem/node/src/NodoTrabajador.java:368-369 | after a rewrite the account is still located at the same record, holding the new balance |
| NodeProps.UpdateThenQuery | BankSystem/node/src/NodoTrabajador.java:346-389 | after an update, a query answers the balance the update reported |
| NodeProps.CheckAgreesWithQuery | BankSystem/node/src/NodoTrabajador.java:309-338 | the check reads the same balance as the query |
| NodeProps.NonAccountIgnored | BankSystem/node/src/NodoTrabajador.java:283 | changing a non-account partition does not change where an account is located |
| NodeProps.QueryIgnoresOtherTables | BankSystem/node/src/NodoTrabajador.java:282-300 | changing a non-account partition does not change a query's answer |

## Left out

- Sockets, object streams and the `run` loops of the server, the handlers and the
  workers. Every exchange is a parameter: the network outcome function, the message
  read, and whether a write succeeded.
- Concurrency. Handlers run one at a time against an immutable registry value, so the
  races that `ConcurrentHashMap` and `synchronized` allow are not explored, except for
  `RegistryProps.AssignRaceExceedsBound`.
- Floating-point arithmetic. Amounts are integers in the main system and exact
  hundredths in the prototype. Reading accepts plain decimal text with at most two
  fraction digits ("1500", "1500.", "-3.25"); exponent notation, NaN, longer fractions
  and a fraction with no whole part (".5"), all of which `Double.parseDouble` accepts,
  are not parsed. The prototype does write such forms: its update adds two `Double`s
  and writes the sum with `Double.toString` (BankSystem/node/src/NodoTrabajador.java:361,
  368), so a sum that is inexact in binary (1200.30 + 0.10 is written
  "1200.3999999999999") or that reaches 10^7 (written "1.0E7") is stored in a form
  `Decimal.ParseAmount` rejects, and a later query, check or update of that account
  answers `Fault` in the model where the source reads the value back.
- Decimal.AmountText: writes the exact hundredths in plain form for every amount; at
  or above 10^7 `Double.toString` switches to exponent notation, so the text differs.
- Node.UpdateAt: rewrites the record with the exact sum of balance and amount, where the
  source writes the rounded `Double` sum; the two texts differ whenever that sum is
  inexact in binary or reaches 10^7.
- Log files: `registrarTransaccionGlobal`, `registrarTransaccionLocal` and the other
  printing.
- Response message texts. Answers carry the status and the payload only.
- `Collections.shuffle` and `HashMap` iteration order. Both become explicit order
  parameters.
- The JSON builders `convertListToJson` and `createJsonPartitionAssignment`, and the
  parsing of the Python worker's JSON beyond the worker id and port.
- The clients, `protocol_bridge.py`, the `ManejadorTareaWorker` task wrappers, the test
  scripts, and the prototype's server classes.
- The prototype's `cargar`/`guardar`, which are stubs, and `crearParticionesEjemplo`,
  which only builds sample data.
- The prototype's `registrarNodo` exchange. Only the acceptance test of the reply is
  modelled.
- Null balances and amounts in the prototype's `Cuenta`.
- `long` ids, which are unbounded integers.
- How each worker turns a field's text into a number. `Line.id` and `Line.balance`
  hold the parsed values for all workers. So the leniency of the TypeScript
  worker's `parseInt` (which reads `12abc` as 12) and of Python's `int` (which accepts
  ` 12 `) is not modelled; only `TsWorkerProps.UnparsedBalanceParts` separates a
  balance that does not parse at all.
- The TypeScript worker's commented-out operations.
- The socket field of `InfoWorker`.
- Coordinator.Transfer: the `NullPointerException` when a prepare succeeds without
  reporting the origin balance is modelled as "no answer" (`None`), not as an
  exception.
- Node.Dispatch: the fault carries no exception text.
- Coordinator.Settle: the contract states the call-log and membership frame. The
  answer is stated by `CoordinatorProps.SettleAnswer`, kept apart so that the lemmas
  about the call log do not carry it.
- Coordinator.CreditThen: the contract states the call-log and membership frame. The
  answer is stated by `CoordinatorProps.CreditThenAnswer`.
- Coordinator.Cross: the contract states the call-log and membership frame. What the
  calls are and in which order is stated by the `CoordinatorProps` lemmas.
- PyWorkerProps.SameAsJava: both workers see one field count per line, the one of the
  worker that owns the file. Java's `split("\\|")` drops trailing empty fields and
  Python's `split("|")` keeps them. With no blank fourth field, which the lemma's
  `TypedFiles` hypothesis requires, the two counts agree on which lines are readable
  and writable; the model does not derive a line's view from its text.
- Handshake.JavaSession: a registration request with a `null` worker id is refused up
  front. The source instead offers partitions to it (or sends the "no partitions"
  error), and fails only when the registry's map rejects the `null` key after the
  acknowledgement.
- CrossProtocol.Play: the contract states only the frame. The money each version moves
  is stated by the `CrossProtocolProps` lemmas. `Play` follows the control flow of
  `Coordinator.Cross` and `Coordinator.CreditThen` against one worker per partition, but
  no lemma equates the two; they are related only by reading, so `FixedAllOrNothing`
  and `RefusedCreditAddsToOrigin` are not proved of `Coordinator.Cross` itself.
- Wire.ReadFirstFrame: the stream is the whole byte sequence the peer sent, so partial
  reads are not modelled. A stream that ends before the frame does gives `None`, and
  the eight sniffed bytes (the length and the first four body bytes) go with it: the
  model has no later read that could see them. The source returns `null` there without
  clearing its stored header (centralserver/ManejadorWorkerServidor.java:293-296); what
  a later call would make of that header is not modelled.

## Findings

| source | as written | input that shows it | evidently intended | confidence | as-written member | corrected member |
|---|---|---|---|---|---|---|
| centralserver/ServidorCentral.java:64-73 | re-registration adds the worker to its new partitions but never removes it from its old ones | register `w` with `P1`, then again with `P2`: `P1`'s list still names `w`, whose record holds only `P2` | drop the worker from its old partitions before enrolling it | not executed | RegistryProps.RegisterLeavesStale | RegistryProps.RegisterFixedConsistent |
| centralserver/ManejadorClienteServidor.java:596-597 | the task wrapper (651-656) replaces a scalar payload with a map holding the worker id, so the audit never finds a number to count | any audit with at least one account partition answers a general error with total 0 | keep the scalar payload so the sums are added up | not executed | CoordinatorProps.AuditAlwaysFails | CoordinatorProps.AuditFixedReports |
| workernode/NodoTrabajador.java:552 | the prepare (479-495) writes nothing, yet after a refused credit the coordinator (484-516) sends a revert that adds the amount back | 30 from account 1 (balance 100) to account 2, which the destination partition lacks: account 1 ends at 130 | no revert after a refused credit, because nothing was debited | not executed | CrossProtocolProps.RefusedCreditAddsToOrigin | CrossProtocolProps.FixedAllOrNothing |
| centralserver/ManejadorWorkerServidor.java:441-444 | `escapeJson` escapes quotes before backslashes, so the backslash added for a quote is doubled | the name `"` escapes to `\\"`, which is not a valid JSON string body | escape backslashes first, then quotes | not executed | JsonTextProps.EscapeJsonBreaksQuotes | JsonTextProps.EscapeFixedRoundTrip |

=== FILE: bank_message.dfy ===
/** The BankSystem prototype's protocol message (`communication.Message` on the server and
    the worker's copy of it): the operation types, the static factories and `toString`.
    A field a factory does not set is `None` (Java `null`); amounts and balances are
    exact hundredths. */
module BankMessage {
  import opened Wrappers
  import opened Text
  import opened Decimal
  import Transaction

  datatype OpType =
    | ConsultarSaldo
    | TransferirFondos
    | ProcesarConsulta
    | ProcesarTransferencia
    | VerificarSaldo
    | ActualizarSaldo
    | RegistrarTransaccion
    | RespuestaProcesarConsulta
    | RespuestaProcesarTransferencia
    | RespuestaVerificarSaldo
    | RespuestaActualizarSaldo
    | RespuestaRegistrarTransaccion
    | RespuestaSaldo
    | RespuestaTransferencia
    | Error
    | Ping
    | Pong
    | RegistroNodo
    | ConfirmacionRegistro

  datatype Message = Message(
    op: Option<OpType>,
    account: Option<int>,
    origin: Option<int>,
    destination: Option<int>,
    amount: Option<int>,
    balance: Option<int>,
    text: Option<string>,
    status: Option<string>,
    nodeId: Option<int>,
    partitions: Option<seq<string>>)

  /** The no-argument constructor: every field null. */
  const Blank := Message(None, None, None, None, None, None, None, None, None, None)

  /** Client to server: a balance query. */
  function BalanceQuery(account: Option<int>): (m: Message)
    ensures m.op == Some(ConsultarSaldo) && m.account == account
    ensures m.(account := None) == Blank.(op := Some(ConsultarSaldo))
  {
    Blank.(op := Some(ConsultarSaldo), account := account)
  }

  /** Client to server: a transfer request. Only the type, the two accounts and the
      amount are set. */
  function TransferRequest(origin: Option<int>, destination: Option<int>, amount: Option<int>): (m: Message)
    ensures m.op == Some(TransferirFondos)
    ensures m.origin == origin && m.destination == destination && m.amount == amount
    ensures m.account.None? && m.balance.None? && m.text.None? && m.status.None?
    ensures m.nodeId.None? && m.partitions.None?
  {
    Blank.(op := Some(TransferirFondos), origin := origin, destination := destination, amount := amount)
  }

  /** Server to worker: a balance query. */
  function QueryOrder(account: Option<int>): (m: Message)
    ensures m.op == Some(ProcesarConsulta) && m.account == account
    ensures m.(account := None) == Blank.(op := Some(ProcesarConsulta))
  {
    Blank.(op := Some(ProcesarConsulta), account := account)
  }

  /** Server to worker: a funds check. */
  function CheckOrder(account: Option<int>, amount: Option<int>): (m: Message)
    ensures m.op == Some(VerificarSaldo) && m.account == account && m.amount == amount
    ensures m.(account := None, amount := None) == Blank.(op := Some(VerificarSaldo))
  {
    Blank.(op := Some(VerificarSaldo), account := account, amount := amount)
  }

  /** Server to worker: a balance change, stored as `+amount` for an increment and
      `-amount` otherwise. The conditional unboxes the amount, so a null amount is a
      `NullPointerException` (`None`) whichever the direction. */
  function UpdateOrder(account: Option<int>, amount: Option<int>, increment: bool): (r: Option<Message>)
    ensures r.Some? <==> amount.Some?
    ensures r.Some? ==> r.value.op == Some(ActualizarSaldo) && r.value.account == account
    ensures r.Some? ==> r.value.amount == Some(if increment then amount.value else -amount.value)
    ensures r.Some? ==> r.value.(account := None, amount := None) == Blank.(op := Some(ActualizarSaldo))
  {
    match amount
    case None => None
    case Some(a) => Some(Blank.(op := Some(ActualizarSaldo), account := account,
                                amount := Some(if increment then a else -a)))
  }

  /** Server to client: a balance. */
  function BalanceReply(account: Option<int>, balance: Option<int>): (m: Message)
    ensures m.op == Some(RespuestaSaldo) && m.account == account && m.balance == balance
    ensures m.(account := None, balance := None) == Blank.(op := Some(RespuestaSaldo))
  {
    Blank.(op := Some(RespuestaSaldo), account := account, balance := balance)
  }

  /** Server to client: the outcome of a transfer, named with the transfer record's
      status words. */
  function TransferReply(succeeded: bool, text: Option<string>): (m: Message)
    ensures m.op == Some(RespuestaTransferencia) && m.text == text
    ensures m.status == Some(Transaction.Confirmed) <==> succeeded
    ensures m.status == Some(Transaction.Rejected) <==> !succeeded
    ensures m.(status := None, text := None) == Blank.(op := Some(RespuestaTransferencia))
  {
    Blank.(op := Some(RespuestaTransferencia),
           status := Some(if succeeded then Transaction.Confirmed else Transaction.Rejected), text := text)
  }

  /** Worker to server: registration with the names of the partitions it holds. */
  function NodeRegistration(nodeId: Option<int>, partitions: Option<seq<string>>): (m: Message)
    ensures m.op == Some(RegistroNodo) && m.nodeId == nodeId && m.partitions == partitions
    ensures m.(nodeId := None, partitions := None) == Blank.(op := Some(RegistroNodo))
  {
    Blank.(op := Some(RegistroNodo), nodeId := nodeId, partitions := partitions)
  }

  function ErrorReply(text: Option<string>): (m: Message)
    ensures m.op == Some(Error) && m.text == text
    ensures m.(text := None) == Blank.(op := Some(Error))
  {
    Blank.(op := Some(Error), text := text)
  }

  /** The worker's answer to `PING`. */
  function PongReply(): (m: Message)
    ensures m.op == Some(Pong) && m.(op := None) == Blank
  {
    Blank.(op := Some(Pong))
  }

  /** Java's enum `toString` (`null` for a null type). */
  function OpName(op: Option<OpType>): string {
    match op
    case None => "null"
    case Some(ConsultarSaldo) => "CONSULTAR_SALDO"
    case Some(TransferirFondos) => "TRANSFERIR_FONDOS"
    case Some(ProcesarConsulta) => "PROCESAR_CONSULTA"
    case Some(ProcesarTransferencia) => "PROCESAR_TRANSFERENCIA"
    case Some(VerificarSaldo) => "VERIFICAR_SALDO"
    case Some(ActualizarSaldo) => "ACTUALIZAR_SALDO"
    case Some(RegistrarTransaccion) => "REGISTRAR_TRANSACCION"
    case Some(RespuestaProcesarConsulta) => "RESPUESTA_PROCESAR_CONSULTA"
    case Some(RespuestaProcesarTransferencia) => "RESPUESTA_PROCESAR_TRANSFERENCIA"
    case Some(RespuestaVerificarSaldo) => "RESPUESTA_VERIFICAR_SALDO"
    case Some(RespuestaActualizarSaldo) => "RESPUESTA_ACTUALIZAR_SALDO"
    case Some(RespuestaRegistrarTransaccion) => "RESPUESTA_REGISTRAR_TRANSACCION"
    case Some(RespuestaSaldo) => "RESPUESTA_SALDO"
    case Some(RespuestaTransferencia) => "RESPUESTA_TRANSFERENCIA"
    case Some(Error) => "ERROR"
    case Some(Ping) => "PING"
    case Some(Pong) => "PONG"
    case Some(RegistroNodo) => "REGISTRO_NODO"
    case Some(ConfirmacionRegistro) => "CONFIRMACION_REGISTRO"
  }

  /** One `toString` segment, `key` being ", name=": empty for a null field. */
  function NumSegment(key: string, v: Option<int>): string {
    if v.Some? then key + IntToString(v.value) else ""
  }

  function AmountSegment(key: string, v: Option<int>): string {
    if v.Some? then key + AmountText(v.value) else ""
  }

  function TextSegment(key: string, v: Option<string>): string {
    if v.Some? then key + v.value else ""
  }

  /** `toString`: the type always, then each non-null field among account, origin,
      destination, amount, balance, text, status and node id, in that order. */
  function Render(m: Message): string {
    "Message[type=" + OpName(m.op)
      + (NumSegment(", cuenta=", m.account) + (NumSegment(", origen=", m.origin)
      + (NumSegment(", destino=", m.destination) + (AmountSegment(", monto=", m.amount)
      + (AmountSegment(", saldo=", m.balance) + (TextSegment(", mensaje=", m.text)
      + (TextSegment(", estado=", m.status) + (NumSegment(", nodoId=", m.nodeId) + "]"))))))))
  }
}

module BankMessageProps {
  import opened Wrappers
  import opened Text
  import opened Decimal
  import opened BankMessage

  /** An increment and a decrement of the same amount carry opposite amounts. */
  lemma OppositeUpdates(account: Option<int>, amount: int)
    ensures UpdateOrder(account, Some(amount), true).value.amount.value
          + UpdateOrder(account, Some(amount), false).value.amount.value == 0
    ensures UpdateOrder(account, Some(amount), true).value.(amount := None)
         == UpdateOrder(account, Some(amount), false).value.(amount := None)
  {
  }

  /** A message with nothing but its type renders as the type alone. */
  lemma RenderMinimal(op: Option<OpType>)
    ensures Render(Blank.(op := op)) == "Message[type=" + OpName(op) + "]"
  {
  }

  /** The rendering always starts with the message type. */
  lemma RenderShowsType(m: Message)
    ensures StartsWith(Render(m), "Message[type=" + OpName(m.op))
  {
    var head := "Message[type=" + OpName(m.op);
    assert Render(m)[..|head|] == head;
  }

  /** The partition list never appears in the rendering. */
  lemma RenderOmitsPartitions(m: Message)
    ensures Render(m) == Render(m.(partitions := None))
  {
  }

  /** A transfer request renders its two accounts and its amount, in that order. */
  lemma RenderTransferRequest(origin: int, destination: int, amount: int)
    ensures Render(TransferRequest(Some(origin), Some(destination), Some(amount)))
         == "Message[type=" + OpName(Some(TransferirFondos)) + (", origen=" + IntToString(origin)
            + (", destino=" + IntToString(destination) + (", monto=" + AmountText(amount) + "]")))
  {
    var m := TransferRequest(Some(origin), Some(destination), Some(amount));
    assert NumSegment(", cuenta=", m.account) == "" && AmountSegment(", saldo=", m.balance) == "";
    assert TextSegment(", mensaje=", m.text) == "" && TextSegment(", estado=", m.status) == "";
    assert NumSegment(", nodoId=", m.nodeId) == "";
  }

  /** A non-null amount is rendered in the decimal form the worker reads back. */
  lemma RenderShowsAmount(m: Message)
    requires m.amount.Some?
    ensures Contains(Render(m), ", monto=" + AmountText(m.amount.value))
  {
    var seg := AmountSegment(", monto=", m.amount);
    var t3 := AmountSegment(", saldo=", m.balance) + (TextSegment(", mensaje=", m.text)
      + (TextSegment(", estado=", m.status) + (NumSegment(", nodoId=", m.nodeId) + "]")));
    var t2 := seg + t3;
    var t1 := NumSegment(", destino=", m.destination) + t2;
    var t0 := NumSegment(", origen=", m.origin) + t1;
    assert seg == ", monto=" + AmountText(m.amount.value);
    assert Render(m) == "Message[type=" + OpName(m.op) + (NumSegment(", cuenta=", m.account) + t0);
    ContainsFront(seg, t3);
    ContainsAfter(NumSegment(", destino=", m.destination), t2, seg);
    ContainsAfter(NumSegment(", origen=", m.origin), t1, seg);
    ContainsAfter(NumSegment(", cuenta=", m.account), t0, seg);
    ContainsAfter("Message[type=" + OpName(m.op), NumSegment(", cuenta=", m.account) + t0, seg);
  }
}

=== FILE: bank_model.dfy ===
/** The BankSystem prototype's server-side model classes: an account (`Cuenta`) with its
    funds check, debit and credit, and a transfer record (`Transaccion`) with its status
    transitions. Amounts are exact hundredths; null `Double`s are not modelled. */
module Account {
  datatype Account = Account(id: int, client: int, balance: int, kind: string)

  /** `tieneSaldoSuficiente`. */
  predicate HasFunds(a: Account, amount: int) {
    a.balance >= amount
  }

  /** `debitar`: the account after the call and whether the debit was made. Without
      sufficient funds nothing changes. */
  function Debit(a: Account, amount: int): (r: (Account, bool))
    ensures r.1 <==> HasFunds(a, amount)
    ensures !r.1 ==> r.0 == a
    ensures r.1 ==> r.0.balance == a.balance - amount && r.0.balance >= 0
    ensures r.0.id == a.id && r.0.client == a.client && r.0.kind == a.kind
  {
    if !HasFunds(a, amount) then (a, false)
    else (a.(balance := a.balance - amount), true)
  }

  /** `acreditar`: adds the amount, whatever its sign. */
  function Credit(a: Account, amount: int): (r: Account)
    ensures r.balance == a.balance + amount
    ensures r.id == a.id && r.client == a.client && r.kind == a.kind
  {
    a.(balance := a.balance + amount)
  }
}

module AccountProps {
  import opened Account

  /** A debit that goes through, followed by a credit of the same amount, restores the account. */
  lemma DebitThenCreditRestores(a: Account, amount: int)
    requires HasFunds(a, amount)
    ensures Credit(Debit(a, amount).0, amount) == a
  {
  }

  /** Crediting an amount always makes a debit of that amount possible again when the
      balance was not negative, and taking it back restores the account. */
  lemma CreditThenDebitRestores(a: Account, amount: int)
    requires a.balance >= 0
    ensures Debit(Credit(a, amount), amount) == (a, true)
  {
  }

  /** A refused debit leaves the account as it was, so retrying it is refused again. */
  lemma RefusedDebitIsStable(a: Account, amount: int)
    requires !Debit(a, amount).1
    ensures Debit(Debit(a, amount).0, amount) == Debit(a, amount)
  {
  }

  /** Debits never take a non-negative balance below zero, and a debit of more than the
      balance is refused. */
  lemma DebitKeepsNonNegative(a: Account, amount: int)
    requires a.balance >= 0
    ensures Debit(a, amount).0.balance >= 0
    ensures amount > a.balance ==> !Debit(a, amount).1
  {
  }
}

module Transaction {
  import opened Wrappers

  const Pending := "Pendiente"
  const Confirmed := "Confirmada"
  const Rejected := "Rechazada"

  /** A transfer record. Ids, accounts and amount are `null` (`None`) after the
      no-argument constructor; `time` is the creation instant, passed in by the caller. */
  datatype Transfer = Transfer(id: Option<int>, origin: Option<int>, destination: Option<int>,
                               amount: Option<int>, time: int, status: string)

  /** The no-argument constructor. */
  function Empty(now: int): (t: Transfer)
    ensures t.status == Pending && t.time == now
    ensures t.id.None? && t.origin.None? && t.destination.None? && t.amount.None?
  {
    Transfer(None, None, None, None, now, Pending)
  }

  /** The four-argument constructor. */
  function Create(id: int, origin: int, destination: int, amount: int, now: int): (t: Transfer)
    ensures t.status == Pending && t.time == now
    ensures t.id == Some(id) && t.origin == Some(origin) && t.destination == Some(destination)
    ensures t.amount == Some(amount)
  {
    Transfer(Some(id), Some(origin), Some(destination), Some(amount), now, Pending)
  }

  /** `confirmar`: whatever the current status. */
  function Confirm(t: Transfer): (r: Transfer)
    ensures r.status == Confirmed
    ensures r.(status := t.status) == t
  {
    t.(status := Confirmed)
  }

  /** `rechazar`: whatever the current status. */
  function Reject(t: Transfer): (r: Transfer)
    ensures r.status == Rejected
    ensures r.(status := t.status) == t
  {
    t.(status := Rejected)
  }
}

module TransactionProps {
  import opened Transaction

  /** There is no terminal state: the last of any sequence of confirmations and rejections
      decides the status, and nothing else about the record changes. */
  lemma LastCallWins(t: Transfer)
    ensures Reject(Confirm(t)) == Reject(t)
    ensures Confirm(Reject(t)) == Confirm(t)
    ensures Confirm(Confirm(t)) == Confirm(t) && Reject(Reject(t)) == Reject(t)
  {
  }

  /** A fresh record, from either constructor, can still go either way. */
  lemma FreshIsUndecided(id: int, origin: int, destination: int, amount: int, now: int)
    ensures Create(id, origin, destination, amount, now).status != Confirmed
    ensures Create(id, origin, destination, amount, now).status != Rejected
    ensures Empty(now).status != Confirmed && Empty(now).status != Rejected
    ensures Confirm(Create(id, origin, destination, amount, now)) != Reject(Create(id, origin, destination, amount, now))
  {
  }
}

=== FILE: bank_node.dfy ===
/** The BankSystem prototype's worker node (`NodoTrabajador`): partitions of CSV records
    ("101,1,1500.00,Ahorros"), the record lookup by id prefix, and the three operations it
    serves, balance query, funds check and balance update, plus the dispatch that
    routes an incoming message to them. Partitions are listed in the order the node's
    map yields them. */
module Node {
  import opened Wrappers
  import opened Text
  import opened Decimal
  import opened BankMessage

  /** The pieces of `s` between commas, empty ones included. */
  function Pieces(s: string): (r: seq<string>)
    ensures |r| >= 1
    decreases |s|
  {
    match IndexOf(s, ",")
    case None => [s]
    case Some(i) => [s[..i]] + Pieces(s[i + 1..])
  }

  /** `xs` without its trailing empty strings. */
  function DropTrailingEmpty(xs: seq<string>): (r: seq<string>)
    ensures |r| <= |xs| && r == xs[..|r|]
    ensures r == [] || r[|r| - 1] != ""
    ensures forall i :: |r| <= i < |xs| ==> xs[i] == ""
  {
    if xs != [] && xs[|xs| - 1] == "" then DropTrailingEmpty(xs[..|xs| - 1]) else xs
  }

  /** Java's `s.split(",")`: the whole string when it holds no comma, otherwise the
      pieces between commas without the trailing empty ones. */
  function Split(s: string): (r: seq<string>)
  {
    if ',' !in s then [s] else DropTrailingEmpty(Pieces(s))
  }

  /** A partition: its table type (`null` until set) and its records in insertion order. */
  datatype Partition = Partition(table: Option<string>, records: seq<string>)

  const AccountTable := "CUENTA"

  /** `String.valueOf` of the requested account id (`"null"` when absent). */
  function Key(account: Option<int>): (r: string)
    ensures ',' !in r
  {
    if account.Some? then
      IntToStringHasNo(account.value, ',');
      IntToString(account.value)
    else "null"
  }

  function FindFrom(records: seq<string>, id: string, from: nat): (r: Option<nat>)
    decreases |records| - from
    ensures r.Some? ==> from <= r.value < |records| && StartsWith(records[r.value], id + ",")
    ensures r.Some? ==> forall j :: from <= j < r.value ==> !StartsWith(records[j], id + ",")
    ensures r.None? ==> forall j :: from <= j < |records| ==> !StartsWith(records[j], id + ",")
  {
    if from >= |records| then None
    else if StartsWith(records[from], id + ",") then Some(from)
    else FindFrom(records, id, from + 1)
  }

  /** `buscarRegistroPorId`: the position of the first record that starts with the id
      followed by a comma. */
  function Find(records: seq<string>, id: string): (r: Option<nat>)
    ensures r.Some? ==> r.value < |records| && StartsWith(records[r.value], id + ",")
    ensures r.Some? ==> forall j :: 0 <= j < r.value ==> !StartsWith(records[j], id + ",")
    ensures r.None? ==> forall j :: 0 <= j < |records| ==> !StartsWith(records[j], id + ",")
  {
    FindFrom(records, id, 0)
  }

  /** `agregarRegistro`. */
  function Add(p: Partition, record: string): (r: Partition)
    ensures r.table == p.table && |r.records| == |p.records| + 1
    ensures r.records[..|p.records|] == p.records && r.records[|p.records|] == record
  {
    p.(records := p.records + [record])
  }

  /** `List.indexOf`: the first position holding `x`. */
  function IndexOfRecord(records: seq<string>, x: string): (r: Option<nat>)
    ensures r.Some? ==> r.value < |records| && records[r.value] == x
    ensures r.Some? ==> x !in records[..r.value]
    ensures r.None? <==> x !in records
  {
    if records == [] then None
    else if records[0] == x then Some(0)
    else match IndexOfRecord(records[1..], x)
      case None => None
      case Some(i) =>
        assert records[..i + 1] == [records[0]] + records[1..][..i];
        Some(i + 1)
  }

  /** `actualizarRegistro`: replaces the first record equal to `x` by `y`; no change
      when there is none. */
  function ReplaceRecord(records: seq<string>, x: string, y: string): (r: seq<string>)
    ensures |r| == |records|
    ensures x !in records ==> r == records
    ensures x in records ==> var i := IndexOfRecord(records, x).value;
                             x !in records[..i] && r == records[i := y]
  {
    match IndexOfRecord(records, x)
    case None => records
    case Some(i) => records[i := y]
  }

  /** The partition is of the account table and its first record for the id has at
      least three fields: the search stops here. */
  predicate Usable(p: Partition, id: string) {
    && p.table == Some(AccountTable)
    && Find(p.records, id).Some?
    && |Split(p.records[Find(p.records, id).value])| >= 3
  }

  /** Where a search ended: the partition, the record's position in it, and its fields. */
  datatype Hit = Hit(part: nat, index: nat, fields: seq<string>)

  /** The loop shared by the three operations: the first partition, from `from` on, that
      is usable for the id. A partition whose matching record is too short is passed
      over; later records of the same partition are not looked at. */
  function LocateFrom(parts: seq<Partition>, id: string, from: nat): (r: Option<Hit>)
    decreases |parts| - from
    ensures r.Some? ==> from <= r.value.part < |parts| && Usable(parts[r.value.part], id)
    ensures r.Some? ==> r.value.index == Find(parts[r.value.part].records, id).value
    ensures r.Some? ==> r.value.fields == Split(parts[r.value.part].records[r.value.index])
    ensures r.Some? ==> forall k :: from <= k < r.value.part ==> !Usable(parts[k], id)
    ensures r.None? ==> forall k :: from <= k < |parts| ==> !Usable(parts[k], id)
  {
    if from >= |parts| then None
    else if Usable(parts[from], id) then
      var i := Find(parts[from].records, id).value;
      Some(Hit(from, i, Split(parts[from].records[i])))
    else LocateFrom(parts, id, from + 1)
  }

  function Locate(parts: seq<Partition>, id: string): (r: Option<Hit>)
    ensures r.Some? ==> r.value.part < |parts| && Usable(parts[r.value.part], id)
    ensures r.Some? ==> r.value.index == Find(parts[r.value.part].records, id).value
    ensures r.Some? ==> r.value.fields == Split(parts[r.value.part].records[r.value.index])
    ensures r.Some? ==> forall k :: 0 <= k < r.value.part ==> !Usable(parts[k], id)
    ensures r.None? ==> forall k :: 0 <= k < |parts| ==> !Usable(parts[k], id)
  {
    LocateFrom(parts, id, 0)
  }

  /** What the node sends back: a reply, or `Fault` for a runtime exception (an
      unparseable balance, a null amount, a missing fourth field), which the dispatcher
      answers with an ERROR whose text carries the exception's message. */
  datatype Outcome = Answer(reply: Message) | Fault

  function NotFound(account: Option<int>): Message {
    ErrorReply(Some("Cuenta no encontrada: " + Key(account)))
  }

  /** `procesarConsulta`: the balance of the first usable record, or an error reply when
      no partition has one. */
  function Query(parts: seq<Partition>, msg: Message): (r: Outcome)
    ensures Locate(parts, Key(msg.account)).None? ==> r == Answer(NotFound(msg.account))
    ensures Locate(parts, Key(msg.account)).Some? ==>
      var h := Locate(parts, Key(msg.account)).value;
      && (ParseAmount(h.fields[2]).None? ==> r.Fault?)
      && (ParseAmount(h.fields[2]).Some? ==>
            r.Answer? && r.reply.op == Some(RespuestaProcesarConsulta) && r.reply.account == msg.account
            && r.reply.balance == ParseAmount(h.fields[2]))
  {
    match Locate(parts, Key(msg.account))
    case None => Answer(NotFound(msg.account))
    case Some(h) =>
      match ParseAmount(h.fields[2])
      case None => Fault
      case Some(b) => Answer(Blank.(op := Some(RespuestaProcesarConsulta), account := msg.account, balance := Some(b)))
  }

  const Sufficient := "SUFICIENTE"
  const Insufficient := "INSUFICIENTE"

  /** `verificarSaldo`: the balance and whether it covers the amount; the partitions are
      only read. */
  function Check(parts: seq<Partition>, msg: Message): (r: Outcome)
    ensures Locate(parts, Key(msg.account)).None? ==> r == Answer(NotFound(msg.account))
    ensures msg.amount.None? && Locate(parts, Key(msg.account)).Some? ==> r.Fault?
    ensures Locate(parts, Key(msg.account)).Some? ==>
      var h := Locate(parts, Key(msg.account)).value;
      && (ParseAmount(h.fields[2]).None? ==> r.Fault?)
      && (ParseAmount(h.fields[2]).Some? && msg.amount.Some? ==>
            r.Answer? && r.reply.op == Some(RespuestaVerificarSaldo) && r.reply.balance == ParseAmount(h.fields[2]))
    ensures r.Answer? && r.reply.op == Some(RespuestaVerificarSaldo) ==>
      && msg.amount.Some? && r.reply.balance.Some? && r.reply.account == msg.account
      && (r.reply.status == Some(Sufficient) <==> r.reply.balance.value >= msg.amount.value)
      && (r.reply.status == Some(Insufficient) <==> r.reply.balance.value < msg.amount.value)
  {
    match Locate(parts, Key(msg.account))
    case None => Answer(NotFound(msg.account))
    case Some(h) =>
      match ParseAmount(h.fields[2])
      case None => Fault
      case Some(b) =>
        if msg.amount.None? then Fault
        else
          var enough := b >= msg.amount.value;
          Answer(Blank.(op := Some(RespuestaVerificarSaldo), account := msg.account, balance := Some(b),
                        status := Some(if enough then Sufficient else Insufficient)))
  }

  const Updated := "ACTUALIZADO"
  const Overdraft := "Saldo insuficiente"

  /** The rewritten record: fields 0 and 1, the new balance, field 3. */
  function Rewrite(fields: seq<string>, balance: int): string
    requires |fields| >= 4
  {
    fields[0] + "," + fields[1] + "," + AmountText(balance) + "," + fields[3]
  }

  /** The first record equal to the one found is the one found: replacing "the first
      equal record" rewrites exactly the record the search returned. */
  lemma FoundIsFirstEqual(records: seq<string>, id: string)
    requires Find(records, id).Some?
    ensures IndexOfRecord(records, records[Find(records, id).value]) == Some(Find(records, id).value)
  {
    var i := Find(records, id).value;
    assert records[i] in records;
  }

  /** The partitions after rewriting the record at `h` with the new balance. */
  function Rewritten(parts: seq<Partition>, h: Hit, balance: int): seq<Partition>
    requires h.part < |parts| && h.index < |parts[h.part].records| && |h.fields| >= 4
  {
    parts[h.part := parts[h.part].(records := parts[h.part].records[h.index := Rewrite(h.fields, balance)])]
  }

  /** `actualizarSaldo` once the record is found at `h`: adds the (signed) amount to
      its balance and rewrites it in place, refusing a result below zero. Saving the
      partition is a no-op in the prototype. */
  function UpdateAt(parts: seq<Partition>, msg: Message, h: Hit): (r: (seq<Partition>, Outcome))
    requires h.part < |parts| && |h.fields| >= 3
    requires Find(parts[h.part].records, Key(msg.account)) == Some(h.index)
    ensures var b := ParseAmount(h.fields[2]);
      && (b.None? || msg.amount.None? ==> r == (parts, Fault))
      && (b.Some? && msg.amount.Some? && b.value + msg.amount.value < 0 ==>
            r == (parts, Answer(ErrorReply(Some(Overdraft)))))
      && (b.Some? && msg.amount.Some? && b.value + msg.amount.value >= 0 && |h.fields| < 4 ==>
            r == (parts, Fault))
      && (b.Some? && msg.amount.Some? && b.value + msg.amount.value >= 0 && |h.fields| >= 4 ==>
            && r.1.Answer? && r.1.reply.op == Some(RespuestaActualizarSaldo) && r.1.reply.status == Some(Updated)
            && r.0 == Rewritten(parts, h, b.value + msg.amount.value))
    ensures r.0 != parts ==> r.1.Answer? && r.1.reply.status == Some(Updated)
    ensures r.1.Answer? && r.1.reply.op == Some(RespuestaActualizarSaldo) ==>
      && ParseAmount(h.fields[2]).Some? && msg.amount.Some? && |h.fields| >= 4
      && r.1.reply.balance == Some(ParseAmount(h.fields[2]).value + msg.amount.value)
      && r.1.reply.balance.value >= 0 && r.1.reply.account == msg.account
      && r.0 == Rewritten(parts, h, r.1.reply.balance.value)
  {
    match ParseAmount(h.fields[2])
    case None => (parts, Fault)
    case Some(b) =>
      if msg.amount.None? then (parts, Fault)
      else
        var nb := b + msg.amount.value;
        if nb < 0 then (parts, Answer(ErrorReply(Some(Overdraft))))
        else if |h.fields| < 4 then (parts, Fault)
        else
          var p := parts[h.part];
          var rec := p.records[h.index];
          FoundIsFirstEqual(p.records, Key(msg.account));
          var p' := p.(records := ReplaceRecord(p.records, rec, Rewrite(h.fields, nb)));
          (parts[h.part := p'],
           Answer(Blank.(op := Some(RespuestaActualizarSaldo), account := msg.account,
                         balance := Some(nb), status := Some(Updated))))
  }

  /** `actualizarSaldo`: an error reply when no partition has a usable record. */
  function Update(parts: seq<Partition>, msg: Message): (r: (seq<Partition>, Outcome))
    ensures Locate(parts, Key(msg.account)).None? ==> r == (parts, Answer(NotFound(msg.account)))
    ensures Locate(parts, Key(msg.account)).Some? ==> r == UpdateAt(parts, msg, Locate(parts, Key(msg.account)).value)
    ensures |r.0| == |parts|
  {
    match Locate(parts, Key(msg.account))
    case None => (parts, Answer(NotFound(msg.account)))
    case Some(h) => UpdateAt(parts, msg, h)
  }

  const Unsupported := "Operación no soportada"

  /** `procesarMensaje`: routes the message by type. A null type is a
      `NullPointerException` in the `switch` (`Fault`). */
  function Dispatch(parts: seq<Partition>, msg: Message): (r: (seq<Partition>, Outcome))
    ensures msg.op.None? ==> r == (parts, Fault)
    ensures msg.op == Some(Ping) ==> r == (parts, Answer(PongReply()))
    ensures msg.op == Some(ProcesarConsulta) ==> r == (parts, Query(parts, msg))
    ensures msg.op == Some(VerificarSaldo) ==> r == (parts, Check(parts, msg))
    ensures msg.op == Some(ActualizarSaldo) ==> r == Update(parts, msg)
    ensures msg.op.Some? && msg.op.value !in {Ping, ProcesarConsulta, VerificarSaldo, ActualizarSaldo} ==>
      r == (parts, Answer(ErrorReply(Some(Unsupported))))
  {
    match msg.op
    case None => (parts, Fault)
    case Some(ProcesarConsulta) => (parts, Query(parts, msg))
    case Some(VerificarSaldo) => (parts, Check(parts, msg))
    case Some(ActualizarSaldo) => Update(parts, msg)
    case Some(Ping) => (parts, Answer(PongReply()))
    case Some(_) => (parts, Answer(ErrorReply(Some(Unsupported))))
  }

  /** `registrarNodo`: the node stays connected iff the server answers with a
      registration confirmation. */
  predicate Accepted(reply: Message) {
    reply.op == Some(ConfirmacionRegistro)
  }
}

module NodeProps {
  import opened Wrappers
  import opened Text
  import opened Decimal
  import DecimalProps
  import opened BankMessage
  import opened Node

  /** The first piece of a string whose first comma follows `a` is `a`. */
  lemma PiecesCons(a: string, b: string)
    requires ',' !in a
    ensures Pieces(a + "," + b) == [a] + Pieces(b)
  {
    var s := a + "," + b;
    assert OccursAt(s, ",", |a|) by { assert s[|a|..|a| + 1] == ","; }
    forall j | 0 <= j < |a| ensures !OccursAt(s, ",", j) {
      assert s[j] == a[j];
    }
    assert s[..|a|] == a;
    assert s[|a| + 1..] == b;
  }

  lemma PiecesSingle(a: string)
    requires ',' !in a
    ensures Pieces(a) == [a]
  {
    forall j | 0 <= j && j + 1 <= |a| ensures !OccursAt(a, ",", j) {
      assert a[j..j + 1] == [a[j]];
    }
  }

  /** No piece holds a comma. */
  lemma {:induction false} PiecesNoComma(s: string)
    ensures forall k :: 0 <= k < |Pieces(s)| ==> ',' !in Pieces(s)[k]
    decreases |s|
  {
    match IndexOf(s, ",")
    case None =>
      forall j | 0 <= j < |s| ensures s[j] != ',' {
        assert !OccursAt(s, ",", j);
      }
    case Some(i) =>
      PiecesNoComma(s[i + 1..]);
      forall j | 0 <= j < i ensures s[..i][j] != ',' {
        assert !OccursAt(s, ",", j);
      }
  }

  /** No field of a split holds a comma. */
  lemma SplitNoComma(s: string)
    ensures forall k :: 0 <= k < |Split(s)| ==> ',' !in Split(s)[k]
  {
    PiecesNoComma(s);
  }

  /** A record matches an id (without commas) exactly when it has more than one piece and
      its first piece is the id: the prefix test compares whole first fields, so id 10
      never matches record "101,...". */
  lemma MatchIsFirstField(rec: string, id: string)
    requires ',' !in id
    ensures StartsWith(rec, id + ",") <==> |Pieces(rec)| > 1 && Pieces(rec)[0] == id
  {
    if StartsWith(rec, id + ",") {
      assert rec == id + "," + rec[|id| + 1..] by {
        assert rec[..|id| + 1] == id + ",";
      }
      PiecesCons(id, rec[|id| + 1..]);
    }
    if |Pieces(rec)| > 1 && Pieces(rec)[0] == id {
      var i := IndexOf(rec, ",").value;
      assert rec[..i] == id;
      assert rec[i..i + 1] == ",";
      assert rec[..|id| + 1] == id + ",";
    }
  }

  /** The first field of a matching record is the id itself. */
  lemma FirstFieldOfMatch(rec: string, id: string)
    requires ',' !in id && StartsWith(rec, id + ",") && |Split(rec)| >= 1
    ensures Split(rec)[0] == id
  {
    MatchIsFirstField(rec, id);
    assert rec[|id|] == ',' by { assert rec[..|id| + 1][|id|] == ','; }
  }

  lemma AmountTextNoComma(c: int)
    ensures ',' !in AmountText(c)
  {
    var a := if c < 0 then -c else c;
    var w := NatToString(a / 100);
    var f := FractionText(a % 100);
    assert forall j :: 0 <= j < |w| ==> IsDigit(w[j]);
    assert ',' !in w && ',' !in f;
    assert UnsignedText(a) == w + "." + f;
  }

  lemma JoinFour(a: string, b: string, c: string, d: string)
    ensures a + "," + b + "," + c + "," + d == a + "," + (b + "," + (c + "," + d))
  {
  }

  /** Four comma-free fields joined by commas come apart into those four pieces. */
  lemma PiecesFour(a: string, b: string, c: string, d: string)
    requires ',' !in a && ',' !in b && ',' !in c && ',' !in d
    ensures Pieces(a + "," + (b + "," + (c + "," + d))) == [a, b, c, d]
  {
    var t3 := c + "," + d;
    var t2 := b + "," + t3;
    PiecesSingle(d);
    PiecesCons(c, d);
    assert Pieces(t3) == [c, d];
    PiecesCons(b, t3);
    assert Pieces(t2) == [b, c, d];
    PiecesCons(a, t2);
  }

  /** Only an empty fourth field is dropped when the third is not empty. */
  lemma DropFour(a: string, b: string, c: string, d: string)
    requires c != ""
    ensures DropTrailingEmpty([a, b, c, d]) == if d == "" then [a, b, c] else [a, b, c, d]
  {
    if d == "" {
      assert [a, b, c, d][..3] == [a, b, c];
    }
  }

  /** The fields of a rewritten record: the first two, the balance, and the fourth
      unless it was empty (then `split` drops it). */
  lemma SplitRewrite(a: string, b: string, c: string, d: string)
    requires ',' !in a && ',' !in b && ',' !in c && ',' !in d && c != ""
    ensures Split(a + "," + b + "," + c + "," + d) == if d == "" then [a, b, c] else [a, b, c, d]
  {
    var s := a + "," + (b + "," + (c + "," + d));
    JoinFour(a, b, c, d);
    PiecesFour(a, b, c, d);
    assert s[|a|] == ',';
    DropFour(a, b, c, d);
  }

  /** The search stops at the first matching record. */
  lemma FindAt(records: seq<string>, id: string, i: nat)
    requires i < |records| && StartsWith(records[i], id + ",")
    requires forall j :: 0 <= j < i ==> !StartsWith(records[j], id + ",")
    ensures Find(records, id) == Some(i)
  {
  }

  /** The operations stop at the first usable partition. */
  lemma LocateAt(parts: seq<Partition>, id: string, k: nat)
    requires k < |parts| && Usable(parts[k], id)
    requires forall j :: 0 <= j < k ==> !Usable(parts[j], id)
    ensures Locate(parts, id).Some? && Locate(parts, id).value.part == k
  {
  }

  /** A rewritten record still matches its id, and its third field is the new balance. */
  lemma RewriteFields(fs: seq<string>, nb: int, id: string)
    requires |fs| >= 4 && fs[0] == id
    requires forall k :: 0 <= k < |fs| ==> ',' !in fs[k]
    ensures StartsWith(Rewrite(fs, nb), id + ",")
    ensures |Split(Rewrite(fs, nb))| >= 3 && Split(Rewrite(fs, nb))[2] == AmountText(nb)
  {
    var nr := Rewrite(fs, nb);
    assert ',' !in fs[0] && ',' !in fs[1] && ',' !in fs[3];
    AmountTextNoComma(nb);
    SplitRewrite(fs[0], fs[1], AmountText(nb), fs[3]);
    assert nr[..|id| + 1] == id + ",";
  }

  /** After a rewrite the search stops at the same record, now rewritten. */
  lemma RewriteFound(parts: seq<Partition>, id: string, nb: int)
    requires ',' !in id && Locate(parts, id).Some? && |Locate(parts, id).value.fields| >= 4
    ensures var h := Locate(parts, id).value;
            var f := Locate(Rewritten(parts, h, nb), id);
            f.Some? && f.value.part == h.part && |f.value.fields| >= 3 && f.value.fields[2] == AmountText(nb)
  {
    var h := Locate(parts, id).value;
    var q := Rewritten(parts, h, nb);
    var rec := parts[h.part].records[h.index];
    SplitNoComma(rec);
    FirstFieldOfMatch(rec, id);
    RewriteFields(h.fields, nb, id);
    var rs := q[h.part].records;
    assert rs == parts[h.part].records[h.index := Rewrite(h.fields, nb)];
    FindAt(rs, id, h.index);
    forall j | 0 <= j < h.part ensures !Usable(q[j], id) {
      assert q[j] == parts[j];
    }
    LocateAt(q, id, h.part);
  }

  /** Read-your-write: after a successful balance update, a query for the same account
      finds the rewritten record and answers the new balance. */
  lemma UpdateThenQuery(parts: seq<Partition>, msg: Message)
    requires Update(parts, msg).1.Answer? && Update(parts, msg).1.reply.op == Some(RespuestaActualizarSaldo)
    ensures Query(Update(parts, msg).0, msg).Answer?
    ensures Query(Update(parts, msg).0, msg).reply.balance == Update(parts, msg).1.reply.balance
  {
    var id := Key(msg.account);
    var nb := Update(parts, msg).1.reply.balance.value;
    RewriteFound(parts, id, nb);
    DecimalProps.AmountRoundTrip(nb);
  }

  /** A funds check and a query of the same account read the same balance. */
  lemma CheckAgreesWithQuery(parts: seq<Partition>, msg: Message)
    requires Check(parts, msg).Answer? && Check(parts, msg).reply.op == Some(RespuestaVerificarSaldo)
    ensures Query(parts, msg).Answer? && Query(parts, msg).reply.balance == Check(parts, msg).reply.balance
  {
  }

  /** Partitions of other tables are never read: replacing one by another non-account
      partition changes no search. */
  lemma NonAccountIgnored(parts: seq<Partition>, k: nat, p: Partition, id: string)
    requires k < |parts| && parts[k].table != Some(AccountTable) && p.table != Some(AccountTable)
    ensures Locate(parts[k := p], id) == Locate(parts, id)
  {
    var q := parts[k := p];
    assert forall j :: 0 <= j < |q| ==> (Usable(q[j], id) <==> Usable(parts[j], id));
    if Locate(parts, id).Some? {
      var h := Locate(parts, id).value;
      LocateAt(q, id, h.part);
    }
  }

  /** Hence a query gives the same answer whatever the other tables hold. */
  lemma QueryIgnoresOtherTables(parts: seq<Partition>, k: nat, p: Partition, msg: Message)
    requires k < |parts| && parts[k].table != Some(AccountTable) && p.table != Some(AccountTable)
    ensures Query(parts[k := p], msg) == Query(parts, msg)
  {
    NonAccountIgnored(parts, k, p, Key(msg.account));
  }
}

=== FILE: coordinator.dfy ===
/** The coordinator's client request handler (`ManejadorClienteServidor`): balance
    queries, transfers within one partition and across two, the partition-sum audit,
    the sub-operation wrapper and replica fan-out. Every contact with a worker is
    appended to a call log, and what came back from the k-th contact is `net(k)`: the
    network and the workers are an input, not something the model simulates. */
module Coordinator {
  import opened Wrappers
  import opened Messages
  import opened Registry
  import opened Partitioning
  import Text

  /** What one contact with a worker produced: a `Respuesta`, a timeout or I/O error,
      an object that is not a `Respuesta`, or a reply whose class cannot be loaded. */
  datatype Outcome = Reply(resp: Respuesta) | CommFailure | BadObject | BadClass

  /** One contact: the worker addressed and the request sent to it. */
  datatype Call = Call(worker: string, req: Solicitud)

  /** The coordinator's state: the registry and every contact made so far. */
  datatype Env = Env(reg: Registry, sent: seq<Call>)

  /** The network: the outcome of the contact with the given position in the log. */
  type Net = nat -> Outcome

  /** Talking to workers changes the registry's membership (deregistration) and nothing else. */
  predicate OnlyMembership(before: Registry, after: Registry) {
    after.(workers := before.workers, replicas := before.replicas) == before
  }

  /** How a replica loop ended: with a worker's answer, with an unexpected object (when
      that stops the loop), with an unloadable reply class, or with every replica tried. */
  datatype Attempt = Answered(worker: string, resp: Respuesta) | Malformed | Undecodable | Exhausted

  /** An outcome after which the loop moves on to the next replica: always a
      communication failure, and an unexpected object when `retryMalformed`. */
  predicate MovesOn(o: Outcome, retryMalformed: bool) {
    o.CommFailure? || (retryMalformed && o.BadObject?)
  }

  /** The contacts made after position `from` of the log, all with `req`, each to a
      worker of `ws` that was live in `reg` when the loop started. */
  predicate ContactsFrom(sent: seq<Call>, from: nat, ws: seq<string>, req: Solicitud, reg: Registry) {
    forall k :: from <= k < |sent| ==> sent[k].req == req && sent[k].worker in ws && IsLive(reg, sent[k].worker)
  }

  /** The replica loop shared by the query, the intra-partition transfer and the
      sub-operation wrapper: walk the list, skip workers that are missing or inactive,
      contact the others in turn; a communication failure deregisters the worker and
      moves on. */
  function TryReplicas(env: Env, net: Net, ws: seq<string>, req: Solicitud, retryMalformed: bool): (r: (Attempt, Env))
    ensures |env.sent| <= |r.1.sent| && r.1.sent[..|env.sent|] == env.sent
    ensures !r.0.Exhausted? ==> |r.1.sent| > |env.sent|
    ensures r.0.Answered? ==> net(|r.1.sent| - 1) == Reply(r.0.resp) && r.1.sent[|r.1.sent| - 1].worker == r.0.worker
    ensures r.0.Malformed? ==> !retryMalformed && net(|r.1.sent| - 1) == BadObject
    ensures r.0.Undecodable? ==> net(|r.1.sent| - 1) == BadClass
    ensures r.0.Exhausted? && |r.1.sent| > |env.sent| ==> MovesOn(net(|r.1.sent| - 1), retryMalformed)
    ensures OnlyMembership(env.reg, r.1.reg)
    decreases |ws|
  {
    if ws == [] then (Exhausted, env)
    else
      var w := ws[0];
      if !IsLive(env.reg, w) then TryReplicas(env, net, ws[1..], req, retryMalformed)
      else
        var o := net(|env.sent|);
        var env1 := env.(sent := env.sent + [Call(w, req)]);
        if o.Reply? then (Answered(w, o.resp), env1)
        else if o.BadClass? then (Undecodable, env1)
        else if o.BadObject? && !retryMalformed then (Malformed, env1)
        else if o.BadObject? then TryReplicas(env1, net, ws[1..], req, retryMalformed)
        else TryReplicas(env1.(reg := Deregister(env1.reg, w)), net, ws[1..], req, retryMalformed)
  }

  // ---------------------------------------------------------------------------
  // The sub-operation wrapper and replica fan-out
  // ---------------------------------------------------------------------------

  /** The wrapper's rewrite of a worker's data: a map is copied and gets
      `workerIdProcesador` set to the answering worker; anything else is replaced by a
      map holding only that entry. With `keepScalar` (the corrected wrapper), data that
      is not a map is passed through untouched. */
  function Stamp(p: Payload, w: string, keepScalar: bool): (r: Payload)
    ensures p.Fields? || !keepScalar ==> TextField(r, KeyWorkerId) == Some(w) && NumField(r, KeyWorkerId).None?
    ensures p.Fields? ==> forall k :: k != KeyWorkerId ==> NumField(r, k) == NumField(p, k) && TextField(r, k) == TextField(p, k)
    ensures !p.Fields? && !keepScalar ==> r == Fields(map[], map[KeyWorkerId := w])
    ensures !p.Fields? && keepScalar ==> r == p
  {
    if p.Fields? then Fields(p.nums - {KeyWorkerId}, p.texts[KeyWorkerId := w])
    else if keepScalar then p
    else Fields(map[], map[KeyWorkerId := w])
  }

  /** `enviarSolicitudSubOperacion`: try the replicas of partition `p` in order and return
      the first worker reply, whatever its status, with its data stamped; an unexpected
      object is `ERROR_COMUNICACION`, an unloadable class `ERROR_GENERAL_SERVIDOR`, no
      replica `ERROR_GENERAL_SERVIDOR` and no live replica left
      `ERROR_REINTENTAR_EN_OTRO_NODO`. */
  function SubOp(env: Env, net: Net, p: string, req: Solicitud, keepScalar: bool): (r: (Respuesta, Env))
    ensures ListOf(env.reg.replicas, p) == [] ==> r == (Bare(ErrorGeneralServidor), env)
    ensures |env.sent| <= |r.1.sent| && r.1.sent[..|env.sent|] == env.sent
    ensures OnlyMembership(env.reg, r.1.reg)
    ensures |r.1.sent| > |env.sent| && net(|r.1.sent| - 1).Reply? ==>
      var last := |r.1.sent| - 1;
      r.0 == Respuesta(net(last).resp.status, Stamp(net(last).resp.payload, r.1.sent[last].worker, keepScalar))
    ensures |r.1.sent| > |env.sent| && net(|r.1.sent| - 1).BadObject? ==> r.0 == Bare(ErrorComunicacion)
    ensures |r.1.sent| > |env.sent| && net(|r.1.sent| - 1).BadClass? ==> r.0 == Bare(ErrorGeneralServidor)
    ensures !(|r.1.sent| > |env.sent| && net(|r.1.sent| - 1).Reply?) ==>
              r.0.payload == NoData && r.0.status in {ErrorGeneralServidor, ErrorComunicacion, ErrorReintentarEnOtroNodo}
    ensures ListOf(env.reg.replicas, p) != [] && (|r.1.sent| == |env.sent| || net(|r.1.sent| - 1).CommFailure?) ==>
              r.0 == Bare(ErrorReintentarEnOtroNodo)
  {
    var ws := ListOf(env.reg.replicas, p);
    if ws == [] then (Bare(ErrorGeneralServidor), env)
    else
      var a := TryReplicas(env, net, ws, req, false);
      match a.0
      case Answered(w, resp) => (Respuesta(resp.status, Stamp(resp.payload, w, keepScalar)), a.1)
      case Malformed => (Bare(ErrorComunicacion), a.1)
      case Undecodable => (Bare(ErrorGeneralServidor), a.1)
      case Exhausted => (Bare(ErrorReintentarEnOtroNodo), a.1)
  }

  /** The workers a replica update goes to: the listed ones that are live, except the
      primary (a `null` primary excludes nobody). */
  function Targets(reg: Registry, ws: seq<string>, primary: Option<string>): (r: seq<string>)
    ensures forall w :: w in r <==> w in ws && IsLive(reg, w) && primary != Some(w)
    ensures |r| <= |ws|
  {
    if ws == [] then []
    else (if IsLive(reg, ws[0]) && primary != Some(ws[0]) then [ws[0]] else []) + Targets(reg, ws[1..], primary)
  }

  /** The request a replica update carries. */
  function ReplicaRequest(p: string, account: int, nb: int, tx: int): Solicitud {
    Solicitud(ActualizarSaldoReplica,
              NoParams.(account := Some(account), newBalance := Some(nb), partition := Some(p), txId := Some(tx)))
  }

  /** `replicarActualizacionSaldo`: send the new balance to every target of the partition.
      The outcomes are only logged, so they change nothing and nobody is deregistered. */
  function Replicate(env: Env, p: string, account: int, nb: int, primary: Option<string>, tx: int): (r: Env)
    ensures r.reg == env.reg
    ensures |r.sent| == |env.sent| + |Targets(env.reg, ListOf(env.reg.replicas, p), primary)|
    ensures r.sent[..|env.sent|] == env.sent
    ensures forall k :: |env.sent| <= k < |r.sent| ==>
      r.sent[k] == Call(Targets(env.reg, ListOf(env.reg.replicas, p), primary)[k - |env.sent|], ReplicaRequest(p, account, nb, tx))
  {
    var ts := Targets(env.reg, ListOf(env.reg.replicas, p), primary);
    env.(sent := env.sent + seq(|ts|, i requires 0 <= i < |ts| => Call(ts[i], ReplicaRequest(p, account, nb, tx))))
  }

  // ---------------------------------------------------------------------------
  // Client operations
  // ---------------------------------------------------------------------------

  /** `procesarConsultaSaldo`: the account's partition, then its replicas in order. A
      worker reply is returned as it came; an unexpected object moves on to the next
      replica; an unloadable class ends with `ERROR_GENERAL_SERVIDOR`. */
  function Query(env: Env, net: Net, prm: Params): (r: (Respuesta, Env))
    ensures prm.account.None? ==> r == (Bare(ErrorGeneralServidor), env)
    ensures prm.account.Some? && prm.account.value !in env.reg.accountPartition ==>
      r == (Bare(ErrorCuentaOrigenNoExiste), env)
    ensures (prm.account.Some? && prm.account.value in env.reg.accountPartition &&
             ListOf(env.reg.replicas, env.reg.accountPartition[prm.account.value]) == []) ==>
            r == (Bare(ErrorGeneralServidor), env)
    ensures |env.sent| <= |r.1.sent| && r.1.sent[..|env.sent|] == env.sent
    ensures OnlyMembership(env.reg, r.1.reg)
    ensures |r.1.sent| > |env.sent| && net(|r.1.sent| - 1).Reply? ==> r.0 == net(|r.1.sent| - 1).resp
    ensures |r.1.sent| > |env.sent| && net(|r.1.sent| - 1).BadClass? ==> r.0 == Bare(ErrorGeneralServidor)
    ensures (prm.account.Some? && prm.account.value in env.reg.accountPartition &&
             ListOf(env.reg.replicas, env.reg.accountPartition[prm.account.value]) != [] &&
             !(|r.1.sent| > |env.sent| && (net(|r.1.sent| - 1).Reply? || net(|r.1.sent| - 1).BadClass?))) ==>
            r.0 == Bare(ErrorReintentarEnOtroNodo)
  {
    if prm.account.None? then (Bare(ErrorGeneralServidor), env)
    else
      var a := prm.account.value;
      match Lookup(env.reg.accountPartition, a)
      case None => (Bare(ErrorCuentaOrigenNoExiste), env)
      case Some(p) =>
        var ws := ListOf(env.reg.replicas, p);
        if ws == [] then (Bare(ErrorGeneralServidor), env)
        else
          var t := TryReplicas(env, net, ws, Solicitud(ConsultarSaldo, NoParams.(account := Some(a), partition := Some(p))), true);
          match t.0
          case Answered(_, resp) => (resp, t.1)
          case Undecodable => (Bare(ErrorGeneralServidor), t.1)
          case _ => (Bare(ErrorReintentarEnOtroNodo), t.1)
  }

  /** The request of the intra-partition transfer. */
  function IntraRequest(tx: int, o: int, d: int, m: int, p: string): Solicitud {
    Solicitud(TransferirFondos,
              NoParams.(origin := Some(o), dest := Some(d), amount := Some(m), partition := Some(p), txId := Some(tx)))
  }

  /** The fan-out after a successful intra-partition transfer: each new balance present in
      the worker's map goes to the partition's other live replicas. */
  function IntraFanout(env: Env, tx: int, o: int, d: int, p: string, w: string, data: Payload): (r: Env) {
    var e1 := match NumField(data, KeyNuevoSaldoOrigen)
              case Some(v) => Replicate(env, p, o, v, Some(w), tx)
              case None => env;
    match NumField(data, KeyNuevoSaldoDestino)
    case Some(v) => Replicate(e1, p, d, v, Some(w), tx)
    case None => e1
  }

  /** `manejarTransferenciaMismaParticion`: the first worker reply is returned; when it is
      `EXITO` with a map, the new balances are replicated first. */
  function Intra(env: Env, net: Net, tx: int, o: int, d: int, m: int, p: string): (r: (Respuesta, Env))
    ensures ListOf(env.reg.replicas, p) == [] ==> r == (Bare(ErrorGeneralServidor), env)
    ensures |env.sent| <= |r.1.sent| && r.1.sent[..|env.sent|] == env.sent
    ensures OnlyMembership(env.reg, r.1.reg)
    ensures var ws := ListOf(env.reg.replicas, p);
            var t := TryReplicas(env, net, ws, IntraRequest(tx, o, d, m, p), true);
            ws != [] ==>
              && (t.0.Answered? ==> r.0 == t.0.resp && |t.1.sent| <= |r.1.sent| && r.1.sent[..|t.1.sent|] == t.1.sent)
              && (t.0.Answered? && !(t.0.resp.status == Exito && t.0.resp.payload.Fields?) ==> r.1 == t.1)
              && (t.0.Undecodable? ==> r == (Bare(ErrorGeneralServidor), t.1))
              && (t.0.Exhausted? ==> r == (Bare(ErrorReintentarEnOtroNodo), t.1))
  {
    var ws := ListOf(env.reg.replicas, p);
    if ws == [] then (Bare(ErrorGeneralServidor), env)
    else
      var t := TryReplicas(env, net, ws, IntraRequest(tx, o, d, m, p), true);
      match t.0
      case Answered(w, resp) =>
        if resp.status == Exito && resp.payload.Fields? then (resp, IntraFanout(t.1, tx, o, d, p, w, resp.payload))
        else (resp, t.1)
      case Undecodable => (Bare(ErrorGeneralServidor), t.1)
      case _ => (Bare(ErrorReintentarEnOtroNodo), t.1)
  }

  /** The parameters PREPARAR_DEBITO, CONFIRMAR_DEBITO and REVERTIR_DEBITO share. */
  function DebitParams(tx: int, o: int, m: int, po: string): Params {
    NoParams.(origin := Some(o), amount := Some(m), txId := Some(tx), partition := Some(po))
  }

  function CreditParams(tx: int, d: int, m: int, pd: string): Params {
    NoParams.(dest := Some(d), amount := Some(m), txId := Some(tx), partition := Some(pd))
  }

  /** Steps 3 and 4 of the cross-partition transfer, once the credit succeeded:
      confirm the debit, then replicate both new balances, the origin's to every replica
      but the worker that answered the prepare (`preparer`) and the destination's to
      every replica but the worker that applied the credit (`creditor`). A failed
      confirm is reported without undoing the credit. */
  function Settle(e2: Env, net: Net, tx: int, o: int, po: string, d: int, pd: string, m: int,
                  preparer: Option<string>, creditor: Option<string>, finalD: Option<int>): (r: (Respuesta, Env))
    ensures |e2.sent| <= |r.1.sent| && r.1.sent[..|e2.sent|] == e2.sent
    ensures OnlyMembership(e2.reg, r.1.reg)
  {
    var (conf, e3) := SubOp(e2, net, po, Solicitud(ConfirmarDebito, DebitParams(tx, o, m, po)), false);
    if conf.status != DebitoConfirmadoOk then (Bare(ErrorGeneralServidor), e3)
    else
      var e4 := match NumField(conf.payload, KeyNuevoSaldoOrigen)
                case Some(v) => Replicate(e3, po, o, v, preparer, tx)
                case None => e3;
      var e5 := match finalD
                case Some(v) => Replicate(e4, pd, d, v, creditor, tx)
                case None => e4;
      (Bare(Exito), e5)
  }

  /** Steps 2 to 4 of the cross-partition transfer, after a prepared debit: credit the
      destination, then settle, or, if the credit was refused, answer with the
      credit's status. As written (`fixed` false) the refusal first sends a revert of
      the debit, and a failed revert turns the answer into `ERROR_GENERAL_SERVIDOR`;
      since the prepare wrote nothing, the corrected protocol sends no revert. */
  function CreditThen(e1: Env, net: Net, tx: int, o: int, po: string, d: int, pd: string, m: int,
                      preparer: Option<string>, fixed: bool): (r: (Respuesta, Env))
    ensures |e1.sent| <= |r.1.sent| && r.1.sent[..|e1.sent|] == e1.sent
    ensures OnlyMembership(e1.reg, r.1.reg)
  {
    var (cred, e2) := SubOp(e1, net, pd, Solicitud(AplicarCredito, CreditParams(tx, d, m, pd)), false);
    if cred.status != CreditoAplicadoOk then
      if fixed then (Bare(cred.status), e2)
      else
        var (rev, e3) := SubOp(e2, net, po, Solicitud(RevertirDebito, DebitParams(tx, o, m, po)), false);
        (if rev.status != DebitoRevertidoOk then Bare(ErrorGeneralServidor) else Bare(cred.status), e3)
    else
      Settle(e2, net, tx, o, po, d, pd, m, preparer,
             TextField(cred.payload, KeyWorkerId), NumField(cred.payload, KeyNuevoSaldoDestino))
  }

  /** `manejarTransferenciaDiferentesParticiones`: prepare at the origin, and go on only
      if that succeeded. A prepare that reports success without `saldoActualOrigen`
      ends the handler with an exception and no answer (`None`). */
  function Cross(env: Env, net: Net, tx: int, o: int, po: string, d: int, pd: string, m: int, fixed: bool): (r: (Option<Respuesta>, Env))
    ensures |env.sent| <= |r.1.sent| && r.1.sent[..|env.sent|] == env.sent
    ensures OnlyMembership(env.reg, r.1.reg)
  {
    var (prep, e1) := SubOp(env, net, po, Solicitud(PrepararDebito, DebitParams(tx, o, m, po)), false);
    if prep.status != DebitoPreparadoOk then (Some(prep), e1)
    else if NumField(prep.payload, KeySaldoActualOrigen).None? then (None, e1)
    else
      var (res, e) := CreditThen(e1, net, tx, o, po, d, pd, m, TextField(prep.payload, KeyWorkerId), fixed);
      (Some(res), e)
  }

  /** The transaction counter is a Java `int`. */
  predicate CounterInRange(reg: Registry) {
    Text.MinInt32 <= reg.txCounter <= Text.MaxInt32
  }

  /** A transfer request with both accounts and the amount present, a positive amount,
      and two different accounts. */
  predicate ValidTransfer(prm: Params) {
    prm.origin.Some? && prm.dest.Some? && prm.amount.Some? &&
    prm.amount.value > 0 && prm.origin.value != prm.dest.value
  }

  /** Both accounts of a transfer have a partition. */
  predicate Mapped(reg: Registry, prm: Params)
    requires ValidTransfer(prm)
  {
    prm.origin.value in reg.accountPartition && prm.dest.value in reg.accountPartition
  }

  /** The validation and routing of a transfer whose transaction id `tx` is drawn:
      a missing parameter, a non-positive amount or the same account on both sides is
      `ERROR_GENERAL_SERVIDOR`; an unmapped account is reported as such, the origin
      first; otherwise the intra- or cross-partition path runs. */
  function Route(env: Env, net: Net, tx: int, prm: Params, fixed: bool): (r: (Option<Respuesta>, Env))
    ensures |env.sent| <= |r.1.sent| && r.1.sent[..|env.sent|] == env.sent
    ensures OnlyMembership(env.reg, r.1.reg)
    ensures !ValidTransfer(prm) ==> r == (Some(Bare(ErrorGeneralServidor)), env)
    ensures ValidTransfer(prm) && prm.origin.value !in env.reg.accountPartition ==>
              r == (Some(Bare(ErrorCuentaOrigenNoExiste)), env)
    ensures ValidTransfer(prm) && prm.origin.value in env.reg.accountPartition &&
            prm.dest.value !in env.reg.accountPartition ==>
              r == (Some(Bare(ErrorCuentaDestinoNoExiste)), env)
    ensures ValidTransfer(prm) && Mapped(env.reg, prm) ==>
      var o, d, m := prm.origin.value, prm.dest.value, prm.amount.value;
      var po, pd := env.reg.accountPartition[o], env.reg.accountPartition[d];
      && (po == pd ==> r == (Some(Intra(env, net, tx, o, d, m, po).0), Intra(env, net, tx, o, d, m, po).1))
      && (po != pd ==> r == Cross(env, net, tx, o, po, d, pd, m, fixed))
  {
    if prm.origin.None? || prm.dest.None? || prm.amount.None? then (Some(Bare(ErrorGeneralServidor)), env)
    else
      var o, d, m := prm.origin.value, prm.dest.value, prm.amount.value;
      if m <= 0 || o == d then (Some(Bare(ErrorGeneralServidor)), env)
      else if o !in env.reg.accountPartition then (Some(Bare(ErrorCuentaOrigenNoExiste)), env)
      else if d !in env.reg.accountPartition then (Some(Bare(ErrorCuentaDestinoNoExiste)), env)
      else
        var po, pd := env.reg.accountPartition[o], env.reg.accountPartition[d];
        if po == pd then
          var (resp, e) := Intra(env, net, tx, o, d, m, po);
          (Some(resp), e)
        else Cross(env, net, tx, o, po, d, pd, m, fixed)
  }

  /** `procesarTransferenciaFondos`: the transaction id is drawn before anything is
      validated, so a rejected transfer still advances the counter. */
  function Transfer(env: Env, net: Net, prm: Params, fixed: bool): (r: (Option<Respuesta>, Env))
    requires CounterInRange(env.reg)
    ensures |env.sent| <= |r.1.sent| && r.1.sent[..|env.sent|] == env.sent
    ensures OnlyMembership(NextTxId(env.reg).1, r.1.reg)
    ensures var rejected := (Some(Bare(ErrorGeneralServidor)), env.(reg := NextTxId(env.reg).1));
            prm.origin.None? || prm.dest.None? || prm.amount.None? ==> r == rejected
    ensures var rejected := (Some(Bare(ErrorGeneralServidor)), env.(reg := NextTxId(env.reg).1));
            (prm.origin.Some? && prm.dest.Some? && prm.amount.Some? &&
             (prm.amount.value <= 0 || prm.origin.value == prm.dest.value)) ==> r == rejected
    ensures var valid := prm.origin.Some? && prm.dest.Some? && prm.amount.Some? &&
                         prm.amount.value > 0 && prm.origin.value != prm.dest.value;
            valid && prm.origin.value !in env.reg.accountPartition ==>
              r == (Some(Bare(ErrorCuentaOrigenNoExiste)), env.(reg := NextTxId(env.reg).1))
    ensures var valid := prm.origin.Some? && prm.dest.Some? && prm.amount.Some? &&
                         prm.amount.value > 0 && prm.origin.value != prm.dest.value;
            valid && prm.origin.value in env.reg.accountPartition && prm.dest.value !in env.reg.accountPartition ==>
              r == (Some(Bare(ErrorCuentaDestinoNoExiste)), env.(reg := NextTxId(env.reg).1))
  {
    var (tx, reg1) := NextTxId(env.reg);
    Route(env.(reg := reg1), net, tx, prm, fixed)
  }

  // ---------------------------------------------------------------------------
  // Audit
  // ---------------------------------------------------------------------------

  /** The account partitions among `keys`, in order. */
  function AccountParts(keys: seq<string>): (r: seq<string>)
    ensures forall p :: p in r <==> p in keys && Text.StartsWith(p, AccountPrefix)
  {
    if keys == [] then []
    else (if Text.StartsWith(keys[0], AccountPrefix) then [keys[0]] else []) + AccountParts(keys[1..])
  }

  /** The sub-operation replies of `CALCULAR_SALDO_PARTICION`, one per partition, in order. */
  function Collect(env: Env, net: Net, ps: seq<string>, keepScalar: bool): (r: (seq<Respuesta>, Env))
    ensures |r.0| == |ps|
    ensures |env.sent| <= |r.1.sent| && r.1.sent[..|env.sent|] == env.sent
    ensures OnlyMembership(env.reg, r.1.reg)
    ensures !keepScalar ==> forall i :: 0 <= i < |r.0| ==> !r.0[i].payload.Num?
    decreases |ps|
  {
    if ps == [] then ([], env)
    else
      var (resp, e1) := SubOp(env, net, ps[0], Solicitud(CalcularSaldoParticion, NoParams.(partition := Some(ps[0]))), keepScalar);
      var (rest, e2) := Collect(e1, net, ps[1..], keepScalar);
      ([resp] + rest, e2)
  }

  /** A reply the audit adds up: `EXITO` with a number. */
  predicate Counted(r: Respuesta) {
    r.status == Exito && r.payload.Num?
  }

  /** The sum of the counted replies. */
  function Total(rs: seq<Respuesta>): int {
    if rs == [] then 0 else (if Counted(rs[0]) then rs[0].payload.n else 0) + Total(rs[1..])
  }

  /** `procesarArqueoCuentas`: ask each account partition for its sum and add the counted
      replies; any other reply makes the answer an error that still carries the partial
      total. `keys` is the key set of the partition data in iteration order. */
  function Audit(env: Env, net: Net, keys: seq<string>, keepScalar: bool): (r: (Respuesta, Env))
    ensures AccountParts(keys) == [] ==> r == (Bare(ErrorGeneralServidor), env)
    ensures |env.sent| <= |r.1.sent| && r.1.sent[..|env.sent|] == env.sent
    ensures OnlyMembership(env.reg, r.1.reg)
    ensures var c := Collect(env, net, AccountParts(keys), keepScalar);
            AccountParts(keys) != [] ==>
              && r.1 == c.1
              && r.0.payload == Num(Total(c.0))
              && r.0.status in {Exito, ErrorGeneralServidor}
              && (r.0.status == Exito <==> forall i :: 0 <= i < |c.0| ==> Counted(c.0[i]))
  {
    var ps := AccountParts(keys);
    if ps == [] then (Bare(ErrorGeneralServidor), env)
    else
      var (rs, e) := Collect(env, net, ps, keepScalar);
      var failed := exists i :: 0 <= i < |rs| && !Counted(rs[i]);
      (Respuesta(if failed then ErrorGeneralServidor else Exito, Num(Total(rs))), e)
  }

  /** The handler's dispatch on the client's operation. `fixed` selects the corrected
      protocol: no revert after a refused credit, and a wrapper that leaves a
      partition sum as the number it is. */
  function Handle(env: Env, net: Net, req: Solicitud, keys: seq<string>, fixed: bool): (r: (Option<Respuesta>, Env))
    requires CounterInRange(env.reg)
    ensures req.op !in {ConsultarSaldo, TransferirFondos, ArqueoCuentas} ==> r == (Some(Bare(ErrorGeneralServidor)), env)
    ensures req.op != TransferirFondos ==> r.0.Some?
    ensures req.op == ConsultarSaldo ==>
              var q := Query(env, net, req.params); r == (Some(q.0), q.1)
    ensures req.op == TransferirFondos ==> r == Transfer(env, net, req.params, fixed)
    ensures req.op == ArqueoCuentas ==>
              var a := Audit(env, net, keys, fixed); r == (Some(a.0), a.1)
  {
    match req.op
    case ConsultarSaldo =>
      var (resp, e) := Query(env, net, req.params);
      (Some(resp), e)
    case TransferirFondos => Transfer(env, net, req.params, fixed)
    case ArqueoCuentas =>
      var (resp, e) := Audit(env, net, keys, fixed);
      (Some(resp), e)
    case _ => (Some(Bare(ErrorGeneralServidor)), env)
  }
}

/** What the replica loop guarantees: whom it contacts, that it returns the first
    answer, that exhaustion means every live replica was tried, and that it
    deregisters exactly the workers that failed. */
module ReplicaLoopProps {
  import opened Wrappers
  import opened Messages
  import opened Registry
  import opened Coordinator

  /** A log that extends `env1`'s, which ends with the call `c`, holds `c` at that position. */
  lemma LoggedAt(sent: seq<Call>, before: seq<Call>, c: Call)
    requires |before| + 1 <= |sent| && sent[..|before| + 1] == before + [c]
    ensures sent[|before|] == c
  {
    assert sent[|before|] == sent[..|before| + 1][|before|];
  }

  /** Every contact goes to a replica of the list that was live at the start, with the
      given request. */
  lemma {:induction false} TryReplicasContacts(env: Env, net: Net, ws: seq<string>, req: Solicitud, retry: bool)
    ensures ContactsFrom(TryReplicas(env, net, ws, req, retry).1.sent, |env.sent|, ws, req, env.reg)
    decreases |ws|
  {
    if ws != [] {
      var w := ws[0];
      var r := TryReplicas(env, net, ws, req, retry);
      if !IsLive(env.reg, w) {
        TryReplicasContacts(env, net, ws[1..], req, retry);
      } else {
        var o := net(|env.sent|);
        var env1 := env.(sent := env.sent + [Call(w, req)]);
        if !(o.Reply? || o.BadClass? || (o.BadObject? && !retry)) {
          var env2 := if o.BadObject? then env1 else env1.(reg := Deregister(env1.reg, w));
          assert r == TryReplicas(env2, net, ws[1..], req, retry);
          TryReplicasContacts(env2, net, ws[1..], req, retry);
          assert r.1.sent[..|env2.sent|] == env2.sent;
          LoggedAt(r.1.sent, env.sent, Call(w, req));
          forall k | |env.sent| <= k < |r.1.sent|
            ensures r.1.sent[k].req == req && r.1.sent[k].worker in ws && IsLive(env.reg, r.1.sent[k].worker)
          {
            if k > |env.sent| {
              var x := r.1.sent[k].worker;
              assert x in ws[1..] && IsLive(env2.reg, x);
              assert IsLive(env.reg, x);
            }
          }
        }
      }
    }
  }

  /** The loop returns at the first contact that does not move on: every contact but the
      last moved on, and all of them did when the loop ran out of replicas. */
  lemma {:induction false} TryReplicasFirst(env: Env, net: Net, ws: seq<string>, req: Solicitud, retry: bool)
    ensures var r := TryReplicas(env, net, ws, req, retry);
            && (forall k :: |env.sent| <= k < |r.1.sent| - 1 ==> MovesOn(net(k), retry))
            && (r.0.Exhausted? ==> forall k :: |env.sent| <= k < |r.1.sent| ==> MovesOn(net(k), retry))
    decreases |ws|
  {
    if ws != [] {
      var w := ws[0];
      if !IsLive(env.reg, w) {
        TryReplicasFirst(env, net, ws[1..], req, retry);
      } else {
        var o := net(|env.sent|);
        var env1 := env.(sent := env.sent + [Call(w, req)]);
        if !(o.Reply? || o.BadClass? || (o.BadObject? && !retry)) {
          var env2 := if o.BadObject? then env1 else env1.(reg := Deregister(env1.reg, w));
          var r := TryReplicas(env, net, ws, req, retry);
          assert r == TryReplicas(env2, net, ws[1..], req, retry);
          TryReplicasFirst(env2, net, ws[1..], req, retry);
          assert MovesOn(net(|env.sent|), retry);
          assert |r.1.sent| >= |env2.sent|;
        }
      }
    }
  }

  /** Running out of replicas means every replica live at the start was contacted. */
  lemma {:induction false} ExhaustedTriedAll(env: Env, net: Net, ws: seq<string>, req: Solicitud, retry: bool, x: string)
    requires TryReplicas(env, net, ws, req, retry).0.Exhausted?
    requires x in ws && IsLive(env.reg, x)
    ensures var r := TryReplicas(env, net, ws, req, retry);
            exists k :: |env.sent| <= k < |r.1.sent| && r.1.sent[k].worker == x
    decreases |ws|
  {
    var w := ws[0];
    var r := TryReplicas(env, net, ws, req, retry);
    if !IsLive(env.reg, w) {
      ExhaustedTriedAll(env, net, ws[1..], req, retry, x);
    } else {
      var o := net(|env.sent|);
      var env1 := env.(sent := env.sent + [Call(w, req)]);
      var env2 := if o.BadObject? then env1 else env1.(reg := Deregister(env1.reg, w));
      assert r == TryReplicas(env2, net, ws[1..], req, retry);
      assert r.1.sent[..|env2.sent|] == env2.sent;
      if x == w {
        assert r.1.sent[|env.sent|].worker == x;
      } else {
        assert x in ws[1..] && IsLive(env2.reg, x);
        ExhaustedTriedAll(env2, net, ws[1..], req, retry, x);
      }
    }
  }

  /** The loop only removes workers: one still registered afterwards is unchanged. */
  lemma {:induction false} TryReplicasShrinks(env: Env, net: Net, ws: seq<string>, req: Solicitud, retry: bool)
    ensures var r := TryReplicas(env, net, ws, req, retry);
            forall w :: w in r.1.reg.workers ==> w in env.reg.workers && r.1.reg.workers[w] == env.reg.workers[w]
    decreases |ws|
  {
    if ws != [] {
      var w := ws[0];
      if !IsLive(env.reg, w) {
        TryReplicasShrinks(env, net, ws[1..], req, retry);
      } else {
        var o := net(|env.sent|);
        var env1 := env.(sent := env.sent + [Call(w, req)]);
        if !(o.Reply? || o.BadClass? || (o.BadObject? && !retry)) {
          var env2 := if o.BadObject? then env1 else env1.(reg := Deregister(env1.reg, w));
          assert TryReplicas(env, net, ws, req, retry) == TryReplicas(env2, net, ws[1..], req, retry);
          TryReplicasShrinks(env2, net, ws[1..], req, retry);
        }
      }
    }
  }

  /** A worker whose contact failed is no longer registered when the loop ends. */
  lemma {:induction false} TryReplicasDropsFailed(env: Env, net: Net, ws: seq<string>, req: Solicitud, retry: bool)
    ensures var r := TryReplicas(env, net, ws, req, retry);
            forall k :: |env.sent| <= k < |r.1.sent| && net(k).CommFailure? ==> r.1.sent[k].worker !in r.1.reg.workers
    decreases |ws|
  {
    if ws != [] {
      var w := ws[0];
      var r := TryReplicas(env, net, ws, req, retry);
      if !IsLive(env.reg, w) {
        TryReplicasDropsFailed(env, net, ws[1..], req, retry);
      } else {
        var o := net(|env.sent|);
        var env1 := env.(sent := env.sent + [Call(w, req)]);
        if !(o.Reply? || o.BadClass? || (o.BadObject? && !retry)) {
          var env2 := if o.BadObject? then env1 else env1.(reg := Deregister(env1.reg, w));
          assert r == TryReplicas(env2, net, ws[1..], req, retry);
          TryReplicasDropsFailed(env2, net, ws[1..], req, retry);
          assert r.1.sent[..|env2.sent|] == env2.sent;
          LoggedAt(r.1.sent, env.sent, Call(w, req));
          if o.CommFailure? {
            assert w !in env2.reg.workers;
            TryReplicasShrinks(env2, net, ws[1..], req, retry);
            assert w !in r.1.reg.workers;
          }
          forall k | |env.sent| <= k < |r.1.sent| && net(k).CommFailure?
            ensures r.1.sent[k].worker !in r.1.reg.workers
          {
            if k == |env.sent| {
              assert o.CommFailure? && r.1.sent[k].worker == w;
            }
          }
        }
      }
    }
  }

  /** A worker that is gone after the loop was contacted and failed. */
  lemma {:induction false} TryReplicasOnlyFailedGone(env: Env, net: Net, ws: seq<string>, req: Solicitud, retry: bool)
    ensures var r := TryReplicas(env, net, ws, req, retry);
            forall w :: w in env.reg.workers && w !in r.1.reg.workers ==>
              exists k :: |env.sent| <= k < |r.1.sent| && r.1.sent[k].worker == w && net(k).CommFailure?
    decreases |ws|
  {
    if ws != [] {
      var w := ws[0];
      var r := TryReplicas(env, net, ws, req, retry);
      if !IsLive(env.reg, w) {
        TryReplicasOnlyFailedGone(env, net, ws[1..], req, retry);
      } else {
        var o := net(|env.sent|);
        var env1 := env.(sent := env.sent + [Call(w, req)]);
        if !(o.Reply? || o.BadClass? || (o.BadObject? && !retry)) {
          var env2 := if o.BadObject? then env1 else env1.(reg := Deregister(env1.reg, w));
          assert r == TryReplicas(env2, net, ws[1..], req, retry);
          TryReplicasOnlyFailedGone(env2, net, ws[1..], req, retry);
          assert r.1.sent[..|env2.sent|] == env2.sent;
          assert r.1.sent[|env.sent|] == Call(w, req);
          forall x | x in env.reg.workers && x !in r.1.reg.workers
            ensures exists k :: |env.sent| <= k < |r.1.sent| && r.1.sent[k].worker == x && net(k).CommFailure?
          {
            if x !in env2.reg.workers {
              assert x == w && o.CommFailure?;
              assert r.1.sent[|env.sent|].worker == x && net(|env.sent|).CommFailure?;
            }
          }
        }
      }
    }
  }

  /** The loop only deregisters: a worker still registered afterwards is unchanged, a
      worker that failed to communicate is gone, and a worker that is gone failed. */
  lemma TryReplicasDeregisters(env: Env, net: Net, ws: seq<string>, req: Solicitud, retry: bool)
    ensures var r := TryReplicas(env, net, ws, req, retry);
            && (forall w :: w in r.1.reg.workers ==> w in env.reg.workers && r.1.reg.workers[w] == env.reg.workers[w])
            && (forall k :: |env.sent| <= k < |r.1.sent| && net(k).CommFailure? ==> r.1.sent[k].worker !in r.1.reg.workers)
            && (forall w :: w in env.reg.workers && w !in r.1.reg.workers ==>
                  exists k :: |env.sent| <= k < |r.1.sent| && r.1.sent[k].worker == w && net(k).CommFailure?)
  {
    TryReplicasShrinks(env, net, ws, req, retry);
    TryReplicasDropsFailed(env, net, ws, req, retry);
    TryReplicasOnlyFailedGone(env, net, ws, req, retry);
  }
}

/** What the coordinator's handlers promise about the calls they make and the answers
    they give. */
module CoordinatorProps {
  import opened Wrappers
  import opened Messages
  import opened Registry
  import opened Info
  import opened Lists
  import opened Coordinator
  import opened ReplicaLoopProps

  /** Some call since `from` carries operation `op`. */
  predicate Sends(sent: seq<Call>, from: nat, op: Op) {
    exists k :: from <= k < |sent| && sent[k].req.op == op
  }

  /** Every call since `from` carries one of `ops`. */
  predicate OnlyOps(sent: seq<Call>, from: nat, ops: set<Op>) {
    forall k :: from <= k < |sent| ==> sent[k].req.op in ops
  }

  /** The call `c` is in the log at or after position `from`. */
  predicate Logged(sent: seq<Call>, from: nat, c: Call) {
    exists k :: from <= k < |sent| && sent[k] == c
  }

  /** The wrapper only ever sends its request, and only to live replicas of the partition. */
  lemma SubOpSends(env: Env, net: Net, p: string, req: Solicitud, keepScalar: bool)
    ensures var r := SubOp(env, net, p, req, keepScalar);
            forall k :: |env.sent| <= k < |r.1.sent| ==>
              r.1.sent[k].req == req && r.1.sent[k].worker in ListOf(env.reg.replicas, p) &&
              IsLive(env.reg, r.1.sent[k].worker)
  {
    var ws := ListOf(env.reg.replicas, p);
    if ws != [] {
      TryReplicasContacts(env, net, ws, req, false);
    }
  }

  /** The balance query asks live replicas of the account's partition, in list order,
      moving on only past workers that failed or answered with an unexpected object;
      when it gives up without a worker's answer, every live replica was asked. */
  lemma QueryContacts(env: Env, net: Net, prm: Params)
    requires prm.account.Some? && prm.account.value in env.reg.accountPartition
    ensures var p := env.reg.accountPartition[prm.account.value];
            var r := Query(env, net, prm);
            && (forall k :: |env.sent| <= k < |r.1.sent| ==>
                  r.1.sent[k].req.op == ConsultarSaldo && r.1.sent[k].req.params.account == prm.account &&
                  r.1.sent[k].worker in ListOf(env.reg.replicas, p) && IsLive(env.reg, r.1.sent[k].worker))
            && (forall k :: |env.sent| <= k < |r.1.sent| - 1 ==> net(k).CommFailure? || net(k).BadObject?)
  {
    var a := prm.account.value;
    var p := env.reg.accountPartition[a];
    var ws := ListOf(env.reg.replicas, p);
    if ws != [] {
      var req := Solicitud(ConsultarSaldo, NoParams.(account := Some(a), partition := Some(p)));
      var t := TryReplicas(env, net, ws, req, true);
      assert Query(env, net, prm).1 == t.1;
      TryReplicasContacts(env, net, ws, req, true);
      TryReplicasFirst(env, net, ws, req, true);
    }
  }

  /** A balance query that gives up has asked every live replica of the account's
      partition. */
  lemma QueryTriesAll(env: Env, net: Net, prm: Params)
    requires prm.account.Some? && prm.account.value in env.reg.accountPartition
    ensures var p := env.reg.accountPartition[prm.account.value];
            var r := Query(env, net, prm);
            r.0 == Bare(ErrorReintentarEnOtroNodo) && !(|r.1.sent| > |env.sent| && net(|r.1.sent| - 1).Reply?) ==>
              forall x :: x in ListOf(env.reg.replicas, p) && IsLive(env.reg, x) ==>
                exists k :: |env.sent| <= k < |r.1.sent| && r.1.sent[k].worker == x
  {
    var a := prm.account.value;
    var p := env.reg.accountPartition[a];
    var ws := ListOf(env.reg.replicas, p);
    if ws != [] {
      var req := Solicitud(ConsultarSaldo, NoParams.(account := Some(a), partition := Some(p)));
      var t := TryReplicas(env, net, ws, req, true);
      assert Query(env, net, prm).1 == t.1;
      if t.0.Exhausted? {
        forall x | x in ws && IsLive(env.reg, x)
          ensures exists k :: |env.sent| <= k < |t.1.sent| && t.1.sent[k].worker == x
        {
          ExhaustedTriedAll(env, net, ws, req, true, x);
        }
      }
    }
  }

  /** The request of each step of the cross-partition transfer. */
  function PrepareReq(tx: int, o: int, po: string, m: int): Solicitud {
    Solicitud(PrepararDebito, DebitParams(tx, o, m, po))
  }

  function CreditReq(tx: int, d: int, pd: string, m: int): Solicitud {
    Solicitud(AplicarCredito, CreditParams(tx, d, m, pd))
  }

  /** The calls of a replica fan-out are all replica updates. */
  lemma ReplicateOps(env: Env, p: string, account: int, nb: int, primary: Option<string>, tx: int)
    ensures var r := Replicate(env, p, account, nb, primary, tx);
            OnlyOps(r.sent, |env.sent|, {ActualizarSaldoReplica})
  {
  }

  /** The confirmation step sends confirmations and then replica updates only. */
  lemma SettleOps(e2: Env, net: Net, tx: int, o: int, po: string, d: int, pd: string, m: int,
                  preparer: Option<string>, creditor: Option<string>, finalD: Option<int>)
    ensures var r := Settle(e2, net, tx, o, po, d, pd, m, preparer, creditor, finalD);
            OnlyOps(r.1.sent, |e2.sent|, {ConfirmarDebito, ActualizarSaldoReplica})
  {
    var creq := Solicitud(ConfirmarDebito, DebitParams(tx, o, m, po));
    var (conf, e3) := SubOp(e2, net, po, creq, false);
    SubOpSends(e2, net, po, creq, false);
    var r := Settle(e2, net, tx, o, po, d, pd, m, preparer, creditor, finalD);
    if conf.status == DebitoConfirmadoOk {
      var e4 := match NumField(conf.payload, KeyNuevoSaldoOrigen)
                case Some(v) => Replicate(e3, po, o, v, preparer, tx)
                case None => e3;
      assert OnlyOps(e4.sent, |e3.sent|, {ActualizarSaldoReplica});
      assert OnlyOps(r.1.sent, |e4.sent|, {ActualizarSaldoReplica});
      forall k | |e2.sent| <= k < |r.1.sent|
        ensures r.1.sent[k].req.op in {ConfirmarDebito, ActualizarSaldoReplica}
      {
        if k < |e3.sent| {
          assert r.1.sent[k] == e4.sent[k] == e3.sent[k];
        } else if k < |e4.sent| {
          assert r.1.sent[k] == e4.sent[k];
        }
      }
    }
  }

  /** The answer of the commit phase: a debit the origin's primary does not confirm is
      reported as a general error with nothing replicated, a confirmed one as EXITO. */
  lemma SettleAnswer(e2: Env, net: Net, tx: int, o: int, po: string, d: int, pd: string, m: int,
                     preparer: Option<string>, creditor: Option<string>, finalD: Option<int>)
    ensures var r := Settle(e2, net, tx, o, po, d, pd, m, preparer, creditor, finalD);
            var conf := SubOp(e2, net, po, Solicitud(ConfirmarDebito, DebitParams(tx, o, m, po)), false);
            && (conf.0.status != DebitoConfirmadoOk ==> r == (Bare(ErrorGeneralServidor), conf.1))
            && (conf.0.status == DebitoConfirmadoOk ==> r.0 == Bare(Exito))
  {
  }

  /** The answer after the prepare: a refused credit is reported with the credit's own
      status, after a revert when the compensation is modelled and only when that
      revert succeeded; an applied credit answers EXITO exactly when the debit is
      confirmed. */
  lemma CreditThenAnswer(e1: Env, net: Net, tx: int, o: int, po: string, d: int, pd: string, m: int,
                         preparer: Option<string>, fixed: bool)
    ensures var r := CreditThen(e1, net, tx, o, po, d, pd, m, preparer, fixed);
            var cred := SubOp(e1, net, pd, CreditReq(tx, d, pd, m), false);
            cred.0.status != CreditoAplicadoOk && fixed ==> r == (Bare(cred.0.status), cred.1)
    ensures var r := CreditThen(e1, net, tx, o, po, d, pd, m, preparer, fixed);
            var cred := SubOp(e1, net, pd, CreditReq(tx, d, pd, m), false);
            var rev := SubOp(cred.1, net, po, Solicitud(RevertirDebito, DebitParams(tx, o, m, po)), false);
            cred.0.status != CreditoAplicadoOk && !fixed ==>
              r == (if rev.0.status == DebitoRevertidoOk then Bare(cred.0.status) else Bare(ErrorGeneralServidor), rev.1)
    ensures var r := CreditThen(e1, net, tx, o, po, d, pd, m, preparer, fixed);
            var cred := SubOp(e1, net, pd, CreditReq(tx, d, pd, m), false);
            var conf := SubOp(cred.1, net, po, Solicitud(ConfirmarDebito, DebitParams(tx, o, m, po)), false);
            cred.0.status == CreditoAplicadoOk ==>
              && r.0 in {Bare(Exito), Bare(ErrorGeneralServidor)}
              && (r.0 == Bare(Exito) <==> conf.0.status == DebitoConfirmadoOk)
              && (conf.0.status != DebitoConfirmadoOk ==> r == (Bare(ErrorGeneralServidor), conf.1))
  {
    var (cred, e2) := SubOp(e1, net, pd, CreditReq(tx, d, pd, m), false);
    if cred.status == CreditoAplicadoOk {
      SettleAnswer(e2, net, tx, o, po, d, pd, m, preparer,
                   TextField(cred.payload, KeyWorkerId), NumField(cred.payload, KeyNuevoSaldoDestino));
    }
  }

  /** After the prepare: credits first, then either reverts (only after a refused
      credit, and only as written) or confirmations and replica updates (only after an
      applied one). */
  lemma CreditThenOrder(e1: Env, net: Net, tx: int, o: int, po: string, d: int, pd: string, m: int,
                        preparer: Option<string>, fixed: bool)
    ensures var r := CreditThen(e1, net, tx, o, po, d, pd, m, preparer, fixed);
            var cred := SubOp(e1, net, pd, CreditReq(tx, d, pd, m), false);
            && OnlyOps(cred.1.sent, |e1.sent|, {AplicarCredito})
            && r.1.sent[..|cred.1.sent|] == cred.1.sent
            && (cred.0.status != CreditoAplicadoOk ==> OnlyOps(r.1.sent, |cred.1.sent|, {RevertirDebito}))
            && (cred.0.status != CreditoAplicadoOk && fixed ==> r.1 == cred.1)
            && (cred.0.status == CreditoAplicadoOk ==> OnlyOps(r.1.sent, |cred.1.sent|, {ConfirmarDebito, ActualizarSaldoReplica}))
  {
    var (cred, e2) := SubOp(e1, net, pd, CreditReq(tx, d, pd, m), false);
    SubOpSends(e1, net, pd, CreditReq(tx, d, pd, m), false);
    if cred.status != CreditoAplicadoOk {
      if !fixed {
        SubOpSends(e2, net, po, Solicitud(RevertirDebito, DebitParams(tx, o, m, po)), false);
      }
    } else {
      SettleOps(e2, net, tx, o, po, d, pd, m, preparer,
                TextField(cred.payload, KeyWorkerId), NumField(cred.payload, KeyNuevoSaldoDestino));
    }
  }

  /** The prepare gates the transfer: nothing but the prepare is sent when it is
      refused, and a credit is only sent after a prepare that succeeded with the
      origin's balance. */
  lemma CrossPrepareGate(env: Env, net: Net, tx: int, o: int, po: string, d: int, pd: string, m: int, fixed: bool)
    ensures var r := Cross(env, net, tx, o, po, d, pd, m, fixed);
            var prep := SubOp(env, net, po, PrepareReq(tx, o, po, m), false).0;
            && (prep.status != DebitoPreparadoOk ==> r.0 == Some(prep) && OnlyOps(r.1.sent, |env.sent|, {PrepararDebito}))
            && (Sends(r.1.sent, |env.sent|, AplicarCredito) ==>
                  prep.status == DebitoPreparadoOk && NumField(prep.payload, KeySaldoActualOrigen).Some?)
  {
    var r := Cross(env, net, tx, o, po, d, pd, m, fixed);
    var (prep, e1) := SubOp(env, net, po, PrepareReq(tx, o, po, m), false);
    SubOpSends(env, net, po, PrepareReq(tx, o, po, m), false);
    if !(prep.status == DebitoPreparadoOk && NumField(prep.payload, KeySaldoActualOrigen).Some?) {
      assert r.1 == e1;
      assert OnlyOps(e1.sent, |env.sent|, {PrepararDebito});
    }
  }

  /** An operation absent from two consecutive stretches of calls is absent from both. */
  lemma NotSentJoin(s1: seq<Call>, s2: seq<Call>, from: nat, op: Op)
    requires |s1| <= |s2| && s2[..|s1|] == s1
    requires !Sends(s1, from, op) && !Sends(s2, |s1|, op)
    ensures !Sends(s2, from, op)
  {
    forall k | from <= k < |s2|
      ensures s2[k].req.op != op
    {
      if k < |s1| {
        assert s2[k] == s1[k];
      }
    }
  }

  /** After the prepare, the revert is absent unless the credit was refused and the
      confirmation absent unless it was applied. */
  lemma CreditThenAbsent(e1: Env, net: Net, tx: int, o: int, po: string, d: int, pd: string, m: int,
                         preparer: Option<string>, fixed: bool, op: Op, applied: bool)
    requires op in {RevertirDebito, ConfirmarDebito}
    requires applied == (op == ConfirmarDebito)
    ensures var c := CreditThen(e1, net, tx, o, po, d, pd, m, preparer, fixed);
            (SubOp(e1, net, pd, CreditReq(tx, d, pd, m), false).0.status == CreditoAplicadoOk) != applied ==>
              !Sends(c.1.sent, |e1.sent|, op)
  {
    var c := CreditThen(e1, net, tx, o, po, d, pd, m, preparer, fixed);
    var (cred, e2) := SubOp(e1, net, pd, CreditReq(tx, d, pd, m), false);
    if (cred.status == CreditoAplicadoOk) != applied {
      assert !Sends(c.1.sent, |e1.sent|, op) by {
        CreditThenOrder(e1, net, tx, o, po, d, pd, m, preparer, fixed);
        assert !Sends(e2.sent, |e1.sent|, op);
        assert !Sends(c.1.sent, |e2.sent|, op);
        NotSentJoin(e2.sent, c.1.sent, |e1.sent|, op);
      }
    }
  }

  /** Cross-partition calls of one kind happen only when the credit's answer allows
      them: the revert only after a refused credit, the confirmation only after an
      applied one. */
  lemma CrossAbsent(env: Env, net: Net, tx: int, o: int, po: string, d: int, pd: string, m: int, fixed: bool, op: Op, applied: bool)
    requires op in {RevertirDebito, ConfirmarDebito}
    requires applied == (op == ConfirmarDebito)
    ensures var r := Cross(env, net, tx, o, po, d, pd, m, fixed);
            var (prep, e1) := SubOp(env, net, po, PrepareReq(tx, o, po, m), false);
            (SubOp(e1, net, pd, CreditReq(tx, d, pd, m), false).0.status == CreditoAplicadoOk) != applied ==>
              !Sends(r.1.sent, |env.sent|, op)
  {
    var r := Cross(env, net, tx, o, po, d, pd, m, fixed);
    var (prep, e1) := SubOp(env, net, po, PrepareReq(tx, o, po, m), false);
    SubOpSends(env, net, po, PrepareReq(tx, o, po, m), false);
    assert !Sends(e1.sent, |env.sent|, op);
    if prep.status == DebitoPreparadoOk && NumField(prep.payload, KeySaldoActualOrigen).Some? {
      var prim := TextField(prep.payload, KeyWorkerId);
      var c := CreditThen(e1, net, tx, o, po, d, pd, m, prim, fixed);
      assert r.1 == c.1;
      CreditThenAbsent(e1, net, tx, o, po, d, pd, m, prim, fixed, op, applied);
      if (SubOp(e1, net, pd, CreditReq(tx, d, pd, m), false).0.status == CreditoAplicadoOk) != applied {
        NotSentJoin(e1.sent, c.1.sent, |env.sent|, op);
      }
    }
  }

  /** Compensation and commit exclude each other: no cross-partition transfer both
      reverts and confirms the debit. */
  lemma CrossNeverBoth(env: Env, net: Net, tx: int, o: int, po: string, d: int, pd: string, m: int, fixed: bool)
    ensures var r := Cross(env, net, tx, o, po, d, pd, m, fixed);
            !(Sends(r.1.sent, |env.sent|, RevertirDebito) && Sends(r.1.sent, |env.sent|, ConfirmarDebito))
  {
    CrossAbsent(env, net, tx, o, po, d, pd, m, fixed, RevertirDebito, false);
    CrossAbsent(env, net, tx, o, po, d, pd, m, fixed, ConfirmarDebito, true);
  }

  /** Every target of a replica update gets it. */
  lemma ReplicateReaches(env: Env, p: string, account: int, nb: int, primary: Option<string>, tx: int, x: string)
    requires x in Targets(env.reg, ListOf(env.reg.replicas, p), primary)
    ensures Logged(Replicate(env, p, account, nb, primary, tx).sent, |env.sent|, Call(x, ReplicaRequest(p, account, nb, tx)))
  {
    var ts := Targets(env.reg, ListOf(env.reg.replicas, p), primary);
    var r := Replicate(env, p, account, nb, primary, tx);
    var i :| 0 <= i < |ts| && ts[i] == x;
    assert r.sent[|env.sent| + i] == Call(x, ReplicaRequest(p, account, nb, tx));
  }

  /** The fan-out sends each new balance in the worker's map to every live replica of the
      partition other than the worker that answered. */
  lemma IntraFanoutReaches(env: Env, tx: int, o: int, d: int, p: string, w: string, data: Payload, x: string)
    requires x in Targets(env.reg, ListOf(env.reg.replicas, p), Some(w))
    ensures var r := IntraFanout(env, tx, o, d, p, w, data);
            && |env.sent| <= |r.sent| && r.sent[..|env.sent|] == env.sent
            && (NumField(data, KeyNuevoSaldoOrigen).Some? ==>
                  Logged(r.sent, |env.sent|, Call(x, ReplicaRequest(p, o, NumField(data, KeyNuevoSaldoOrigen).value, tx))))
            && (NumField(data, KeyNuevoSaldoDestino).Some? ==>
                  Logged(r.sent, |env.sent|, Call(x, ReplicaRequest(p, d, NumField(data, KeyNuevoSaldoDestino).value, tx))))
  {
    var r := IntraFanout(env, tx, o, d, p, w, data);
    var e1 := env;
    match NumField(data, KeyNuevoSaldoOrigen) {
      case Some(v) =>
        e1 := Replicate(env, p, o, v, Some(w), tx);
        ReplicateReaches(env, p, o, v, Some(w), tx, x);
      case None =>
    }
    assert e1.reg == env.reg && |env.sent| <= |e1.sent| && e1.sent[..|env.sent|] == env.sent;
    match NumField(data, KeyNuevoSaldoDestino) {
      case Some(v) =>
        assert r == Replicate(e1, p, d, v, Some(w), tx);
        ReplicateReaches(e1, p, d, v, Some(w), tx, x);
        LoggedGrows(r.sent, r.sent, |e1.sent|, |env.sent|, Call(x, ReplicaRequest(p, d, v, tx)));
      case None =>
        assert r == e1;
    }
    if NumField(data, KeyNuevoSaldoOrigen).Some? {
      LoggedGrows(e1.sent, r.sent, |env.sent|, |env.sent|, Call(x, ReplicaRequest(p, o, NumField(data, KeyNuevoSaldoOrigen).value, tx)));
    }
    PrefixJoin(env.sent, e1.sent, r.sent);
  }

  /** A call logged in a prefix is logged in the whole log, from any earlier position. */
  lemma LoggedGrows(a: seq<Call>, b: seq<Call>, from: nat, from': nat, c: Call)
    requires |a| <= |b| && b[..|a|] == a && Logged(a, from, c) && from' <= from
    ensures Logged(b, from', c)
  {
    var k :| from <= k < |a| && a[k] == c;
    assert b[k] == b[..|a|][k];
  }

  /** Log prefixes compose. */
  lemma PrefixJoin(a: seq<Call>, b: seq<Call>, c: seq<Call>)
    requires |a| <= |b| && b[..|a|] == a
    requires |b| <= |c| && c[..|b|] == b
    ensures c[..|a|] == a
  {
    assert c[..|a|] == c[..|b|][..|a|];
  }

  /** Completeness of the intra-partition fan-out: after an `EXITO` map, every live
      replica of the partition other than the worker that answered is sent each new
      balance the map holds. */
  lemma IntraReplicatesAll(env: Env, net: Net, tx: int, o: int, d: int, m: int, p: string, x: string)
    ensures var t := TryReplicas(env, net, ListOf(env.reg.replicas, p), IntraRequest(tx, o, d, m, p), true);
            var r := Intra(env, net, tx, o, d, m, p);
            (ListOf(env.reg.replicas, p) != [] && t.0.Answered? && t.0.resp.status == Exito &&
             t.0.resp.payload.Fields? && x in Targets(t.1.reg, ListOf(t.1.reg.replicas, p), Some(t.0.worker))) ==>
              && (NumField(t.0.resp.payload, KeyNuevoSaldoOrigen).Some? ==>
                    Logged(r.1.sent, |t.1.sent|, Call(x, ReplicaRequest(p, o, NumField(t.0.resp.payload, KeyNuevoSaldoOrigen).value, tx))))
              && (NumField(t.0.resp.payload, KeyNuevoSaldoDestino).Some? ==>
                    Logged(r.1.sent, |t.1.sent|, Call(x, ReplicaRequest(p, d, NumField(t.0.resp.payload, KeyNuevoSaldoDestino).value, tx))))
  {
    var ws := ListOf(env.reg.replicas, p);
    var t := TryReplicas(env, net, ws, IntraRequest(tx, o, d, m, p), true);
    if ws != [] && t.0.Answered? && t.0.resp.status == Exito && t.0.resp.payload.Fields? &&
       x in Targets(t.1.reg, ListOf(t.1.reg.replicas, p), Some(t.0.worker)) {
      assert Intra(env, net, tx, o, d, m, p).1 == IntraFanout(t.1, tx, o, d, p, t.0.worker, t.0.resp.payload);
      IntraFanoutReaches(t.1, tx, o, d, p, t.0.worker, t.0.resp.payload, x);
    }
  }

  /** After an intra-partition transfer the client gets the first worker answer as it
      came; only an `EXITO` map is replicated, and only to live replicas of the
      partition other than the worker that answered. */
  lemma IntraReplicates(env: Env, net: Net, tx: int, o: int, d: int, m: int, p: string)
    ensures var t := TryReplicas(env, net, ListOf(env.reg.replicas, p), IntraRequest(tx, o, d, m, p), true);
            var r := Intra(env, net, tx, o, d, m, p);
            ListOf(env.reg.replicas, p) != [] && t.0.Answered? ==>
              && r.0 == t.0.resp
              && |t.1.sent| <= |r.1.sent| && r.1.sent[..|t.1.sent|] == t.1.sent
              && (!(t.0.resp.status == Exito && t.0.resp.payload.Fields?) ==> r.1 == t.1)
              && (forall k :: |t.1.sent| <= k < |r.1.sent| ==>
                    && r.1.sent[k].req.op == ActualizarSaldoReplica
                    && r.1.sent[k].worker != t.0.worker
                    && r.1.sent[k].worker in ListOf(t.1.reg.replicas, p)
                    && IsLive(t.1.reg, r.1.sent[k].worker))
  {
    var ws := ListOf(env.reg.replicas, p);
    var t := TryReplicas(env, net, ws, IntraRequest(tx, o, d, m, p), true);
    if ws != [] && t.0.Answered? && t.0.resp.status == Exito && t.0.resp.payload.Fields? {
      var w := t.0.worker;
      var data := t.0.resp.payload;
      var e1 := match NumField(data, KeyNuevoSaldoOrigen)
                case Some(v) => Replicate(t.1, p, o, v, Some(w), tx)
                case None => t.1;
      var r := Intra(env, net, tx, o, d, m, p);
      assert r.1 == IntraFanout(t.1, tx, o, d, p, w, data);
      assert e1.reg == t.1.reg;
      forall k | |t.1.sent| <= k < |r.1.sent|
        ensures r.1.sent[k].req.op == ActualizarSaldoReplica && r.1.sent[k].worker != w
        ensures r.1.sent[k].worker in ListOf(t.1.reg.replicas, p) && IsLive(t.1.reg, r.1.sent[k].worker)
      {
        var ts := Targets(t.1.reg, ListOf(t.1.reg.replicas, p), Some(w));
        if k < |e1.sent| {
          assert r.1.sent[k] == e1.sent[k];
          assert e1.sent[k].worker == ts[k - |t.1.sent|];
        } else {
          assert r.1.sent[k].worker == ts[k - |e1.sent|];
        }
      }
    }
  }

  // ---------------------------------------------------------------------------
  // The audit
  // ---------------------------------------------------------------------------

  /** Answers none of which carries a number add up to nothing. */
  lemma {:induction false} TotalUncounted(rs: seq<Respuesta>)
    requires forall i :: 0 <= i < |rs| ==> !rs[i].payload.Num?
    ensures Total(rs) == 0
  {
    if rs != [] {
      assert forall i :: 0 <= i < |rs[1..]| ==> rs[1..][i] == rs[i + 1];
      TotalUncounted(rs[1..]);
    }
  }

  /** The audit as written: the wrapper turns every partition sum into a map, so no
      answer is ever counted and, whatever the workers say, the audit reports an error
      with a total of zero. */
  lemma AuditAlwaysFails(env: Env, net: Net, keys: seq<string>)
    requires AccountParts(keys) != []
    ensures Audit(env, net, keys, false).0 == Respuesta(ErrorGeneralServidor, Num(0))
  {
    var ps := AccountParts(keys);
    var (rs, e) := Collect(env, net, ps, false);
    TotalUncounted(rs);
    assert !Counted(rs[0]);
  }

  /** Every worker contacted answers `EXITO` with a number. */
  ghost predicate AllAnswer(net: Net) {
    forall k :: net(k).Reply? && Counted(net(k).resp)
  }

  /** The sum of the numbers the contacts `from` to `to` answered with. */
  function Reported(net: Net, from: nat, to: nat): int
    decreases to - from
  {
    if to <= from then 0
    else (if net(from).Reply? && net(from).resp.payload.Num? then net(from).resp.payload.n else 0) + Reported(net, from + 1, to)
  }

  /** A partition has a live replica to ask. */
  ghost predicate Served(reg: Registry, p: string) {
    exists w :: w in ListOf(reg.replicas, p) && IsLive(reg, w)
  }

  /** When every contact answers, the replica loop asks the first live replica and
      stops, or asks nobody when there is none. */
  lemma {:induction false} TryReplicasAllAnswer(env: Env, net: Net, ws: seq<string>, req: Solicitud, retry: bool)
    requires AllAnswer(net)
    ensures var r := TryReplicas(env, net, ws, req, retry);
            && (r.0.Answered? <==> exists w :: w in ws && IsLive(env.reg, w))
            && (r.0.Answered? ==> r.1 == env.(sent := env.sent + [Call(r.0.worker, req)]))
            && (!r.0.Answered? ==> r.1 == env)
    decreases |ws|
  {
    if ws != [] {
      if !IsLive(env.reg, ws[0]) {
        TryReplicasAllAnswer(env, net, ws[1..], req, retry);
        assert forall w :: w in ws && w != ws[0] ==> w in ws[1..];
      } else {
        assert net(|env.sent|).Reply?;
      }
    }
  }

  /** When every contact answers, the corrected wrapper returns the first live
      replica's number untouched, or an uncounted error when there is none. */
  lemma SubOpAllAnswer(env: Env, net: Net, p: string, req: Solicitud)
    requires AllAnswer(net)
    ensures var r := SubOp(env, net, p, req, true);
            && (Served(env.reg, p) ==> r.0 == net(|env.sent|).resp && r.1.reg == env.reg && |r.1.sent| == |env.sent| + 1)
            && (!Served(env.reg, p) ==> r.1 == env && !Counted(r.0))
  {
    var ws := ListOf(env.reg.replicas, p);
    if ws != [] {
      TryReplicasAllAnswer(env, net, ws, req, false);
    }
  }

  /** When every contact answers, the corrected collection counts every partition that
      has a live replica and its total is the sum of what the workers reported. */
  lemma {:induction false} CollectAllAnswer(env: Env, net: Net, ps: seq<string>)
    requires AllAnswer(net)
    ensures var r := Collect(env, net, ps, true);
            && r.1.reg == env.reg
            && Total(r.0) == Reported(net, |env.sent|, |r.1.sent|)
            && ((forall i :: 0 <= i < |r.0| ==> Counted(r.0[i])) <==> forall p :: p in ps ==> Served(env.reg, p))
    decreases |ps|
  {
    if ps != [] {
      var req := Solicitud(CalcularSaldoParticion, NoParams.(partition := Some(ps[0])));
      var (resp, e1) := SubOp(env, net, ps[0], req, true);
      SubOpAllAnswer(env, net, ps[0], req);
      var (rest, e2) := Collect(e1, net, ps[1..], true);
      CollectAllAnswer(e1, net, ps[1..]);
      var r := Collect(env, net, ps, true);
      assert r.0 == [resp] + rest && r.1 == e2;
      assert r.0[1..] == rest;
      var s0, s1 := |env.sent|, |e1.sent|;
      assert Total(r.0) == (if Counted(resp) then resp.payload.n else 0) + Total(rest);
      if Served(env.reg, ps[0]) {
        assert Reported(net, s0, |e2.sent|) == resp.payload.n + Reported(net, s1, |e2.sent|);
      } else {
        assert s1 == s0 && !Counted(resp);
      }
      assert forall i :: 0 <= i < |rest| ==> r.0[i + 1] == rest[i];
      assert forall p :: p in ps <==> p == ps[0] || p in ps[1..];
    }
  }

  /** The corrected audit: when every contact answers, the audit's total is the sum the
      workers reported, and it is `EXITO` exactly when every account partition had a
      live replica to ask. */
  lemma AuditFixedReports(env: Env, net: Net, keys: seq<string>)
    requires AllAnswer(net) && AccountParts(keys) != []
    ensures var r := Audit(env, net, keys, true);
            && r.0.payload == Num(Reported(net, |env.sent|, |r.1.sent|))
            && (r.0.status == Exito <==> forall p :: p in AccountParts(keys) ==> Served(env.reg, p))
  {
    CollectAllAnswer(env, net, AccountParts(keys));
  }

  /** The sum of the counted answers (`EXITO` with a number) among contacts `from` to `to`. */
  function CountedSum(net: Net, from: nat, to: nat): int
    decreases to - from
  {
    if to <= from then 0
    else (if net(from).Reply? && Counted(net(from).resp) then net(from).resp.payload.n else 0) + CountedSum(net, from + 1, to)
  }

  /** How many of the contacts `from` to `to` gave a counted answer. */
  function CountedContacts(net: Net, from: nat, to: nat): nat
    decreases to - from
  {
    if to <= from then 0
    else (if net(from).Reply? && Counted(net(from).resp) then 1 else 0) + CountedContacts(net, from + 1, to)
  }

  /** How many replies are counted. */
  function CountOf(rs: seq<Respuesta>): nat {
    if rs == [] then 0 else (if Counted(rs[0]) then 1 else 0) + CountOf(rs[1..])
  }

  /** All replies are counted exactly when the count reaches their number. */
  lemma {:induction false} CountOfAll(rs: seq<Respuesta>)
    ensures CountOf(rs) <= |rs|
    ensures CountOf(rs) == |rs| <==> forall i :: 0 <= i < |rs| ==> Counted(rs[i])
  {
    if rs != [] {
      CountOfAll(rs[1..]);
      assert forall i :: 1 <= i < |rs| ==> rs[i] == rs[1..][i - 1];
    }
  }

  /** Counting over consecutive ranges of contacts adds up. */
  lemma {:induction false} CountedSplit(net: Net, a: nat, b: nat, c: nat)
    requires a <= b <= c
    ensures CountedSum(net, a, c) == CountedSum(net, a, b) + CountedSum(net, b, c)
    ensures CountedContacts(net, a, c) == CountedContacts(net, a, b) + CountedContacts(net, b, c)
    decreases b - a
  {
    if a < b {
      CountedSplit(net, a + 1, b, c);
    }
  }

  /** Contacts without a worker reply count nothing. */
  lemma {:induction false} CountedNone(net: Net, a: nat, b: nat)
    requires forall k :: a <= k < b ==> !net(k).Reply?
    ensures CountedSum(net, a, b) == 0 && CountedContacts(net, a, b) == 0
    decreases b - a
  {
    if a < b {
      CountedNone(net, a + 1, b);
    }
  }

  /** Whatever the network does, the corrected wrapper's reply is counted exactly when
      the one contact that ended its loop gave a counted answer, and it carries that
      number. */
  lemma SubOpCounted(env: Env, net: Net, p: string, req: Solicitud)
    ensures var r := SubOp(env, net, p, req, true);
            && CountedSum(net, |env.sent|, |r.1.sent|) == (if Counted(r.0) then r.0.payload.n else 0)
            && CountedContacts(net, |env.sent|, |r.1.sent|) == (if Counted(r.0) then 1 else 0)
  {
    var ws := ListOf(env.reg.replicas, p);
    var r := SubOp(env, net, p, req, true);
    if ws != [] {
      var t := TryReplicas(env, net, ws, req, false);
      assert r.1 == t.1;
      if |t.1.sent| > |env.sent| {
        var last := |t.1.sent| - 1;
        TryReplicasFirst(env, net, ws, req, false);
        CountedNone(net, |env.sent|, last);
        CountedSplit(net, |env.sent|, last, last + 1);
        assert CountedSum(net, last, last + 1) == (if net(last).Reply? && Counted(net(last).resp) then net(last).resp.payload.n else 0);
        assert CountedContacts(net, last, last + 1) == (if net(last).Reply? && Counted(net(last).resp) then 1 else 0);
      }
    }
  }

  /** Whatever the network does, the corrected collection's total is the sum of the
      counted answers and its number of counted replies is the number of counted
      answers. */
  lemma {:induction false} CollectCounted(env: Env, net: Net, ps: seq<string>)
    ensures var r := Collect(env, net, ps, true);
            && CountedSum(net, |env.sent|, |r.1.sent|) == Total(r.0)
            && CountedContacts(net, |env.sent|, |r.1.sent|) == CountOf(r.0)
    decreases |ps|
  {
    if ps != [] {
      var req := Solicitud(CalcularSaldoParticion, NoParams.(partition := Some(ps[0])));
      var (resp, e1) := SubOp(env, net, ps[0], req, true);
      SubOpCounted(env, net, ps[0], req);
      var (rest, e2) := Collect(e1, net, ps[1..], true);
      CollectCounted(e1, net, ps[1..]);
      var r := Collect(env, net, ps, true);
      assert r.0 == [resp] + rest && r.1 == e2;
      assert r.0[1..] == rest;
      CountedSplit(net, |env.sent|, |e1.sent|, |e2.sent|);
    }
  }

  /** The corrected audit over any network: its total is the sum of the counted worker
      answers, and it is `EXITO` exactly when every account partition produced one. */
  lemma AuditCounts(env: Env, net: Net, keys: seq<string>)
    ensures var r := Audit(env, net, keys, true);
            AccountParts(keys) != [] ==>
              && r.0.payload == Num(CountedSum(net, |env.sent|, |r.1.sent|))
              && (r.0.status == Exito <==> CountedContacts(net, |env.sent|, |r.1.sent|) == |AccountParts(keys)|)
  {
    var ps := AccountParts(keys);
    var c := Collect(env, net, ps, true);
    CollectCounted(env, net, ps);
    CountOfAll(c.0);
  }

  /** A client's audit request, end to end: as written the handler answers every audit
      over at least one account partition with a general error and a zero total; with
      the corrected wrapper it answers the counted sum, and `EXITO` iff every account
      partition was counted. */
  lemma HandleAudit(env: Env, net: Net, req: Solicitud, keys: seq<string>)
    requires CounterInRange(env.reg) && req.op == ArqueoCuentas && AccountParts(keys) != []
    ensures Handle(env, net, req, keys, false).0 == Some(Respuesta(ErrorGeneralServidor, Num(0)))
    ensures var r := Handle(env, net, req, keys, true);
            && r.0.Some?
            && r.0.value.payload == Num(CountedSum(net, |env.sent|, |r.1.sent|))
            && (r.0.value.status == Exito <==> CountedContacts(net, |env.sent|, |r.1.sent|) == |AccountParts(keys)|)
  {
    AuditAlwaysFails(env, net, keys);
    AuditCounts(env, net, keys);
  }

  /** The corrected protocol never sends a revert. */
  lemma CrossFixedNeverReverts(env: Env, net: Net, tx: int, o: int, po: string, d: int, pd: string, m: int)
    ensures var r := Cross(env, net, tx, o, po, d, pd, m, true);
            !Sends(r.1.sent, |env.sent|, RevertirDebito)
  {
    var r := Cross(env, net, tx, o, po, d, pd, m, true);
    var (prep, e1) := SubOp(env, net, po, PrepareReq(tx, o, po, m), false);
    SubOpSends(env, net, po, PrepareReq(tx, o, po, m), false);
    assert !Sends(e1.sent, |env.sent|, RevertirDebito);
    CrossAbsent(env, net, tx, o, po, d, pd, m, true, RevertirDebito, false);
    if prep.status == DebitoPreparadoOk && NumField(prep.payload, KeySaldoActualOrigen).Some? {
      var prim := TextField(prep.payload, KeyWorkerId);
      CreditThenOrder(e1, net, tx, o, po, d, pd, m, prim, true);
      var (cred, e2) := SubOp(e1, net, pd, CreditReq(tx, d, pd, m), false);
      if cred.status != CreditoAplicadoOk {
        assert r.1 == e2;
        NotSentJoin(e1.sent, e2.sent, |env.sent|, RevertirDebito);
      }
    }
  }

  /** A confirmed debit whose answer carries the origin's new balance, with no
      destination balance to replicate, answers `EXITO` after replicating the origin only. */
  lemma SettleConfirmed(e2: Env, net: Net, tx: int, o: int, po: string, d: int, pd: string, m: int,
                        preparer: Option<string>, creditor: Option<string>)
    requires var conf := SubOp(e2, net, po, Solicitud(ConfirmarDebito, DebitParams(tx, o, m, po)), false).0;
             conf.status == DebitoConfirmadoOk && NumField(conf.payload, KeyNuevoSaldoOrigen).Some?
    ensures var conf := SubOp(e2, net, po, Solicitud(ConfirmarDebito, DebitParams(tx, o, m, po)), false);
            Settle(e2, net, tx, o, po, d, pd, m, preparer, creditor, None) ==
              (Bare(Exito), Replicate(conf.1, po, o, NumField(conf.0.payload, KeyNuevoSaldoOrigen).value, preparer, tx))
  {
  }

  /** Failover: when the first of two replicas fails and the second answers, the
      wrapper deregisters the first and returns the second's answer, stamped with its id. */
  lemma SubOpFailover(env: Env, net: Net, p: string, req: Solicitud, a: string, b: string)
    requires ListOf(env.reg.replicas, p) == [a, b]
    requires IsLive(env.reg, a) && IsLive(Deregister(env.reg, a), b)
    requires net(|env.sent|) == CommFailure && net(|env.sent| + 1).Reply?
    ensures var resp := net(|env.sent| + 1).resp;
            SubOp(env, net, p, req, false) ==
              (Respuesta(resp.status, Stamp(resp.payload, b, false)),
               Env(Deregister(env.reg, a), env.sent + [Call(a, req), Call(b, req)]))
  {
    var e1 := env.(sent := env.sent + [Call(a, req)]).(reg := Deregister(env.reg, a));
    assert [a, b][1..] == [b];
    assert TryReplicas(env, net, [a, b], req, false) == TryReplicas(e1, net, [b], req, false);
    assert e1.sent + [Call(b, req)] == env.sent + [Call(a, req), Call(b, req)];
  }

  /** A confirmation that fails over from `a` to `b` and is confirmed answers `EXITO`
      and then replicates the origin's new balance from the registry without `a`. */
  lemma SettleFailover(e2: Env, net: Net, tx: int, o: int, po: string, d: int, pd: string, m: int,
                       a: string, b: string, data: Payload)
    requires ListOf(e2.reg.replicas, po) == [a, b]
    requires IsLive(e2.reg, a) && IsLive(Deregister(e2.reg, a), b)
    requires net(|e2.sent|) == CommFailure && net(|e2.sent| + 1) == Reply(Respuesta(DebitoConfirmadoOk, data))
    requires data.Fields? && KeyNuevoSaldoOrigen in data.nums
    ensures var confirm := Solicitud(ConfirmarDebito, DebitParams(tx, o, m, po));
            var e3 := Env(Deregister(e2.reg, a), e2.sent + [Call(a, confirm), Call(b, confirm)]);
            Settle(e2, net, tx, o, po, d, pd, m, Some(a), None, None) ==
              (Bare(Exito), Replicate(e3, po, o, data.nums[KeyNuevoSaldoOrigen], Some(a), tx))
  {
    var confirm := Solicitud(ConfirmarDebito, DebitParams(tx, o, m, po));
    SubOpFailover(e2, net, po, confirm, a, b);
    assert NumField(Stamp(data, b, false), KeyNuevoSaldoOrigen) == Some(data.nums[KeyNuevoSaldoOrigen]);
    SettleConfirmed(e2, net, tx, o, po, d, pd, m, Some(a), None);
  }

  /** A partition with one live replica that is not the primary gets exactly one update. */
  lemma ReplicateSingle(env: Env, p: string, account: int, nb: int, primary: Option<string>, tx: int, b: string)
    requires ListOf(env.reg.replicas, p) == [b] && IsLive(env.reg, b) && primary != Some(b)
    ensures Replicate(env, p, account, nb, primary, tx).sent == env.sent + [Call(b, ReplicaRequest(p, account, nb, tx))]
  {
    assert Targets(env.reg, [b], primary) == [b];
  }

  /** Replication after a cross-partition transfer skips the worker that answered the
      prepare, not the one that confirmed. When the preparer `a` fails on the
      confirmation, the next replica `b` confirms, and `b` is then sent the replica
      update of the balance it has just written itself. */
  lemma ReplicationSkipsPreparer(e2: Env, net: Net, tx: int, o: int, po: string, d: int, pd: string, m: int,
                                 a: string, b: string, data: Payload)
    requires a != b && ListOf(e2.reg.replicas, po) == [a, b]
    requires IsLive(e2.reg, a) && IsLive(Deregister(e2.reg, a), b)
    requires ListOf(Deregister(e2.reg, a).replicas, po) == [b]
    requires net(|e2.sent|) == CommFailure && net(|e2.sent| + 1) == Reply(Respuesta(DebitoConfirmadoOk, data))
    requires data.Fields? && KeyNuevoSaldoOrigen in data.nums
    ensures var confirm := Solicitud(ConfirmarDebito, DebitParams(tx, o, m, po));
            var r := Settle(e2, net, tx, o, po, d, pd, m, Some(a), None, None);
            && r.0 == Bare(Exito)
            && r.1.sent == e2.sent + [Call(a, confirm), Call(b, confirm),
                                      Call(b, ReplicaRequest(po, o, data.nums[KeyNuevoSaldoOrigen], tx))]
  {
    var confirm := Solicitud(ConfirmarDebito, DebitParams(tx, o, m, po));
    var v := data.nums[KeyNuevoSaldoOrigen];
    var e3 := Env(Deregister(e2.reg, a), e2.sent + [Call(a, confirm), Call(b, confirm)]);
    SettleFailover(e2, net, tx, o, po, d, pd, m, a, b, data);
    ReplicateSingle(e3, po, o, v, Some(a), tx, b);
    assert e3.sent + [Call(b, ReplicaRequest(po, o, v, tx))] ==
           e2.sent + [Call(a, confirm), Call(b, confirm), Call(b, ReplicaRequest(po, o, v, tx))];
  }
}

=== FILE: cross_protocol.dfy ===
/** The cross-partition transfer played out against the Java workers that hold the two
    accounts, every message delivered: what happens to the money. `PREPARAR_DEBITO`
    only checks the funds and writes nothing, so the revert the coordinator sends after
    a refused credit adds the amount to an origin that was never debited. */
module CrossProtocol {
  import opened Wrappers
  import opened Messages
  import opened Store
  import opened StoreProps
  import opened JavaWorker
  import C = Coordinator

  /** The outcome of one run: the status the client gets, then the origin's and the
      destination's worker afterwards. */
  datatype Run = Run(status: Status, origin: Node, dest: Node)

  /** The part of the worker's dispatch the protocol exercises: the partition guard,
      then the handler of each of the four two-phase operations. */
  function Deliver(n: Node, req: Solicitud): (r: (Respuesta, Node))
    requires req.op in {PrepararDebito, AplicarCredito, ConfirmarDebito, RevertirDebito}
    ensures r == Process(n, req)
  {
    if Refused(n, req.params) then (Bare(ErrorGeneralServidor), n)
    else if req.op == PrepararDebito then (Prepare(n, req.params), n)
    else if req.op == AplicarCredito then Credit(n, req.params)
    else if req.op == ConfirmarDebito then Confirm(n, req.params)
    else Revert(n, req.params)
  }

  /** The coordinator's steps against worker `a` (holding partition `po` of account `o`)
      and worker `b` (holding partition `pd` of account `d`). `fixed` drops the revert
      after a refused credit. */
  function Play(a: Node, b: Node, tx: int, o: int, po: string, d: int, pd: string, m: int, fixed: bool): (r: Run)
    ensures r.origin.id == a.id && r.origin.held == a.held
    ensures r.dest.id == b.id && r.dest.held == b.held
  {
    var dp, cp := C.DebitParams(tx, o, m, po), C.CreditParams(tx, d, m, pd);
    var prep := Deliver(a, Solicitud(PrepararDebito, dp)).0;
    if prep.status != DebitoPreparadoOk then Run(prep.status, a, b)
    else
      var (cred, b1) := Deliver(b, Solicitud(AplicarCredito, cp));
      if cred.status != CreditoAplicadoOk then
        if fixed then Run(cred.status, a, b1)
        else
          var (rev, a1) := Deliver(a, Solicitud(RevertirDebito, dp));
          Run(if rev.status != DebitoRevertidoOk then ErrorGeneralServidor else cred.status, a1, b1)
      else
        var (conf, a1) := Deliver(a, Solicitud(ConfirmarDebito, dp));
        Run(if conf.status != DebitoConfirmadoOk then ErrorGeneralServidor else Exito, a1, b1)
  }

  /** The balance of account `x` of partition `p` on worker `n`, as its reader sees it. */
  function Balance(n: Node, p: string, x: int): Option<int> {
    ReadBalance(n.files, p, x)
  }

  /** Every line the reader can use for `x` is also one the writers rewrite. */
  predicate Sound(n: Node, p: string, x: int) {
    p in n.files ==> NoShortRow(Body(n.files[p]), x)
  }
}

/** The money each version of the protocol moves. */
module CrossProtocolProps {
  import opened Wrappers
  import opened Messages
  import opened Store
  import opened StoreProps
  import opened JavaWorker
  import JP = JavaWorkerProps
  import C = Coordinator
  import opened CrossProtocol

  /** A balance the reader finds can be written back. */
  lemma ReadableIsWritable(files: Files, p: string, x: int, nb: int)
    requires ReadBalance(files, p, x).Some?
    requires NoShortRow(Body(files[p]), x)
    ensures UpdateOne(JavaSplit, files, p, x, nb).Some?
  {
    var rows := Body(files[p]);
    ReadRowsSpec(rows, x);
    var i :| 0 <= i < |rows| && Readable(rows[i], x) && rows[i].balance == ReadRows(rows, x) &&
             forall k :: 0 <= k < i ==> !Readable(rows[k], x);
    assert Writable(rows[i], x);
  }

  /** A run that was not refused at the prepare reads the origin's balance `bo >= m`. */
  lemma PreparedReads(a: Node, tx: int, o: int, po: string, m: int)
    requires Deliver(a, Solicitud(PrepararDebito, C.DebitParams(tx, o, m, po))).0.status == DebitoPreparadoOk
    ensures po in a.held && Balance(a, po, o).Some? && Balance(a, po, o).value >= m
  {
  }

  /** The corrected protocol is all or nothing: a run that succeeds takes `m` from the
      origin and adds it to the destination, and any other run leaves both workers as
      they were. The prepare having found the origin readable, the confirmation that
      follows an applied credit cannot fail. */
  lemma FixedAllOrNothing(a: Node, b: Node, tx: int, o: int, po: string, d: int, pd: string, m: int)
    requires Sound(a, po, o) && Sound(b, pd, d)
    ensures var r := Play(a, b, tx, o, po, d, pd, m, true);
            && (r.status == Exito ==>
                  && Balance(r.origin, po, o) == Some(Balance(a, po, o).value - m)
                  && Balance(r.dest, pd, d) == Some(Balance(b, pd, d).value + m))
            && (r.status != Exito ==> r.origin == a && r.dest == b)
  {
    var dp, cp := C.DebitParams(tx, o, m, po), C.CreditParams(tx, d, m, pd);
    if Deliver(a, Solicitud(PrepararDebito, dp)).0.status == DebitoPreparadoOk {
      PreparedReads(a, tx, o, po, m);
      if pd in b.held {
        assert Deliver(b, Solicitud(AplicarCredito, cp)) == Credit(b, cp);
        if Credit(b, cp).0.status == CreditoAplicadoOk {
          ConfirmAfterCredit(a, b, tx, o, po, d, pd, m);
        }
      } else {
        assert Deliver(b, Solicitud(AplicarCredito, cp)) == (Bare(ErrorGeneralServidor), b);
      }
    }
  }

  /** Confirming the debit of an origin that reads `bo` on a sound file succeeds and
      leaves it reading `nb`, that is `bo` less the amount. */
  lemma ConfirmAt(a: Node, tx: int, o: int, po: string, m: int, bo: int, nb: int)
    requires Sound(a, po, o) && Balance(a, po, o) == Some(bo) && nb == bo + -m
    ensures var dp := C.DebitParams(tx, o, m, po);
            Confirm(a, dp).0.status == DebitoConfirmadoOk &&
            Balance(Confirm(a, dp).1, po, o) == Some(nb)
  {
    var dp := C.DebitParams(tx, o, m, po);
    assert dp.partition == Some(po) && dp.origin == Some(o) && dp.amount == Some(m);
    assert UpdateOne(JavaSplit, a.files, po, o, nb).Some? by {
      ReadableIsWritable(a.files, po, o, nb);
    }
    assert ReadBalance(UpdateOne(JavaSplit, a.files, po, o, nb).value, po, o) == Some(nb) by {
      UpdateThenRead(JavaSplit, a.files, po, o, nb);
    }
    JP.ConfirmWrites(a, dp, po, o, m, bo, nb);
  }

  /** On a sound file, confirming the debit of a readable origin succeeds and leaves it
      reading `m` less. */
  lemma ConfirmSucceeds(a: Node, tx: int, o: int, po: string, m: int)
    requires Sound(a, po, o) && Balance(a, po, o).Some?
    ensures var dp := C.DebitParams(tx, o, m, po);
            Confirm(a, dp).0.status == DebitoConfirmadoOk &&
            Balance(Confirm(a, dp).1, po, o) == Some(Balance(a, po, o).value - m)
  {
    var bo := Balance(a, po, o).value;
    ConfirmAt(a, tx, o, po, m, bo, bo - m);
  }

  /** The successful path of a run, step by step. */
  lemma PlaySucceeds(a: Node, b: Node, tx: int, o: int, po: string, d: int, pd: string, m: int, fixed: bool)
    requires Deliver(a, Solicitud(PrepararDebito, C.DebitParams(tx, o, m, po))).0.status == DebitoPreparadoOk
    requires pd in b.held && Credit(b, C.CreditParams(tx, d, m, pd)).0.status == CreditoAplicadoOk
    requires Confirm(a, C.DebitParams(tx, o, m, po)).0.status == DebitoConfirmadoOk
    ensures Play(a, b, tx, o, po, d, pd, m, fixed) ==
            Run(Exito, Confirm(a, C.DebitParams(tx, o, m, po)).1, Credit(b, C.CreditParams(tx, d, m, pd)).1)
  {
    var dp, cp := C.DebitParams(tx, o, m, po), C.CreditParams(tx, d, m, pd);
    PreparedReads(a, tx, o, po, m);
    assert Deliver(b, Solicitud(AplicarCredito, cp)) == Credit(b, cp);
    assert Deliver(a, Solicitud(ConfirmarDebito, dp)) == Confirm(a, dp);
  }

  /** After a good prepare, the confirmation succeeds and takes the amount off the origin. */
  lemma DebitSide(a: Node, tx: int, o: int, po: string, m: int)
    requires Sound(a, po, o)
    requires Deliver(a, Solicitud(PrepararDebito, C.DebitParams(tx, o, m, po))).0.status == DebitoPreparadoOk
    ensures Balance(a, po, o).Some?
    ensures var dp := C.DebitParams(tx, o, m, po);
            Confirm(a, dp).0.status == DebitoConfirmadoOk &&
            Balance(Confirm(a, dp).1, po, o) == Some(Balance(a, po, o).value - m)
  {
    PreparedReads(a, tx, o, po, m);
    var bo := Balance(a, po, o).value;
    ConfirmAt(a, tx, o, po, m, bo, bo - m);
  }

  /** An applied credit found the destination and adds the amount to it. */
  lemma CreditSide(b: Node, tx: int, d: int, pd: string, m: int)
    requires Sound(b, pd, d)
    requires pd in b.held && Credit(b, C.CreditParams(tx, d, m, pd)).0.status == CreditoAplicadoOk
    ensures Balance(b, pd, d).Some?
    ensures Balance(Credit(b, C.CreditParams(tx, d, m, pd)).1, pd, d) == Some(Balance(b, pd, d).value + m)
  {
    var cp := C.CreditParams(tx, d, m, pd);
    assert Balance(b, pd, d).Some? by {
      assert cp.partition == Some(pd) && cp.dest == Some(d);
    }
    var bd := Balance(b, pd, d).value;
    CreditAt(b, tx, d, pd, m, bd, bd + m);
  }

  /** After a good prepare and an applied credit, the confirmation succeeds and the two
      workers' balances have moved by the amount, each in its direction. */
  lemma StepsAfterCredit(a: Node, b: Node, tx: int, o: int, po: string, d: int, pd: string, m: int)
    requires Sound(a, po, o) && Sound(b, pd, d)
    requires Deliver(a, Solicitud(PrepararDebito, C.DebitParams(tx, o, m, po))).0.status == DebitoPreparadoOk
    requires pd in b.held && Credit(b, C.CreditParams(tx, d, m, pd)).0.status == CreditoAplicadoOk
    ensures Balance(a, po, o).Some? && Balance(b, pd, d).Some?
    ensures var dp := C.DebitParams(tx, o, m, po);
            Confirm(a, dp).0.status == DebitoConfirmadoOk &&
            Balance(Confirm(a, dp).1, po, o) == Some(Balance(a, po, o).value - m)
    ensures Balance(Credit(b, C.CreditParams(tx, d, m, pd)).1, pd, d) == Some(Balance(b, pd, d).value + m)
  {
    DebitSide(a, tx, o, po, m);
    CreditSide(b, tx, d, pd, m);
  }

  /** After a good prepare and an applied credit, the run answers `EXITO` with both
      balances moved. */
  lemma ConfirmAfterCredit(a: Node, b: Node, tx: int, o: int, po: string, d: int, pd: string, m: int)
    requires Sound(a, po, o) && Sound(b, pd, d)
    requires Deliver(a, Solicitud(PrepararDebito, C.DebitParams(tx, o, m, po))).0.status == DebitoPreparadoOk
    requires pd in b.held && Credit(b, C.CreditParams(tx, d, m, pd)).0.status == CreditoAplicadoOk
    ensures var r := Play(a, b, tx, o, po, d, pd, m, true);
            && r.status == Exito
            && Balance(r.origin, po, o) == Some(Balance(a, po, o).value - m)
            && Balance(r.dest, pd, d) == Some(Balance(b, pd, d).value + m)
  {
    StepsAfterCredit(a, b, tx, o, po, d, pd, m);
    PlaySucceeds(a, b, tx, o, po, d, pd, m, true);
  }

  /** An applied credit on a sound file leaves a destination that read `bd` reading
      `nd`, that is `bd` plus the amount. */
  lemma CreditAt(b: Node, tx: int, d: int, pd: string, m: int, bd: int, nd: int)
    requires Sound(b, pd, d) && Balance(b, pd, d) == Some(bd) && nd == bd + m
    requires Credit(b, C.CreditParams(tx, d, m, pd)).0.status == CreditoAplicadoOk
    ensures Balance(Credit(b, C.CreditParams(tx, d, m, pd)).1, pd, d) == Some(nd)
  {
    var cp := C.CreditParams(tx, d, m, pd);
    assert cp.partition == Some(pd) && cp.dest == Some(d) && cp.amount == Some(m);
    JP.CreditWrites(b, cp, pd, d, m, bd, nd);
    UpdateThenRead(JavaSplit, b.files, pd, d, nd);
  }

  /** The corrected protocol never changes the combined balance of the two accounts. */
  lemma FixedConserves(a: Node, b: Node, tx: int, o: int, po: string, d: int, pd: string, m: int)
    requires Sound(a, po, o) && Sound(b, pd, d)
    requires Balance(a, po, o).Some? && Balance(b, pd, d).Some?
    ensures var r := Play(a, b, tx, o, po, d, pd, m, true);
            Balance(r.origin, po, o).Some? && Balance(r.dest, pd, d).Some? &&
            Balance(r.origin, po, o).value + Balance(r.dest, pd, d).value ==
              Balance(a, po, o).value + Balance(b, pd, d).value
  {
    FixedAllOrNothing(a, b, tx, o, po, d, pd, m);
  }

  /** Reverting the debit of an origin that reads `bo` on a sound file succeeds and
      leaves it reading `nb`, that is `bo` plus the amount. */
  lemma RevertAt(a: Node, tx: int, o: int, po: string, m: int, bo: int, nb: int)
    requires Sound(a, po, o) && Balance(a, po, o) == Some(bo) && nb == bo + m
    ensures var dp := C.DebitParams(tx, o, m, po);
            Revert(a, dp).0.status == DebitoRevertidoOk &&
            Balance(Revert(a, dp).1, po, o) == Some(nb)
  {
    var dp := C.DebitParams(tx, o, m, po);
    assert dp.partition == Some(po) && dp.origin == Some(o) && dp.amount == Some(m);
    assert UpdateOne(JavaSplit, a.files, po, o, nb).Some? by {
      ReadableIsWritable(a.files, po, o, nb);
    }
    assert ReadBalance(UpdateOne(JavaSplit, a.files, po, o, nb).value, po, o) == Some(nb) by {
      UpdateThenRead(JavaSplit, a.files, po, o, nb);
    }
    JP.RevertWrites(a, dp, po, o, m, bo, nb);
  }

  /** The path of a run whose credit is refused after a good prepare: the destination's
      worker is unchanged; as written the origin's worker then gets the revert, and the
      corrected run stops there. */
  lemma PlayRefusedCredit(a: Node, b: Node, tx: int, o: int, po: string, d: int, pd: string, m: int)
    requires Deliver(a, Solicitud(PrepararDebito, C.DebitParams(tx, o, m, po))).0.status == DebitoPreparadoOk
    requires Deliver(b, Solicitud(AplicarCredito, C.CreditParams(tx, d, m, pd))).0.status != CreditoAplicadoOk
    ensures var dp := C.DebitParams(tx, o, m, po);
            var cred := Deliver(b, Solicitud(AplicarCredito, C.CreditParams(tx, d, m, pd))).0.status;
            && Play(a, b, tx, o, po, d, pd, m, false) ==
                 Run(if Revert(a, dp).0.status != DebitoRevertidoOk then ErrorGeneralServidor else cred, Revert(a, dp).1, b)
            && Play(a, b, tx, o, po, d, pd, m, true) == Run(cred, a, b)
  {
    var dp := C.DebitParams(tx, o, m, po);
    PreparedReads(a, tx, o, po, m);
    assert Deliver(a, Solicitud(RevertirDebito, dp)) == Revert(a, dp);
  }

  /** The protocol as written: when the prepare succeeds and the credit is refused, the
      revert succeeds and the client is told the credit's error, yet the origin ends
      `m` richer and the destination is untouched. */
  lemma RefusedCreditAddsToOrigin(a: Node, b: Node, tx: int, o: int, po: string, d: int, pd: string, m: int)
    requires Sound(a, po, o)
    requires Deliver(a, Solicitud(PrepararDebito, C.DebitParams(tx, o, m, po))).0.status == DebitoPreparadoOk
    requires Deliver(b, Solicitud(AplicarCredito, C.CreditParams(tx, d, m, pd))).0.status != CreditoAplicadoOk
    ensures var r := Play(a, b, tx, o, po, d, pd, m, false);
            && r.status == Deliver(b, Solicitud(AplicarCredito, C.CreditParams(tx, d, m, pd))).0.status
            && r.dest == b
            && Balance(r.origin, po, o) == Some(Balance(a, po, o).value + m)
  {
    PreparedReads(a, tx, o, po, m);
    var bo := Balance(a, po, o).value;
    RevertAt(a, tx, o, po, m, bo, bo + m);
    PlayRefusedCredit(a, b, tx, o, po, d, pd, m);
  }

  /** A concrete run of the protocol as written: 30 moved from account 1 (balance 100)
      to account 2, which the destination partition does not hold. The client is told
      the destination does not exist, and account 1 now holds 130. The corrected
      protocol leaves it at 100. */
  lemma RefusedCreditExample()
    ensures var hdr := Line(4, None, None, false);
            var a := Node("w1", ["CUENTA_P1"], map["CUENTA_P1" := [hdr, Line(4, Some(1), Some(100), false)]]);
            var b := Node("w2", ["CUENTA_P2"], map["CUENTA_P2" := [hdr, Line(4, Some(3), Some(50), false)]]);
            var r := Play(a, b, 7, 1, "CUENTA_P1", 2, "CUENTA_P2", 30, false);
            var f := Play(a, b, 7, 1, "CUENTA_P1", 2, "CUENTA_P2", 30, true);
            && r.status == ErrorCuentaDestinoNoExiste && Balance(r.origin, "CUENTA_P1", 1) == Some(130)
            && f.status == ErrorCuentaDestinoNoExiste && Balance(f.origin, "CUENTA_P1", 1) == Some(100)
  {
    var hdr := Line(4, None, None, false);
    var a := Node("w1", ["CUENTA_P1"], map["CUENTA_P1" := [hdr, Line(4, Some(1), Some(100), false)]]);
    var b := Node("w2", ["CUENTA_P2"], map["CUENTA_P2" := [hdr, Line(4, Some(3), Some(50), false)]]);
    assert Balance(a, "CUENTA_P1", 1) == Some(100);
    assert Balance(b, "CUENTA_P2", 2) == None by {
      assert ReadRows([Line(4, Some(3), Some(50), false)], 2) == ReadRows([], 2);
    }
    RevertAt(a, 7, 1, "CUENTA_P1", 30, 100, 130);
    PlayRefusedCredit(a, b, 7, 1, "CUENTA_P1", 2, "CUENTA_P2", 30);
  }
}

=== FILE: decimal.dfy ===
/** Money amounts of the BankSystem prototype. The prototype keeps balances as Java
    `Double`s written in its records with two decimals ("1500.00"); the model keeps them
    exactly, as whole hundredths. It reads the plain decimal text `Double.parseDouble`
    accepts with at most two fraction digits, and writes the text `Double.toString` gives
    for an exact hundredth below 10^7. Exponent notation ("1.0E7") and the long
    fractions of inexact floating-point sums ("1200.3999999999999") are outside it. */
module Decimal {
  import opened Wrappers
  import opened Text

  /** A possibly empty run of decimal digits. */
  predicate Digits(s: string) {
    forall i :: 0 <= i < |s| ==> IsDigit(s[i])
  }

  function Digit(d: int): (c: char)
    requires 0 <= d < 10
    ensures IsDigit(c)
  {
    ('0' as int + d) as char
  }

  /** The hundredths written by at most two fraction digits ("5" is 50, "05" is 5). */
  function FractionValue(f: string): (r: nat)
    requires |f| <= 2 && Digits(f)
    ensures r < 100
  {
    if |f| == 0 then 0
    else if |f| == 1 then
      assert DigitsValue(f) == DigitsValue(f[..0]) * 10 + (f[0] as int - '0' as int);
      DigitsValue(f) * 10
    else
      assert DigitsValue(f[..1]) == DigitsValue(f[..1][..0]) * 10 + (f[0] as int - '0' as int);
      DigitsValue(f)
  }

  /** An unsigned amount: the whole part, then an optional fraction after a point. */
  function ParseUnsigned(body: string): (r: Option<nat>)
  {
    var (whole, frac) := match IndexOf(body, ".")
      case None => (body, "")
      case Some(i) => (body[..i], body[i + 1..]);
    if !AllDigits(whole) || |frac| > 2 || !Digits(frac) then None
    else Some(DigitsValue(whole) * 100 + FractionValue(frac))
  }

  /** `Double.parseDouble` on an amount: surrounding blanks are ignored, then an optional
      sign, the whole part and an optional fraction of at most two digits after a point
      ("1500", "1500.", "1500.5", "-3.25"). Anything else is a `NumberFormatException`
      (`None`). */
  function ParseAmount(s: string): (r: Option<int>)
    ensures r.Some? ==> Trim(s) != [] && (r.value < 0 ==> Trim(s)[0] == '-')
  {
    var t := Trim(s);
    var neg := |t| > 0 && t[0] == '-';
    var body := if |t| > 0 && (t[0] == '-' || t[0] == '+') then t[1..] else t;
    match ParseUnsigned(body)
    case None => None
    case Some(v) =>
      var n: int := v;
      Some(if neg then -n else n)
  }

  /** The shortest exact fraction of `Double.toString`, never empty: "0", "5", "75". */
  function FractionText(f: nat): (r: string)
    requires f < 100
    ensures 0 < |r| <= 2 && Digits(r)
  {
    if f == 0 then "0" else if f % 10 == 0 then [Digit(f / 10)] else [Digit(f / 10), Digit(f % 10)]
  }

  function UnsignedText(a: nat): (r: string)
    ensures |r| > 0 && IsDigit(r[0]) && IsDigit(r[|r| - 1])
  {
    var w := NatToString(a / 100);
    assert IsDigit(w[0]);
    var f := FractionText(a % 100);
    assert IsDigit(f[|f| - 1]);
    w + "." + f
  }

  /** `Double.toString` on an amount below 10^7: the whole part, a point and the shortest
      fraction that is exact ("1500.0", "3200.5", "2500.75", "-3.25"). Larger amounts are
      written the same way, where Java switches to exponent notation. */
  function AmountText(c: int): (r: string)
    ensures |r| > 0 && !IsBlank(r[0]) && !IsBlank(r[|r| - 1])
    ensures r[0] == '-' <==> c < 0
  {
    var a: nat := if c < 0 then -c else c;
    (if c < 0 then "-" else "") + UnsignedText(a)
  }
}

module DecimalProps {
  import opened Wrappers
  import opened Text
  import opened Decimal

  lemma TrimNonBlank(s: string)
    requires |s| > 0 && !IsBlank(s[0]) && !IsBlank(s[|s| - 1])
    ensures Trim(s) == s
  {
  }

  /** The point is found right after a digit run. */
  lemma PointAfterDigits(w: string, f: string)
    requires Digits(w)
    ensures IndexOf(w + "." + f, ".") == Some(|w|)
  {
    var b := w + "." + f;
    assert OccursAt(b, ".", |w|) by { assert b[|w|..|w| + 1] == "."; }
    forall j | 0 <= j < |w| ensures !OccursAt(b, ".", j) {
      assert b[j] == w[j];
    }
  }

  /** The written fraction reads back as the hundredths it was written for. */
  lemma FractionRoundTrip(f: nat)
    requires f < 100
    ensures FractionValue(FractionText(f)) == f
  {
    var frac := FractionText(f);
    if |frac| == 1 {
      assert DigitsValue(frac) == DigitsValue(frac[..0]) * 10 + (frac[0] as int - '0' as int);
    } else {
      assert frac[..1] == [Digit(f / 10)];
      assert DigitsValue(frac[..1]) == DigitsValue(frac[..1][..0]) * 10 + (frac[0] as int - '0' as int);
      assert DigitsValue(frac) == DigitsValue(frac[..1]) * 10 + (frac[1] as int - '0' as int);
    }
  }

  lemma UnsignedRoundTrip(a: nat)
    ensures ParseUnsigned(UnsignedText(a)) == Some(a)
  {
    var w := NatToString(a / 100);
    var frac := FractionText(a % 100);
    var body := w + "." + frac;
    PointAfterDigits(w, frac);
    assert body[..|w|] == w;
    assert body[|w| + 1..] == frac;
    FractionRoundTrip(a % 100);
  }

  /** A minus sign before an unsigned text reads as the negated value. */
  lemma SignedRead(t: string, a: nat)
    requires |t| > 1 && t[0] == '-' && !IsBlank(t[|t| - 1]) && ParseUnsigned(t[1..]) == Some(a)
    ensures ParseAmount(t) == Some(-(a as int))
  {
    TrimNonBlank(t);
  }

  lemma DropSign(u: string)
    ensures ("-" + u)[1..] == u
  {
  }

  lemma NoSign(u: string)
    ensures "" + u == u
  {
  }

  /** A negative amount is written as a minus sign before the text of its magnitude. */
  lemma NegativeTail(a: nat)
    requires a > 0
    ensures |AmountText(-(a as int))| > 1 && AmountText(-(a as int))[1..] == UnsignedText(a)
  {
    DropSign(UnsignedText(a));
  }

  /** A negative amount reads back exactly. */
  lemma NegativeRoundTrip(a: nat)
    requires a > 0
    ensures ParseAmount(AmountText(-(a as int))) == Some(-(a as int))
  {
    NegativeTail(a);
    UnsignedRoundTrip(a);
    SignedRead(AmountText(-(a as int)), a);
  }

  /** An unsigned text with no sign before it reads as its value. */
  lemma UnsignedRead(t: string, a: nat)
    requires |t| > 0 && IsDigit(t[0]) && !IsBlank(t[|t| - 1]) && ParseUnsigned(t) == Some(a)
    ensures ParseAmount(t) == Some(a)
  {
    TrimNonBlank(t);
  }

  /** A non-negative amount is its unsigned text, and reads back exactly. */
  lemma NonNegativeRoundTrip(c: int)
    requires c >= 0
    ensures ParseAmount(AmountText(c)) == Some(c)
  {
    NoSign(UnsignedText(c));
    UnsignedRoundTrip(c);
    UnsignedRead(AmountText(c), c);
  }

  /** Every amount the prototype writes is read back exactly. */
  lemma AmountRoundTrip(c: int)
    ensures ParseAmount(AmountText(c)) == Some(c)
  {
    if c < 0 {
      NegativeRoundTrip(-c);
    } else {
      NonNegativeRoundTrip(c);
    }
  }
}

=== FILE: handshake.dfy ===
/** The registration handshake the coordinator runs with each joining worker
    (`ManejadorWorkerServidor.handleJavaWorker`, `handlePythonWorker` and the failure
    handling of `run`): registration request, partition offer, the worker's
    acknowledgement, formal registration and the final confirmation. The outcome of
    every read and write on the connection is a parameter; a session returns the
    registry it leaves behind, the messages the coordinator wrote, and how it ended.
    The Python worker's JSON messages are represented by the `MensajeWorker` they
    stand for. `fixed` selects the corrected registration that first clears the
    worker's earlier memberships. */
module Handshake {
  import opened Wrappers
  import opened Text
  import opened Info
  import opened Registry
  import opened WorkerMessage
  import JsonText

  /** What reading one object from a Java worker yields. */
  datatype ObjectRead = Got(m: Message) | OtherObject | Broken

  /** What reading one JSON frame from a Python worker yields: the text, `null` (a short
      or invalid frame), or an I/O exception. */
  datatype JsonRead = Json(text: string) | NoMessage | LinkError

  datatype Ending =
    | Refused        // no usable registration request
    | NoPartitions   // nothing to offer: an ERROR message was sent
    | Abandoned      // the link failed, or an unreadable reply arrived, after the offer
    | RolledBack     // the reply was not the acknowledgement: tentative assignment removed
    | Registered     // acknowledged, registered and confirmed
    | Dropped        // registered, but the confirmation could not be written: deregistered

  datatype Session = Session(reg: Registry, sent: seq<Message>, ending: Ending)

  const NoPartitionsText := "No hay particiones para asignar."
  const CompleteText := "Registro completo y particiones asignadas."
  const AckMark := "DATOS_RECIBIDOS_POR_WORKER"

  /** `registrarActualizarWorker`, as written or corrected. */
  function Enlist(reg: Registry, info: InfoWorker, parts: seq<string>, fixed: bool): (r: Registry)
    ensures r.workers == reg.workers[info.id := info.(partitions := parts)]
  {
    if fixed then RegisterFixed(reg, info, parts) else Register(reg, info, parts)
  }

  /** The steps after the worker's reply is judged: register, confirm, and deregister
      when the confirmation cannot be written. */
  function Complete(reg: Registry, info: InfoWorker, parts: seq<string>, offer: Message,
                    confirm: Message, confirmSent: bool, fixed: bool): (r: Session)
    ensures r.ending == (if confirmSent then Registered else Dropped)
    ensures confirmSent ==> r.reg == Enlist(reg, info, parts, fixed) && r.sent == [offer, confirm]
    ensures !confirmSent ==> r.reg == Deregister(Enlist(reg, info, parts, fixed), info.id) && r.sent == [offer]
  {
    var reg1 := Enlist(reg, info, parts, fixed);
    if confirmSent then Session(reg1, [offer, confirm], Registered)
    else Session(Deregister(reg1, info.id), [offer], Dropped)
  }

  /** `handleJavaWorker`. A registration request whose worker id is `null` cannot be
      registered (the registry's maps reject a null key) and is refused here. The
      "no partitions" error is recorded as sent whether or not its write succeeds; the
      registry is left untouched either way. */
  function JavaSession(reg: Registry, hello: ObjectRead, host: string, order: seq<string>, now: int,
                       offerSent: bool, ack: ObjectRead, confirmSent: bool, fixed: bool): (r: Session)
    ensures (!hello.Got? || hello.m.kind != Some(Registro)) ==> r == Session(reg, [], Refused)
    ensures r.ending in {Refused, NoPartitions, Abandoned} ==> r.reg == reg
    ensures r.ending in {Registered, Dropped} <==>
      (&& hello.Got? && hello.m.kind == Some(Registro) && hello.m.workerId.Some?
       && Assign(reg, hello.m.workerId.value, order).parts != [] && offerSent
       && ack.Got? && ack.m.kind == Some(DatosRecibidosPorWorker))
    ensures r.ending == NoPartitions <==>
      (&& hello.Got? && hello.m.kind == Some(Registro) && hello.m.workerId.Some?
       && Assign(reg, hello.m.workerId.value, order).parts == [])
    ensures r.ending == NoPartitions ==> r.sent == [Plain(Some(Error), Some("ServidorCentral"), Some(NoPartitionsText))]
    ensures r.ending in {Registered, Dropped} ==> (r.ending == Registered <==> confirmSent)
  {
    if !hello.Got? || hello.m.kind != Some(Registro) || hello.m.workerId.None? then Session(reg, [], Refused)
    else
      var id := hello.m.workerId.value;
      var offer := Assign(reg, id, order);
      if offer.parts == [] then
        Session(reg, [Plain(Some(Error), Some("ServidorCentral"), Some(NoPartitionsText))], NoPartitions)
      else
        var msg := Assignment(Some(offer.data), Some(offer.parts), Some("Particiones asignadas."));
        if !offerSent then Session(reg, [], Abandoned)
        else if !ack.Got? then Session(reg, [msg], Abandoned)
        else if ack.m.kind != Some(DatosRecibidosPorWorker) then
          Session(RemoveTentative(reg, Some(id), Some(offer.parts)), [msg], RolledBack)
        else
          Complete(reg, NewInfo(id, host, hello.m.port, offer.parts, now), offer.parts, msg,
                   RegistrationComplete(Some(id), Some(CompleteText), true), confirmSent, fixed)
  }

  /** `handlePythonWorker`. The worker id and task port are pulled out of the JSON text;
      any reply whose text mentions `DATOS_RECIBIDOS_POR_WORKER` counts as the acknowledgement.
      As in the Java session, the "no partitions" error is recorded as sent whether or
      not its write succeeds, and the registry is left untouched either way. */
  function PythonSession(reg: Registry, hello: JsonRead, host: string, order: seq<string>, now: int,
                         offerSent: bool, ack: JsonRead, confirmSent: bool, fixed: bool): (r: Session)
    ensures (!hello.Json? || JsonText.ExtractWorkerId(hello.text).None?) ==> r == Session(reg, [], Refused)
    ensures r.ending in {Refused, NoPartitions, Abandoned} ==> r.reg == reg
    ensures r.ending in {Registered, Dropped} <==>
      (&& hello.Json? && JsonText.ExtractWorkerId(hello.text).Some?
       && Assign(reg, JsonText.ExtractWorkerId(hello.text).value, order).parts != [] && offerSent
       && ack.Json? && Contains(ack.text, AckMark))
    ensures r.ending == NoPartitions ==> r.sent == [Plain(Some(Error), None, Some(NoPartitionsText))]
    ensures r.ending in {Registered, Dropped} ==> (r.ending == Registered <==> confirmSent)
  {
    if !hello.Json? then Session(reg, [], Refused)
    else
      match JsonText.ExtractWorkerId(hello.text)
      case None => Session(reg, [], Refused)
      case Some(id) =>
        var port := JsonText.ExtractWorkerPort(hello.text);
        var offer := Assign(reg, id, order);
        if offer.parts == [] then Session(reg, [Plain(Some(Error), None, Some(NoPartitionsText))], NoPartitions)
        else
          var msg := Assignment(Some(offer.data), Some(offer.parts), Some("Particiones asignadas por Java server"));
          if !offerSent then Session(reg, [], Abandoned)
          else if ack.LinkError? then Session(reg, [msg], Abandoned)
          else if ack.Json? && Contains(ack.text, AckMark) then
            Complete(reg, NewInfo(id, host, port, offer.parts, now), offer.parts, msg,
                     Plain(Some(ConfirmacionRegistroCompleto), None, Some(CompleteText)), confirmSent, fixed)
          else Session(RemoveTentative(reg, Some(id), Some(offer.parts)), [msg], RolledBack)
  }
}

module HandshakeProps {
  import opened Wrappers
  import opened Text
  import opened Lists
  import opened Info
  import opened Registry
  import opened RegistryProps
  import opened WorkerMessage
  import opened Handshake
  import JsonText
  import JsonTextProps

  /** The registry a Java session leaves when the worker does not acknowledge the offer. */
  lemma {:induction false} DropAllAbsent(m: Replicas, id: string, parts: seq<string>)
    requires forall p :: p in m ==> m[p] != []
    requires forall p :: p in parts && p in m ==> id !in m[p]
    ensures DropAll(m, id, parts) == m
    decreases |parts|
  {
    if parts != [] {
      var p := parts[0];
      if p in m {
        assert RemoveFirst(m[p], id) == m[p];
        assert m[p := m[p]] == m;
      }
      DropAllAbsent(m, id, parts[1..]);
    }
  }

  /** Assignment reserves nothing, so rolling back an offer the worker did not acknowledge
      leaves the registry exactly as it was: only an acknowledged offer changes it. */
  lemma RollbackIsNoOp(reg: Registry, id: string, order: seq<string>)
    requires WellFormed(reg)
    ensures RemoveTentative(reg, Some(id), Some(Assign(reg, id, order).parts)) == reg
  {
    var parts := Assign(reg, id, order).parts;
    forall p | p in parts && p in reg.replicas ensures id !in reg.replicas[p] {
      assert Eligible(reg, id, p);
    }
    DropAllAbsent(reg.replicas, id, parts);
  }

  /** A Java session changes the registry only when the worker acknowledged the offer. */
  lemma JavaRegistryOnlyOnAck(reg: Registry, hello: ObjectRead, host: string, order: seq<string>, now: int,
                              offerSent: bool, ack: ObjectRead, confirmSent: bool, fixed: bool)
    requires WellFormed(reg)
    ensures var r := JavaSession(reg, hello, host, order, now, offerSent, ack, confirmSent, fixed);
            r.ending !in {Registered, Dropped} ==> r.reg == reg
  {
    if hello.Got? && hello.m.kind == Some(Registro) && hello.m.workerId.Some? {
      RollbackIsNoOp(reg, hello.m.workerId.value, order);
    }
  }

  /** A Python session changes the registry only when the worker acknowledged the offer. */
  lemma PythonRegistryOnlyOnAck(reg: Registry, hello: JsonRead, host: string, order: seq<string>, now: int,
                                offerSent: bool, ack: JsonRead, confirmSent: bool, fixed: bool)
    requires WellFormed(reg)
    ensures var r := PythonSession(reg, hello, host, order, now, offerSent, ack, confirmSent, fixed);
            r.ending !in {Registered, Dropped} ==> r.reg == reg
  {
    if hello.Json? && JsonText.ExtractWorkerId(hello.text).Some? {
      RollbackIsNoOp(reg, JsonText.ExtractWorkerId(hello.text).value, order);
    }
  }

  /** Either registration lists the worker last for each given partition that did not
      list it yet, after the holders already there. */
  lemma EnlistPlaces(reg: Registry, info: InfoWorker, parts: seq<string>, fixed: bool)
    requires WellFormed(reg)
    requires forall p :: p in parts ==> info.id !in ListOf(reg.replicas, p)
    ensures forall p :: p in parts ==>
      (p in Enlist(reg, info, parts, fixed).replicas &&
       Enlist(reg, info, parts, fixed).replicas[p] == ListOf(reg.replicas, p) + [info.id])
  {
    var id := info.id;
    if fixed {
      var m := Purge(reg.replicas, id);
      forall p | p in m ensures NoDup(m[p]) {
        WithoutNoDup(reg.replicas[p], id);
      }
      EnrollAllExact(m, id, parts);
      forall p | p in parts ensures Without(ListOf(m, p), id) == ListOf(reg.replicas, p) {
        WithoutAbsent(ListOf(reg.replicas, p), id);
      }
    } else {
      RegisterExact(reg, info, parts);
      forall p | p in parts ensures Without(ListOf(reg.replicas, p), id) == ListOf(reg.replicas, p) {
        WithoutAbsent(ListOf(reg.replicas, p), id);
      }
    }
  }

  /** After a completed Java session the worker is registered, active, under its id with
      its task port and the offered partitions, and is listed last for each of them. */
  lemma JavaRegisteredPlacesWorker(reg: Registry, hello: ObjectRead, host: string, order: seq<string>, now: int,
                                   ack: ObjectRead, fixed: bool)
    requires WellFormed(reg)
    requires JavaSession(reg, hello, host, order, now, true, ack, true, fixed).ending == Registered
    ensures var id := hello.m.workerId.value;
            var parts := Assign(reg, id, order).parts;
            var r := JavaSession(reg, hello, host, order, now, true, ack, true, fixed).reg;
            && id in r.workers && r.workers[id].partitions == parts && r.workers[id].port == hello.m.port
            && r.workers[id].active
            && forall p :: p in parts ==> p in r.replicas && r.replicas[p] == ListOf(reg.replicas, p) + [id]
  {
    var id := hello.m.workerId.value;
    var parts := Assign(reg, id, order).parts;
    var info := NewInfo(id, host, hello.m.port, parts, now);
    assert JavaSession(reg, hello, host, order, now, true, ack, true, fixed).reg == Enlist(reg, info, parts, fixed);
    forall p | p in parts ensures id !in ListOf(reg.replicas, p) {
      assert Eligible(reg, id, p);
    }
    EnlistPlaces(reg, info, parts, fixed);
  }

  /** A one-partition registry with seed data, for the examples below. */
  const OnePartition := Registry(map[], map[], map[], map[], map["P" := [AccountRec(1, 1, 100, "AHORROS")]], 0)

  lemma OnePartitionOffered(id: string)
    ensures Assign(OnePartition, id, ["P"]).parts == ["P"]
  {
    assert Eligible(OnePartition, id, "P");
  }

  /** The Java handshake takes only a `DATOS_RECIBIDOS_POR_WORKER` message as the
      acknowledgement: an ERROR message whose text names it rolls the offer back. */
  lemma JavaRejectsOtherType()
    ensures JavaSession(OnePartition, Got(Registration(Some("w"), None, 9001)), "h", ["P"], 0,
                        true, Got(Plain(Some(Error), Some("w"), Some(AckMark))), true, false).ending == RolledBack
  {
    OnePartitionOffered("w");
  }

  /** A Python registration `{"workerId": "<id>"}`. */
  function PythonHello(id: string): string {
    "{" + JsonText.IdKey + " " + "\"" + id + "\"" + "}"
  }

  lemma PythonHelloId(id: string)
    requires '"' !in id
    ensures JsonText.ExtractWorkerId(PythonHello(id)) == Some(id)
  {
    assert JsonTextProps.KeyFirstAt("{", JsonText.IdKey) by {
      assert ("{" + JsonText.IdKey)[0] == '{';
    }
    JsonTextProps.ExtractIdRoundTrip("{", " ", id, "}");
  }

  /** The Python handshake recognises the acknowledgement by substring: any JSON reply
      that mentions `DATOS_RECIBIDOS_POR_WORKER` anywhere (an ERROR message naming it,
      say) registers the worker. */
  lemma PythonAcceptsAnyMention(id: string, head: string, tail: string)
    requires '"' !in id
    ensures PythonSession(OnePartition, Json(PythonHello(id)), "h", ["P"], 0, true,
                          Json(head + AckMark + tail), true, false).ending == Registered
  {
    OnePartitionOffered(id);
    PythonHelloId(id);
    ContainsFront(AckMark, tail);
    ContainsAfter(head, AckMark + tail, AckMark);
    assert head + AckMark + tail == head + (AckMark + tail);
  }
}

=== FILE: info_worker.dfy ===
/** The coordinator's record of one registered worker (`InfoWorker`). The initial
    registration socket is not modelled; the clock reading is a parameter. */
module Info {

  datatype InfoWorker = InfoWorker(
    id: string,
    host: string,
    port: int,
    partitions: seq<string>,
    heartbeat: int,
    active: bool)

  /** A freshly constructed record: every field as given, and the worker starts active. */
  function NewInfo(id: string, host: string, port: int, partitions: seq<string>, now: int): (w: InfoWorker)
    ensures w.active
    ensures w.id == id && w.host == host && w.port == port && w.partitions == partitions
    ensures w.heartbeat == now
  {
    InfoWorker(id, host, port, partitions, now, true)
  }

  /** Replaces the recorded partition list; nothing else changes. */
  function SetPartitions(w: InfoWorker, partitions: seq<string>): (r: InfoWorker)
    ensures r.partitions == partitions
    ensures r.(partitions := w.partitions) == w
  {
    w.(partitions := partitions)
  }

  /** Records a heartbeat; receiving one also marks the worker active again. */
  function SetHeartbeat(w: InfoWorker, t: int): (r: InfoWorker)
    ensures r.heartbeat == t && r.active
    ensures r.(heartbeat := w.heartbeat, active := w.active) == w
  {
    w.(heartbeat := t, active := true)
  }

  /** Sets the liveness flag; nothing else changes. */
  function SetActive(w: InfoWorker, b: bool): (r: InfoWorker)
    ensures r.active == b
    ensures r.(active := w.active) == w
  {
    w.(active := b)
  }

  /** A heartbeat revives a worker that was marked inactive, and deactivating undoes only the flag. */
  lemma HeartbeatRevives(w: InfoWorker, t: int)
    ensures SetHeartbeat(SetActive(w, false), t).active
    ensures SetHeartbeat(SetActive(w, false), t) == SetHeartbeat(w, t)
    ensures SetActive(SetActive(w, false), w.active) == w
  {
  }
}

=== FILE: java_worker.dfy ===
/** The Java worker's request handler (`NodoTrabajador.procesarSolicitud`): the
    partition guard, then one handler per operation over the worker's partition files.
    Local transaction logging is not modelled. */
module JavaWorker {
  import opened Wrappers
  import opened Messages
  import opened Store

  /** A worker: its id, the partitions assigned to it, and its data directory. */
  datatype Node = Node(id: string, held: seq<string>, files: Files)

  /** A map payload carrying the given balances and the processing worker's id. */
  function Stamped(n: Node, nums: map<string, int>): Payload {
    Fields(nums, map[KeyWorkerId := n.id])
  }

  /** `CONSULTAR_SALDO`. */
  function Consult(n: Node, prm: Params): (r: Respuesta)
    ensures r.status == Exito <==> prm.account.Some? && prm.partition.Some? &&
                                   ReadBalance(n.files, prm.partition.value, prm.account.value).Some?
    ensures r.status == Exito ==> r.payload == Num(ReadBalance(n.files, prm.partition.value, prm.account.value).value)
    ensures r.status in {Exito, ErrorGeneralServidor, ErrorCuentaOrigenNoExiste}
    ensures r.status == ErrorGeneralServidor <==> prm.account.None? || prm.partition.None?
  {
    if prm.account.None? || prm.partition.None? then Bare(ErrorGeneralServidor)
    else
      match ReadBalance(n.files, prm.partition.value, prm.account.value)
      case Some(b) => Respuesta(Exito, Num(b))
      case None => Bare(ErrorCuentaOrigenNoExiste)
  }

  /** `TRANSFERIR_FONDOS` within one partition: checks in order parameters, origin,
      funds, destination; then rewrites both lines at once. */
  function Transfer(n: Node, prm: Params): (r: (Respuesta, Node))
    ensures r.0.status != Exito ==> r.1 == n
    ensures r.0.status == Exito <==>
      && prm.origin.Some? && prm.dest.Some? && prm.amount.Some? && prm.partition.Some?
      && var p, o, d, m := prm.partition.value, prm.origin.value, prm.dest.value, prm.amount.value;
      && ReadBalance(n.files, p, o).Some? && ReadBalance(n.files, p, o).value >= m
      && ReadBalance(n.files, p, d).Some?
      && UpdateTwoJava(n.files, p, o, ReadBalance(n.files, p, o).value - m,
                       d, ReadBalance(n.files, p, d).value + m).Some?
    ensures r.0.status == Exito ==>
      var p, o, d, m := prm.partition.value, prm.origin.value, prm.dest.value, prm.amount.value;
      var bo, bd := ReadBalance(n.files, p, o).value, ReadBalance(n.files, p, d).value;
      && r.1 == n.(files := UpdateTwoJava(n.files, p, o, bo - m, d, bd + m).value)
      && r.0.payload == Stamped(n, map[KeyNuevoSaldoOrigen := bo - m, KeyNuevoSaldoDestino := bd + m])
    ensures r.0.status == ErrorSaldoInsuficiente ==>
      && prm.origin.Some? && prm.amount.Some? && prm.partition.Some?
      && ReadBalance(n.files, prm.partition.value, prm.origin.value).Some?
      && r.0.payload == Num(ReadBalance(n.files, prm.partition.value, prm.origin.value).value)
      && r.0.payload.n < prm.amount.value
  {
    if prm.origin.None? || prm.dest.None? || prm.amount.None? || prm.partition.None? then (Bare(ErrorGeneralServidor), n)
    else
      var p, o, d, m := prm.partition.value, prm.origin.value, prm.dest.value, prm.amount.value;
      match ReadBalance(n.files, p, o)
      case None => (Bare(ErrorCuentaOrigenNoExiste), n)
      case Some(bo) =>
        if bo < m then (Respuesta(ErrorSaldoInsuficiente, Num(bo)), n)
        else
          match ReadBalance(n.files, p, d)
          case None => (Bare(ErrorCuentaDestinoNoExiste), n)
          case Some(bd) =>
            match UpdateTwoJava(n.files, p, o, bo - m, d, bd + m)
            case Some(f) => (Respuesta(Exito, Stamped(n, map[KeyNuevoSaldoOrigen := bo - m, KeyNuevoSaldoDestino := bd + m])), n.(files := f))
            case None => (Bare(ErrorGeneralServidor), n)
  }

  /** `PREPARAR_DEBITO`: validates the balance and holds nothing; no file is written. */
  function Prepare(n: Node, prm: Params): (r: Respuesta)
    ensures r.status == DebitoPreparadoOk <==>
      prm.origin.Some? && prm.amount.Some? && prm.partition.Some? &&
      ReadBalance(n.files, prm.partition.value, prm.origin.value).Some? &&
      ReadBalance(n.files, prm.partition.value, prm.origin.value).value >= prm.amount.value
    ensures r.status == DebitoPreparadoOk ==>
      r.payload == Stamped(n, map[KeySaldoActualOrigen := ReadBalance(n.files, prm.partition.value, prm.origin.value).value])
    ensures r.status in {DebitoPreparadoOk, ErrorGeneralServidor, ErrorCuentaOrigenNoExiste, ErrorSaldoInsuficiente}
  {
    if prm.origin.None? || prm.amount.None? || prm.partition.None? then Bare(ErrorGeneralServidor)
    else
      match ReadBalance(n.files, prm.partition.value, prm.origin.value)
      case None => Bare(ErrorCuentaOrigenNoExiste)
      case Some(bo) =>
        if bo < prm.amount.value then Respuesta(ErrorSaldoInsuficiente, Num(bo))
        else Respuesta(DebitoPreparadoOk, Stamped(n, map[KeySaldoActualOrigen := bo]))
  }

  /** Whether reading the account's balance, adding `delta` and writing it back succeeds. */
  predicate AdjustSucceeds(sp: Split, files: Files, p: string, account: int, delta: int) {
    ReadBalance(files, p, account).Some? &&
    UpdateOne(sp, files, p, account, ReadBalance(files, p, account).value + delta).Some?
  }

  /** `APLICAR_CREDITO`: destination balance plus the amount, written back. */
  function Credit(n: Node, prm: Params): (r: (Respuesta, Node))
    ensures r.0.status in {CreditoAplicadoOk, ErrorGeneralServidor, ErrorCuentaDestinoNoExiste}
    ensures r.0.status != CreditoAplicadoOk ==> r.1 == n
    ensures r.0.status == CreditoAplicadoOk <==>
      prm.dest.Some? && prm.amount.Some? && prm.partition.Some? &&
      AdjustSucceeds(JavaSplit, n.files, prm.partition.value, prm.dest.value, prm.amount.value)
    ensures r.0.status == CreditoAplicadoOk ==>
      var b := ReadBalance(n.files, prm.partition.value, prm.dest.value).value;
      r.1.files == UpdateOne(JavaSplit, n.files, prm.partition.value, prm.dest.value, b + prm.amount.value).value &&
      r.0.payload == Stamped(n, map[KeyNuevoSaldoDestino := b + prm.amount.value])
    ensures r.0.status == ErrorCuentaDestinoNoExiste <==>
      prm.dest.Some? && prm.amount.Some? && prm.partition.Some? &&
      ReadBalance(n.files, prm.partition.value, prm.dest.value).None?
  {
    if prm.dest.None? || prm.amount.None? || prm.partition.None? then (Bare(ErrorGeneralServidor), n)
    else
      var p, d, m := prm.partition.value, prm.dest.value, prm.amount.value;
      match ReadBalance(n.files, p, d)
      case None => (Bare(ErrorCuentaDestinoNoExiste), n)
      case Some(b) =>
        match UpdateOne(JavaSplit, n.files, p, d, b + m)
        case Some(f) => (Respuesta(CreditoAplicadoOk, Stamped(n, map[KeyNuevoSaldoDestino := b + m])), n.(files := f))
        case None => (Bare(ErrorGeneralServidor), n)
  }

  /** `CONFIRMAR_DEBITO`: origin balance minus the amount, with no funds check. */
  function Confirm(n: Node, prm: Params): (r: (Respuesta, Node))
    ensures r.0.status in {DebitoConfirmadoOk, ErrorGeneralServidor, ErrorCuentaOrigenNoExiste}
    ensures r.0.status != DebitoConfirmadoOk ==> r.1 == n
    ensures r.0.status == DebitoConfirmadoOk <==>
      prm.origin.Some? && prm.amount.Some? && prm.partition.Some? &&
      AdjustSucceeds(JavaSplit, n.files, prm.partition.value, prm.origin.value, -prm.amount.value)
    ensures r.0.status == DebitoConfirmadoOk ==>
      var b := ReadBalance(n.files, prm.partition.value, prm.origin.value).value;
      r.1.files == UpdateOne(JavaSplit, n.files, prm.partition.value, prm.origin.value, b + -prm.amount.value).value &&
      r.0.payload == Stamped(n, map[KeyNuevoSaldoOrigen := b + -prm.amount.value])
  {
    if prm.origin.None? || prm.amount.None? || prm.partition.None? then (Bare(ErrorGeneralServidor), n)
    else
      var p, o, m := prm.partition.value, prm.origin.value, prm.amount.value;
      match ReadBalance(n.files, p, o)
      case None => (Bare(ErrorCuentaOrigenNoExiste), n)
      case Some(b) =>
        var nb := b + -m;
        match UpdateOne(JavaSplit, n.files, p, o, nb)
        case Some(f) => (Respuesta(DebitoConfirmadoOk, Stamped(n, map[KeyNuevoSaldoOrigen := nb])), n.(files := f))
        case None => (Bare(ErrorGeneralServidor), n)
  }

  /** `REVERTIR_DEBITO`: origin balance plus the amount ("add it back"). */
  function Revert(n: Node, prm: Params): (r: (Respuesta, Node))
    ensures r.0.status in {DebitoRevertidoOk, ErrorGeneralServidor, ErrorCuentaOrigenNoExiste}
    ensures r.0.status != DebitoRevertidoOk ==> r.1 == n
    ensures r.0.status == DebitoRevertidoOk <==>
      prm.origin.Some? && prm.amount.Some? && prm.partition.Some? &&
      AdjustSucceeds(JavaSplit, n.files, prm.partition.value, prm.origin.value, prm.amount.value)
    ensures r.0.status == DebitoRevertidoOk ==>
      var b := ReadBalance(n.files, prm.partition.value, prm.origin.value).value;
      r.1.files == UpdateOne(JavaSplit, n.files, prm.partition.value, prm.origin.value, b + prm.amount.value).value &&
      r.0.payload == Stamped(n, map[KeyNuevoSaldoOrigen := b + prm.amount.value])
  {
    if prm.origin.None? || prm.amount.None? || prm.partition.None? then (Bare(ErrorGeneralServidor), n)
    else
      var p, o, m := prm.partition.value, prm.origin.value, prm.amount.value;
      match ReadBalance(n.files, p, o)
      case None => (Bare(ErrorCuentaOrigenNoExiste), n)
      case Some(b) =>
        match UpdateOne(JavaSplit, n.files, p, o, b + m)
        case Some(f) => (Respuesta(DebitoRevertidoOk, Stamped(n, map[KeyNuevoSaldoOrigen := b + m])), n.(files := f))
        case None => (Bare(ErrorGeneralServidor), n)
  }

  /** `ACTUALIZAR_SALDO_REPLICA`: overwrite the balance with the given value; a missing
      account is a write failure. */
  function Replica(n: Node, prm: Params): (r: (Respuesta, Node))
    ensures r.0.status in {ReplicaActualizadaOk, ErrorGeneralServidor}
    ensures r.0.status == ReplicaActualizadaOk <==>
      prm.account.Some? && prm.newBalance.Some? && prm.partition.Some? &&
      UpdateOne(JavaSplit, n.files, prm.partition.value, prm.account.value, prm.newBalance.value).Some?
    ensures r.0.status == ReplicaActualizadaOk ==>
      r.1.files == UpdateOne(JavaSplit, n.files, prm.partition.value, prm.account.value, prm.newBalance.value).value &&
      r.0.payload == NoData
    ensures r.0.status != ReplicaActualizadaOk ==> r.1 == n
  {
    if prm.account.None? || prm.newBalance.None? || prm.partition.None? then (Bare(ErrorGeneralServidor), n)
    else
      match UpdateOne(JavaSplit, n.files, prm.partition.value, prm.account.value, prm.newBalance.value)
      case Some(f) => (Bare(ReplicaActualizadaOk), n.(files := f))
      case None => (Bare(ErrorGeneralServidor), n)
  }

  /** `CALCULAR_SALDO_PARTICION`: the sum of the parseable balances of a held partition;
      an empty file sums to zero. */
  function PartitionTotal(n: Node, prm: Params): (r: Respuesta)
    ensures r.status in {Exito, ErrorGeneralServidor}
    ensures r.status == Exito <==>
      prm.partition.Some? && prm.partition.value in n.held && prm.partition.value in n.files
    ensures r.status == Exito ==> r.payload == Num(PartitionSum(n.files[prm.partition.value]))
  {
    if prm.partition.None? then Bare(ErrorGeneralServidor)
    else if prm.partition.value !in n.held then Bare(ErrorGeneralServidor)
    else if prm.partition.value !in n.files then Bare(ErrorGeneralServidor)
    else Respuesta(Exito, Num(PartitionSum(n.files[prm.partition.value])))
  }

  /** The worker refuses a request naming a partition it was not assigned. */
  predicate Refused(n: Node, prm: Params) {
    prm.partition.Some? && prm.partition.value !in n.held
  }

  /** `procesarSolicitud`: the partition guard, then dispatch on the operation. Only the
      data directory can change, and only through a successful write. */
  function Process(n: Node, req: Solicitud): (r: (Respuesta, Node))
    ensures Refused(n, req.params) ==> r == (Bare(ErrorGeneralServidor), n)
    ensures r.1.id == n.id && r.1.held == n.held
    ensures r.1 != n ==> r.0.status in {Exito, CreditoAplicadoOk, DebitoConfirmadoOk, DebitoRevertidoOk, ReplicaActualizadaOk}
    ensures req.op in {ConsultarSaldo, PrepararDebito, CalcularSaldoParticion, ArqueoCuentas} ==> r.1 == n
  {
    var prm := req.params;
    if Refused(n, prm) then (Bare(ErrorGeneralServidor), n)
    else
      match req.op
      case ConsultarSaldo => (Consult(n, prm), n)
      case TransferirFondos => Transfer(n, prm)
      case PrepararDebito => (Prepare(n, prm), n)
      case AplicarCredito => Credit(n, prm)
      case ConfirmarDebito => Confirm(n, prm)
      case RevertirDebito => Revert(n, prm)
      case ActualizarSaldoReplica => Replica(n, prm)
      case CalcularSaldoParticion => (PartitionTotal(n, prm), n)
      case ArqueoCuentas => (Bare(ErrorGeneralServidor), n)
  }
}

/** What the Java worker's handlers guarantee about balances: an intra-partition
    transfer moves the amount without creating or losing money, a confirmed debit is
    undone by a reversal, and a credit is read back. */
module JavaWorkerProps {
  import opened Wrappers
  import opened Messages
  import opened Store
  import opened StoreProps
  import opened JavaWorker

  /** When the account has one full line reading `b`, rewriting it to `nb` shifts the
      sum by `nb - b` and reads back `nb`; ids stay unique and every other account's
      lines stay full. */
  lemma OneRowRewrite(rows: seq<Line>, id: int, b: int, nb: int)
    requires Unique(rows) && Full(rows, id) && ReadRows(rows, id) == Some(b)
    ensures SumRows(RewriteRows(JavaSplit, rows, id, nb)) == SumRows(rows) - b + nb
    ensures ReadRows(RewriteRows(JavaSplit, rows, id, nb), id) == Some(nb)
    ensures Unique(RewriteRows(JavaSplit, rows, id, nb))
    ensures forall x :: x != id && Full(rows, x) ==> Full(RewriteRows(JavaSplit, rows, id, nb), x)
  {
    SumAfterRewrite(JavaSplit, rows, id, nb);
    TidySingleRow(rows, id);
    RewriteFrameFull(JavaSplit, rows, id, nb);
    WCountPositive(rows, id);
    assert NoShortRow(rows, id);
    ReadAfterRewrite(JavaSplit, rows, id, nb);
  }

  lemma {:induction false} WCountPositive(rows: seq<Line>, id: int)
    requires WCount(rows, id) > 0
    ensures HasWritable(rows, id)
  {
    if !Writable(rows[0], id) {
      WCountPositive(rows[1..], id);
      var i :| 0 <= i < |rows[1..]| && Writable(rows[1..][i], id);
      assert Writable(rows[i + 1], id);
    }
  }

  /** On a tidy body, moving `m` from `o` to `d` with the two-row rewrite keeps the sum
      and leaves the two accounts reading `bo - m` and `bd + m`, whatever their types. */
  lemma TwoRowMoveConserves(rows: seq<Line>, o: int, bo: int, d: int, bd: int, m: int)
    requires Tidy(rows) && o != d
    requires ReadRows(rows, o) == Some(bo) && ReadRows(rows, d) == Some(bd)
    ensures var rows2 := RewriteTwo(JavaSplit, rows, o, bo - m, d, bd + m);
            && SumRows(rows2) == SumRows(rows)
            && ReadRows(rows2, o) == Some(bo - m)
            && ReadRows(rows2, d) == Some(bd + m)
  {
    var rows1 := RewriteRows(JavaSplit, rows, o, bo - m);
    assert Unique(rows1) && Full(rows1, d) && SumRows(rows1) == SumRows(rows) - bo + (bo - m)
        && ReadRows(rows1, o) == Some(bo - m) by {
      assert Full(rows, o) && Full(rows, d);
      OneRowRewrite(rows, o, bo, bo - m);
    }
    assert ReadRows(rows1, d) == Some(bd) by {
      ReadFrameRewrite(JavaSplit, rows, o, bo - m, d);
    }
    var rows2 := RewriteRows(JavaSplit, rows1, d, bd + m);
    assert SumRows(rows2) == SumRows(rows1) - bd + (bd + m) && ReadRows(rows2, d) == Some(bd + m) by {
      OneRowRewrite(rows1, d, bd, bd + m);
    }
    ReadFrameRewrite(JavaSplit, rows1, d, bd + m, o);
    RewriteTwoComposes(JavaSplit, rows, o, bo - m, d, bd + m);
  }

  /** A successful intra-partition transfer between two distinct accounts of a tidy file
      debits the origin, credits the destination and leaves the partition sum unchanged. */
  lemma TransferConserves(n: Node, prm: Params)
    requires Transfer(n, prm).0.status == Exito
    requires prm.origin != prm.dest
    requires Tidy(Body(n.files[prm.partition.value]))
    ensures var p, o, d, m := prm.partition.value, prm.origin.value, prm.dest.value, prm.amount.value;
            var f := Transfer(n, prm).1.files;
            && PartitionSum(f[p]) == PartitionSum(n.files[p])
            && ReadBalance(f, p, o) == Some(ReadBalance(n.files, p, o).value - m)
            && ReadBalance(f, p, d) == Some(ReadBalance(n.files, p, d).value + m)
            && ReadBalance(f, p, o).value >= 0
  {
    var p, o, d, m := prm.partition.value, prm.origin.value, prm.dest.value, prm.amount.value;
    var t := n.files[p];
    var bo, bd := ReadBalance(n.files, p, o).value, ReadBalance(n.files, p, d).value;
    var f := Transfer(n, prm).1.files;
    assert f == UpdateTwoJava(n.files, p, o, bo - m, d, bd + m).value;
    assert |t| > 0;
    assert Body(f[p]) == RewriteTwo(JavaSplit, Body(t), o, bo - m, d, bd + m);
    TwoRowMoveConserves(Body(t), o, bo, d, bd, m);
  }

  /** A successful credit writes the old balance plus the amount. */
  lemma CreditWrites(n: Node, prm: Params, p: string, d: int, m: int, b: int, nb: int)
    requires prm.partition == Some(p) && prm.dest == Some(d) && prm.amount == Some(m)
    requires Credit(n, prm).0.status == CreditoAplicadoOk
    requires ReadBalance(n.files, p, d) == Some(b) && nb == b + m
    ensures UpdateOne(JavaSplit, n.files, p, d, nb).Some?
    ensures Credit(n, prm).1.files == UpdateOne(JavaSplit, n.files, p, d, nb).value
  {
  }

  /** A credit that succeeds is read back as the old balance plus the amount. */
  lemma CreditReadBack(n: Node, prm: Params)
    requires Credit(n, prm).0.status == CreditoAplicadoOk
    requires NoShortRow(Body(n.files[prm.partition.value]), prm.dest.value)
    ensures var p, d := prm.partition.value, prm.dest.value;
            ReadBalance(Credit(n, prm).1.files, p, d) == Some(ReadBalance(n.files, p, d).value + prm.amount.value)
  {
    var p, d, m := prm.partition.value, prm.dest.value, prm.amount.value;
    var b := ReadBalance(n.files, p, d).value;
    var nb := b + m;
    CreditWrites(n, prm, p, d, m, b, nb);
    UpdateThenRead(JavaSplit, n.files, p, d, nb);
  }

  /** A confirmation on an account that reads `b` writes `b` less the amount once the
      write can be made. */
  lemma ConfirmWrites(n: Node, prm: Params, p: string, o: int, m: int, b: int, nb: int)
    requires prm.partition == Some(p) && prm.origin == Some(o) && prm.amount == Some(m)
    requires ReadBalance(n.files, p, o) == Some(b) && nb == b + -m
    requires UpdateOne(JavaSplit, n.files, p, o, nb).Some?
    ensures Confirm(n, prm).0.status == DebitoConfirmadoOk
    ensures Confirm(n, prm).1.files == UpdateOne(JavaSplit, n.files, p, o, nb).value
  {
  }

  /** Writing `nb` over an account that reads `b`, then writing `b` back, succeeds when
      one of its lines kept its type, and restores every account of every partition
      when all of them did. */
  lemma UpdateBackRestores(files: Files, p: string, o: int, b: int, nb: int, q: string, x: int)
    requires ReadBalance(files, p, o) == Some(b) && NoShortRow(Body(files[p]), o)
    requires UpdateOne(JavaSplit, files, p, o, nb).Some?
    ensures var f1 := UpdateOne(JavaSplit, files, p, o, nb).value;
            && ReadBalance(f1, p, o) == Some(nb)
            && (UpdateOne(JavaSplit, f1, p, o, b).Some? <==> SomeKeepsFourth(JavaSplit, Body(files[p]), o))
            && (AllKeepFourth(JavaSplit, Body(files[p]), o) ==>
                  ReadBalance(UpdateOne(JavaSplit, f1, p, o, b).value, q, x) == ReadBalance(files, q, x))
  {
    var f1 := UpdateOne(JavaSplit, files, p, o, nb).value;
    UpdateAgain(JavaSplit, files, p, o, nb, b);
    UpdateThenRead(JavaSplit, files, p, o, nb);
    if AllKeepFourth(JavaSplit, Body(files[p]), o) {
      var k :| 0 <= k < |Body(files[p])| && Writable(Body(files[p])[k], o);
      assert SomeKeepsFourth(JavaSplit, Body(files[p]), o);
      if q == p && x == o {
        UpdateThenRead(JavaSplit, f1, p, o, b);
      } else {
        UpdateFrame(JavaSplit, f1, p, o, b, q, x);
        UpdateFrame(JavaSplit, files, p, o, nb, q, x);
      }
    }
  }

  /** A revert on an account that reads `b` writes `b` plus the amount once the write
      can be made. */
  lemma RevertWrites(n: Node, prm: Params, p: string, o: int, m: int, b: int, nb: int)
    requires prm.partition == Some(p) && prm.origin == Some(o) && prm.amount == Some(m)
    requires ReadBalance(n.files, p, o) == Some(b) && nb == b + m
    requires UpdateOne(JavaSplit, n.files, p, o, nb).Some?
    ensures Revert(n, prm).0.status == DebitoRevertidoOk
    ensures Revert(n, prm).1.files == UpdateOne(JavaSplit, n.files, p, o, nb).value
  {
  }

  /** Confirming a debit and then reverting it with the same parameters succeeds exactly
      when one of the origin's lines has a type that is not blank, and leaves every
      account of every partition reading as before when none of them is blank. */
  lemma ConfirmThenRevertRestores(n: Node, prm: Params, q: string, x: int)
    requires Confirm(n, prm).0.status == DebitoConfirmadoOk
    requires NoShortRow(Body(n.files[prm.partition.value]), prm.origin.value)
    ensures var rows, o := Body(n.files[prm.partition.value]), prm.origin.value;
            && (Revert(Confirm(n, prm).1, prm).0.status == DebitoRevertidoOk <==> SomeKeepsFourth(JavaSplit, rows, o))
            && (AllKeepFourth(JavaSplit, rows, o) ==>
                  ReadBalance(Revert(Confirm(n, prm).1, prm).1.files, q, x) == ReadBalance(n.files, q, x))
  {
    var p, o, m := prm.partition.value, prm.origin.value, prm.amount.value;
    var b := ReadBalance(n.files, p, o).value;
    var n1 := Confirm(n, prm).1;
    var nb := b + -m;
    assert n1.files == UpdateOne(JavaSplit, n.files, p, o, nb).value;
    UpdateBackRestores(n.files, p, o, b, nb, q, x);
    assert ReadBalance(n1.files, p, o) == Some(nb);
    if UpdateOne(JavaSplit, n1.files, p, o, b).Some? {
      RevertWrites(n1, prm, p, o, m, nb, b);
    }
  }

  /** Overwriting a replica balance a second time with the same value changes nothing
      when one of the account's lines has a type that is not blank; otherwise the second
      write fails and the files stay as the first one left them. */
  lemma ReplicaIdempotent(n: Node, prm: Params)
    requires Replica(n, prm).0.status == ReplicaActualizadaOk
    ensures Replica(Replica(n, prm).1, prm) ==
            if SomeKeepsFourth(JavaSplit, Body(n.files[prm.partition.value]), prm.account.value) then Replica(n, prm)
            else (Bare(ErrorGeneralServidor), Replica(n, prm).1)
  {
    var p, a, v := prm.partition.value, prm.account.value, prm.newBalance.value;
    UpdateIdempotent(JavaSplit, n.files, p, a, v);
  }
}

=== FILE: json_text.dfy ===
/** The coordinator's hand-rolled JSON handling for Python workers
    (`ManejadorWorkerServidor`): pulling the worker id and task port out of the
    registration text by substring search, and escaping client strings for the
    partition-assignment message. A decoder for JSON string bodies, after section 7 of
    RFC 8259, is the reference the escaper is measured against. */
module JsonText {
  import opened Wrappers
  import opened Text

  /** The search keys, quotes and colon included. */
  const IdKey := "\"workerId\":"
  const PortKey := "\"puertoTareasWorker\":"

  /** `extractWorkerId`: the text between the first two quotes after the key, or `None`
      (`null`) when the key or either quote is missing. */
  function ExtractWorkerId(json: string): (r: Option<string>)
    ensures r.Some? ==> Contains(json, IdKey) && '"' !in r.value
    ensures !Contains(json, IdKey) ==> r.None?
  {
    match IndexOf(json, IdKey)
    case None => None
    case Some(k) =>
      match IndexOfFrom(json, "\"", k + |IdKey|)
      case None => None
      case Some(q) =>
        match IndexOfFrom(json, "\"", q + 1)
        case None => None
        case Some(e) =>
          var id := json[q + 1..e];
          assert '"' !in id by {
            forall i | 0 <= i < |id| ensures id[i] != '"' {
              assert id[i] == json[q + 1 + i];
              assert !OccursAt(json, "\"", q + 1 + i);
              assert json[q + 1 + i..q + 2 + i] == [json[q + 1 + i]];
            }
          }
          Some(id)
  }

  /** Where the port text ends: the next `,` at or after `start`, or failing that the next `}`. */
  function PortEnd(json: string, start: nat): (r: Option<nat>)
    ensures r.Some? ==> start <= r.value < |json| && (json[r.value] == ',' || json[r.value] == '}')
  {
    var comma := IndexOfFrom(json, ",", start);
    var end := if comma.Some? then comma else IndexOfFrom(json, "}", start);
    if end.Some? then assert json[end.value..end.value + 1] == [json[end.value]]; end else None
  }

  /** Where the port text lies: after the colon that follows the port key, up to the end
      mark; `None` when the key or the end mark is missing. */
  function PortSpan(json: string): (r: Option<(nat, nat)>)
    ensures r.Some? ==> Contains(json, PortKey) && r.value.0 <= r.value.1 < |json|
  {
    match IndexOf(json, PortKey)
    case None => None
    case Some(k) =>
      var colon := IndexOfFrom(json, ":", k);
      var start := if colon.Some? then colon.value + 1 else 0;
      match PortEnd(json, start)
      case None => None
      case Some(e) => Some((start, e))
  }

  /** `extractWorkerPort`: the trimmed text between the colon after the key and the end
      mark parsed as an int; -1 when the key or the end mark is missing or the text does
      not parse. */
  function ExtractWorkerPort(json: string): (r: int)
    ensures !Contains(json, PortKey) ==> r == -1
    ensures MinInt32 <= r <= MaxInt32
  {
    match PortSpan(json)
    case None => -1
    case Some((start, e)) => ParseInt(Trim(json[start..e])).GetOr(-1)
  }

  /** Java's `String.replace` of one character by a string, everywhere. */
  function ReplaceChar(s: string, c: char, rep: string): (r: string)
    ensures c !in rep ==> c !in r
    ensures forall x :: x in r ==> x in s || x in rep
    ensures c !in s ==> r == s
  {
    if s == [] then []
    else (if s[0] == c then rep else [s[0]]) + ReplaceChar(s[1..], c, rep)
  }

  /** `escapeJson` as written: quotes are escaped first and backslashes second, so the
      backslash just put in front of a quote is itself doubled. A null string gives "". */
  function EscapeJson(s: Option<string>): string {
    match s
    case None => ""
    case Some(v) =>
      ReplaceChar(ReplaceChar(ReplaceChar(ReplaceChar(v, '"', "\\\""), '\\', "\\\\"), '\n', "\\n"), '\r', "\\r")
  }

  /** `escapeJson` as evidently intended: backslashes first, then quotes and line breaks. */
  function EscapeJsonFixed(s: Option<string>): string {
    match s
    case None => ""
    case Some(v) =>
      ReplaceChar(ReplaceChar(ReplaceChar(ReplaceChar(v, '\\', "\\\\"), '"', "\\\""), '\n', "\\n"), '\r', "\\r")
  }

  /** The character a two-character escape `\c` stands for in a JSON string, for the
      escapes this code meets; `\b`, `\f` and `\u` escapes are not modelled. */
  function EscapedChar(c: char): Option<char> {
    if c == '"' then Some('"')
    else if c == '\\' then Some('\\')
    else if c == '/' then Some('/')
    else if c == 'n' then Some('\n')
    else if c == 'r' then Some('\r')
    else if c == 't' then Some('\t')
    else None
  }

  /** The value of the body of a JSON string (the text between its quotes), or `None` when
      the body is not valid: an unescaped quote ends the string early, and raw control
      characters and unknown escapes are not allowed. */
  function Unescape(s: string): (r: Option<string>)
    ensures r.Some? ==> |r.value| <= |s|
  {
    if s == [] then Some([])
    else if s[0] == '"' || s[0] < ' ' then None
    else if s[0] != '\\' then
      match Unescape(s[1..])
      case None => None
      case Some(t) => Some([s[0]] + t)
    else if |s| < 2 then None
    else
      match EscapedChar(s[1])
      case None => None
      case Some(c) =>
        match Unescape(s[2..])
        case None => None
        case Some(t) => Some([c] + t)
  }
}

module JsonTextProps {
  import opened Wrappers
  import opened Text
  import opened JsonText

  /** `key` does not start anywhere in `pre + key` before `key` itself. */
  predicate KeyFirstAt(pre: string, key: string) {
    forall j :: 0 <= j < |pre| ==> !OccursAt(pre + key, key, j)
  }

  /** A search from `from` finds the first occurrence at or after `from`. */
  lemma FirstFrom(s: string, p: string, from: nat, i: nat)
    requires from <= i && OccursAt(s, p, i)
    requires forall j :: from <= j < i ==> !OccursAt(s, p, j)
    ensures IndexOfFrom(s, p, from) == Some(i)
  {
  }

  /** A one-character search skips a stretch of text without that character. */
  lemma SkipFree(s: string, c: char, from: nat, i: nat)
    requires from <= i < |s| && s[i] == c
    requires forall j :: from <= j < i ==> s[j] != c
    ensures IndexOfFrom(s, [c], from) == Some(i)
  {
    assert s[i..i + 1] == [c];
    forall j | from <= j < i ensures !OccursAt(s, [c], j) {
      assert s[j..j + 1] == [s[j]];
    }
    FirstFrom(s, [c], from, i);
  }

  /** A slice inside a prefix is the same slice of the prefix. */
  lemma SliceOfPrefix(s: string, n: nat, i: nat, m: nat)
    requires i + m <= n <= |s|
    ensures s[i..i + m] == s[..n][i..i + m]
  {
  }

  /** The key is found where it was put, when it does not start any earlier. */
  lemma KeyFound(pre: string, key: string, s: string)
    requires KeyFirstAt(pre, key)
    requires |pre| + |key| <= |s| && s[..|pre| + |key|] == pre + key
    ensures IndexOf(s, key) == Some(|pre|)
  {
    var t := pre + key;
    assert s[|pre|..|pre| + |key|] == key by {
      SliceOfPrefix(s, |t|, |pre|, |key|);
      assert t[|pre|..|pre| + |key|] == key;
    }
    forall j | 0 <= j < |pre| ensures !OccursAt(s, key, j) {
      SliceOfPrefix(s, |t|, j, |key|);
      assert !OccursAt(t, key, j);
    }
    FirstFrom(s, key, 0, |pre|);
  }

  /** `extractWorkerId` returns what lies between the first two quotes after the key. */
  lemma ExtractIdAt(s: string, k: nat, q: nat, e: nat)
    requires IndexOf(s, IdKey) == Some(k)
    requires k + |IdKey| <= q < e < |s| && s[q] == '"' && s[e] == '"'
    requires forall j :: k + |IdKey| <= j < q ==> s[j] != '"'
    requires forall j :: q < j < e ==> s[j] != '"'
    ensures ExtractWorkerId(s) == Some(s[q + 1..e])
  {
    SkipFree(s, '"', k + |IdKey|, q);
    SkipFree(s, '"', q + 1, e);
  }

  /** The three parts of `x + (y + z)`, by position. */
  lemma Parts(x: string, y: string, z: string)
    ensures var s := x + (y + z);
            && |s| == |x| + |y| + |z|
            && s[..|x|] == x
            && s[|x|..|x| + |y|] == y
            && s[|x| + |y|..] == z
            && (forall j :: |x| <= j < |x| + |y| ==> s[j] == y[j - |x|])
  {
    var s := x + (y + z);
    assert s[|x|..] == y + z;
    assert s[|x|..|x| + |y|] == (y + z)[..|y|];
  }

  /** A slice of a suffix is a slice of the whole. */
  lemma SliceOfSuffix(s: string, k: nat, i: nat, j: nat)
    requires k <= |s| && i <= j <= |s| - k
    ensures s[k..][i..j] == s[k + i..k + j]
  {
  }

  lemma JoinId(pre: string, gap: string, id: string, post: string)
    ensures pre + IdKey + gap + "\"" + id + "\"" + post
         == (pre + IdKey) + (gap + ("\"" + (id + ("\"" + post))))
  {
  }

  /** `extractWorkerId` reads back an id written as a quoted JSON value after the key. */
  lemma ExtractIdRoundTrip(pre: string, gap: string, id: string, post: string)
    requires KeyFirstAt(pre, IdKey)
    requires '"' !in gap && '"' !in id
    ensures ExtractWorkerId(pre + IdKey + gap + "\"" + id + "\"" + post) == Some(id)
  {
    var a := pre + IdKey;
    var tail := "\"" + post;
    var rest := "\"" + (id + tail);
    var s := a + (gap + rest);
    JoinId(pre, gap, id, post);
    Parts(a, gap, rest);
    Parts("\"", id, tail);
    KeyFound(pre, IdKey, s);
    var q := |a| + |gap|;
    var e := q + 1 + |id|;
    assert s[q..] == rest;
    SliceOfSuffix(s, q, 0, 1);
    SliceOfSuffix(s, q, 1, 1 + |id|);
    SliceOfSuffix(s, q, 1 + |id|, 2 + |id|);
    assert s[q..q + 1] == "\"" && s[e..e + 1] == "\"";
    assert s[q + 1..e] == id;
    forall j | q < j < e ensures s[j] != '"' {
      assert s[j] == s[q + 1..e][j - q - 1];
    }
    ExtractIdAt(s, |pre|, q, e);
  }

  /** The colon searched for after the port key is the key's own last character. */
  lemma PortColon(s: string, k: nat)
    requires OccursAt(s, PortKey, k)
    ensures IndexOfFrom(s, ":", k) == Some(k + |PortKey| - 1)
  {
    var start := k + |PortKey|;
    assert s[k..start] == PortKey;
    forall j | k <= j < start - 1 ensures s[j] != ':' {
      assert s[j] == PortKey[j - k];
      assert PortKey[j - k] in PortKey[..|PortKey| - 1];
    }
    SkipFree(s, ':', k, start - 1);
  }

  /** With no comma at or after `from`, the comma search fails. */
  lemma NoComma(s: string, from: nat)
    requires forall j :: from <= j < |s| ==> s[j] != ','
    ensures IndexOfFrom(s, ",", from).None?
  {
    forall j | from <= j ensures !OccursAt(s, ",", j) {
      if j + 1 <= |s| {
        assert s[j..j + 1] == [s[j]];
      }
    }
  }

  /** The end mark of the port text is found where it was put. */
  lemma PortEndAt(s: string, start: nat, e: nat)
    requires start <= e < |s| && (s[e] == ',' || s[e] == '}')
    requires forall j :: start <= j < e ==> s[j] != ',' && s[j] != '}'
    requires s[e] == '}' ==> forall j :: e < j < |s| ==> s[j] != ','
    ensures PortEnd(s, start) == Some(e)
  {
    if s[e] == ',' {
      SkipFree(s, ',', start, e);
    } else {
      NoComma(s, start);
      SkipFree(s, '}', start, e);
    }
  }

  /** The port text lies between the key's colon and the end mark. */
  lemma PortSpanAt(s: string, k: nat, e: nat)
    requires IndexOf(s, PortKey) == Some(k)
    requires k + |PortKey| <= e < |s| && (s[e] == ',' || s[e] == '}')
    requires forall j :: k + |PortKey| <= j < e ==> s[j] != ',' && s[j] != '}'
    requires s[e] == '}' ==> forall j :: e < j < |s| ==> s[j] != ','
    ensures PortSpan(s) == Some((k + |PortKey|, e))
  {
    PortColon(s, k);
    PortEndAt(s, k + |PortKey|, e);
  }

  /** `extractWorkerPort` parses the text between the key's colon and the end mark. */
  lemma ExtractPortAt(s: string, k: nat, e: nat, v: int)
    requires IndexOf(s, PortKey) == Some(k)
    requires k + |PortKey| <= e < |s| && (s[e] == ',' || s[e] == '}')
    requires forall j :: k + |PortKey| <= j < e ==> s[j] != ',' && s[j] != '}'
    requires s[e] == '}' ==> forall j :: e < j < |s| ==> s[j] != ','
    requires ParseInt(Trim(s[k + |PortKey|..e])) == Some(v)
    ensures ExtractWorkerPort(s) == v
  {
    PortSpanAt(s, k, e);
  }

  /** Leading blanks before a non-blank start are removed by `TrimStart`. */
  lemma {:induction false} TrimStartBlanks(ws: string, t: string)
    requires forall i :: 0 <= i < |ws| ==> IsBlank(ws[i])
    requires t != [] && !IsBlank(t[0])
    ensures TrimStart(ws + t) == t
    decreases |ws|
  {
    if ws != [] {
      assert (ws + t)[1..] == ws[1..] + t;
      TrimStartBlanks(ws[1..], t);
    } else {
      assert ws + t == t;
    }
  }

  /** Trailing blanks after a non-blank end are removed by `TrimEnd`. */
  lemma {:induction false} TrimEndBlanks(t: string, ws: string)
    requires forall i :: 0 <= i < |ws| ==> IsBlank(ws[i])
    requires t != [] && !IsBlank(t[|t| - 1])
    ensures TrimEnd(t + ws) == t
    decreases |ws|
  {
    if ws != [] {
      assert (t + ws)[..|t + ws| - 1] == t + ws[..|ws| - 1];
      TrimEndBlanks(t, ws[..|ws| - 1]);
    } else {
      assert t + ws == t;
    }
  }

  /** Blanks on both sides of a number are trimmed away. */
  lemma TrimNumber(ws1: string, n: int, ws2: string)
    requires forall i :: 0 <= i < |ws1| ==> IsBlank(ws1[i])
    requires forall i :: 0 <= i < |ws2| ==> IsBlank(ws2[i])
    ensures Trim(ws1 + IntToString(n) + ws2) == IntToString(n)
  {
    var d := IntToString(n);
    assert !IsBlank(d[0]) && !IsBlank(d[|d| - 1]) by {
      if n < 0 {
        assert d[|d| - 1] == d[1..][|d| - 2];
      }
    }
    assert ws1 + d + ws2 == ws1 + (d + ws2);
    TrimStartBlanks(ws1, d + ws2);
    TrimEndBlanks(d, ws2);
  }

  lemma JoinPort(pre: string, ws1: string, n: string, ws2: string, sep: char, post: string)
    ensures pre + PortKey + ws1 + n + ws2 + [sep] + post
         == (pre + PortKey) + ((ws1 + n + ws2) + ([sep] + post))
  {
  }

  /** Blanks hold no comma and no closing brace. */
  lemma BlanksHaveNoMark(ws: string)
    requires forall i :: 0 <= i < |ws| ==> IsBlank(ws[i])
    ensures ',' !in ws && '}' !in ws
  {
  }

  /** The positions of the text `mid` and its end mark in `a + (mid + ([sep] + post))`. */
  lemma PortLayout(a: string, mid: string, sep: char, post: string)
    requires ',' !in mid && '}' !in mid
    requires sep == ',' || (sep == '}' && ',' !in post)
    ensures var s := a + (mid + ([sep] + post));
            var d := |a| + |mid|;
            && d < |s| && s[..|a|] == a && s[|a|..d] == mid && s[d] == sep
            && (forall j :: |a| <= j < d ==> s[j] != ',' && s[j] != '}')
            && (sep == '}' ==> forall j :: d < j < |s| ==> s[j] != ',')
  {
    var tail := [sep] + post;
    var s := a + (mid + tail);
    Parts(a, mid, tail);
    var d := |a| + |mid|;
    forall j | |a| <= j < d ensures s[j] != ',' && s[j] != '}' {
      assert s[j] == mid[j - |a|];
    }
    assert s[d] == tail[0];
    if sep == '}' {
      forall j | d < j < |s| ensures s[j] != ',' {
        assert s[j] == tail[j - d] == post[j - d - 1];
      }
    }
  }

  /** `extractWorkerPort` parses the text `mid` written right after the key, up to an
      end mark `sep` that is a comma, or a closing brace with no comma after it. */
  lemma PortAfterKey(pre: string, mid: string, sep: char, post: string, v: int)
    requires KeyFirstAt(pre, PortKey)
    requires ',' !in mid && '}' !in mid
    requires sep == ',' || (sep == '}' && ',' !in post)
    requires ParseInt(Trim(mid)) == Some(v)
    ensures ExtractWorkerPort((pre + PortKey) + (mid + ([sep] + post))) == v
  {
    var a := pre + PortKey;
    var s := a + (mid + ([sep] + post));
    var d := |a| + |mid|;
    assert IndexOf(s, PortKey) == Some(|pre|) by {
      PortLayout(a, mid, sep, post);
      KeyFound(pre, PortKey, s);
    }
    assert s[|pre| + |PortKey|..d] == mid by {
      PortLayout(a, mid, sep, post);
    }
    PortLayout(a, mid, sep, post);
    ExtractPortAt(s, |pre|, d, v);
  }

  /** `extractWorkerPort` reads back any 32-bit port written as a JSON number after the
      key, with blanks around it, ended by a comma, or by the closing brace when no comma
      follows. */
  lemma ExtractPortRoundTrip(pre: string, ws1: string, port: int, ws2: string, sep: char, post: string)
    requires KeyFirstAt(pre, PortKey)
    requires MinInt32 <= port <= MaxInt32
    requires forall i :: 0 <= i < |ws1| ==> IsBlank(ws1[i])
    requires forall i :: 0 <= i < |ws2| ==> IsBlank(ws2[i])
    requires sep == ',' || (sep == '}' && ',' !in post)
    ensures ExtractWorkerPort(pre + PortKey + ws1 + IntToString(port) + ws2 + [sep] + post) == port
  {
    var n := IntToString(port);
    var mid := ws1 + n + ws2;
    IntToStringHasNo(port, ',');
    IntToStringHasNo(port, '}');
    BlanksHaveNoMark(ws1);
    BlanksHaveNoMark(ws2);
    TrimNumber(ws1, port, ws2);
    ParseIntToString(port);
    JoinPort(pre, ws1, n, ws2, sep, post);
    PortAfterKey(pre, mid, sep, post, port);
  }

  /** The registration message of the Python worker (`json.dumps` of its dictionary). */
  function PythonRegistration(id: string, port: int): string
    requires MinInt32 <= port <= MaxInt32
  {
    "{\"className\": \"commons.MensajeWorker\", \"tipo\": \"REGISTRO\", \"workerId\": \"" + id
      + "\", \"listaParticiones\": [], \"puertoTareasWorker\": " + IntToString(port)
      + ", \"mensajeTexto\": \"Solicitud de registro\"}"
  }

  /** The characters the escaper as written produces for one input character: a quote
      comes out as backslash, backslash, quote. */
  function EscapeOneAsWritten(c: char): string {
    if c == '"' then "\\\\\""
    else if c == '\\' then "\\\\"
    else if c == '\n' then "\\n"
    else if c == '\r' then "\\r"
    else [c]
  }

  /** The characters the corrected escaper produces for one input character. */
  function EscapeOne(c: char): string {
    if c == '\\' then "\\\\"
    else if c == '"' then "\\\""
    else if c == '\n' then "\\n"
    else if c == '\r' then "\\r"
    else [c]
  }

  lemma {:induction false} ReplaceAppend(a: string, b: string, c: char, rep: string)
    ensures ReplaceChar(a + b, c, rep) == ReplaceChar(a, c, rep) + ReplaceChar(b, c, rep)
    decreases |a|
  {
    if a == [] {
      assert a + b == b;
    } else {
      assert (a + b)[1..] == a[1..] + b;
      ReplaceAppend(a[1..], b, c, rep);
    }
  }

  /** The escaper as written on a single character. */
  lemma EscapeCharAsWritten(c: char)
    ensures EscapeJson(Some([c])) == EscapeOneAsWritten(c)
  {
    var a1 := ReplaceChar([c], '"', "\\\"");
    if c == '"' {
      assert a1 == ['\\'] + ['"'];
      ReplaceAppend(['\\'], ['"'], '\\', "\\\\");
      assert ReplaceChar(a1, '\\', "\\\\") == "\\\\\"";
    } else {
      assert a1 == [c];
    }
  }

  /** The escaper as written works character by character. */
  lemma EscapeSplit(c: char, t: string)
    ensures EscapeJson(Some([c] + t)) == EscapeOneAsWritten(c) + EscapeJson(Some(t))
  {
    var a := [c];
    ReplaceAppend(a, t, '"', "\\\"");
    var a1 := ReplaceChar(a, '"', "\\\"");
    var t1 := ReplaceChar(t, '"', "\\\"");
    ReplaceAppend(a1, t1, '\\', "\\\\");
    var a2 := ReplaceChar(a1, '\\', "\\\\");
    var t2 := ReplaceChar(t1, '\\', "\\\\");
    ReplaceAppend(a2, t2, '\n', "\\n");
    var a3 := ReplaceChar(a2, '\n', "\\n");
    var t3 := ReplaceChar(t2, '\n', "\\n");
    ReplaceAppend(a3, t3, '\r', "\\r");
    EscapeCharAsWritten(c);
  }

  /** The corrected escaper works character by character. */
  lemma EscapeFixedSplit(c: char, t: string)
    ensures EscapeJsonFixed(Some([c] + t)) == EscapeOne(c) + EscapeJsonFixed(Some(t))
  {
    var a := [c];
    ReplaceAppend(a, t, '\\', "\\\\");
    var a1 := ReplaceChar(a, '\\', "\\\\");
    var t1 := ReplaceChar(t, '\\', "\\\\");
    ReplaceAppend(a1, t1, '"', "\\\"");
    var a2 := ReplaceChar(a1, '"', "\\\"");
    var t2 := ReplaceChar(t1, '"', "\\\"");
    ReplaceAppend(a2, t2, '\n', "\\n");
    var a3 := ReplaceChar(a2, '\n', "\\n");
    var t3 := ReplaceChar(t2, '\n', "\\n");
    ReplaceAppend(a3, t3, '\r', "\\r");
    EscapeCharFixed(c);
  }

  /** The corrected escaper on a single character. */
  lemma EscapeCharFixed(c: char)
    ensures EscapeJsonFixed(Some([c])) == EscapeOne(c)
  {
    var a1 := ReplaceChar([c], '\\', "\\\\");
    if c == '\\' {
      assert a1 == "\\\\";
      assert ReplaceChar(a1, '"', "\\\"") == a1;
    } else if c == '"' {
      assert a1 == [c];
      assert ReplaceChar(a1, '"', "\\\"") == "\\\"";
    } else {
      assert a1 == [c];
    }
  }

  /** Decoding passes over one escaped character other than a quote only when the rest decodes. */
  lemma UnescapeNeedsRest(c: char, tail: string)
    requires c != '"'
    ensures Unescape(EscapeOneAsWritten(c) + tail).Some? ==> Unescape(tail).Some?
  {
    var e := EscapeOneAsWritten(c);
    if |e| == 2 {
      assert (e + tail)[2..] == tail;
    } else {
      assert (e + tail)[1..] == tail;
    }
  }

  /** A quote escaped as written, whatever follows, does not decode: the doubled
      backslash reads as one backslash and the quote then ends the string. */
  lemma QuoteEscapeBreaks(rest: string)
    ensures Unescape(EscapeOneAsWritten('"') + rest).None?
  {
    var w := EscapeOneAsWritten('"') + rest;
    assert w[0] == '\\' && w[1] == '\\';
    assert w[2..] == ['"'] + rest;
  }

  /** As written, the escape of any string holding a quote is not a valid JSON string body:
      the decoder reads the doubled backslash as one backslash and the quote as the end. */
  lemma {:induction false} EscapeJsonBreaksQuotes(s: string)
    requires '"' in s
    ensures Unescape(EscapeJson(Some(s))).None?
    decreases |s|
  {
    var c, t := s[0], s[1..];
    assert s == [c] + t;
    EscapeSplit(c, t);
    if c == '"' {
      QuoteEscapeBreaks(EscapeJson(Some(t)));
    } else {
      EscapeJsonBreaksQuotes(t);
      UnescapeNeedsRest(c, EscapeJson(Some(t)));
    }
  }

  /** The smallest case: a one-quote name escapes to three characters that do not decode. */
  lemma EscapeJsonQuoteExample()
    ensures EscapeJson(Some("\"")) == "\\\\\""
    ensures Unescape(EscapeJson(Some("\""))).None?
  {
    EscapeSplit('"', []);
    assert "\"" == ['"'] + [];
    EscapeJsonBreaksQuotes("\"");
  }

  /** Decoding one character written by the corrected escaper gives the character back. */
  lemma UnescapeOne(c: char, tail: string)
    requires c >= ' ' || c == '\n' || c == '\r'
    requires Unescape(tail).Some?
    ensures Unescape(EscapeOne(c) + tail) == Some([c] + Unescape(tail).value)
  {
    var e := EscapeOne(c);
    if |e| == 2 {
      assert (e + tail)[2..] == tail;
    } else {
      assert (e + tail)[1..] == tail;
    }
  }

  /** Characters a JSON string may carry once escaped by this code: no raw control
      characters other than line feed and carriage return. */
  predicate Escapable(s: string) {
    forall i :: 0 <= i < |s| ==> s[i] >= ' ' || s[i] == '\n' || s[i] == '\r'
  }

  /** The corrected escaper round-trips: decoding its output gives the input back. */
  lemma {:induction false} EscapeFixedRoundTrip(s: string)
    requires Escapable(s)
    ensures Unescape(EscapeJsonFixed(Some(s))) == Some(s)
    decreases |s|
  {
    if s != [] {
      assert s == [s[0]] + s[1..];
      EscapeFixedSplit(s[0], s[1..]);
      EscapeFixedRoundTrip(s[1..]);
      UnescapeOne(s[0], EscapeJsonFixed(Some(s[1..])));
    }
  }
}

=== FILE: lists.dfy ===
/** List operations of `java.util.List` the registry relies on, with a reference
    definition (`Without`) to state them against. */
module Lists {

  /** No element occurs twice. */
  predicate NoDup<T(==,!new)>(s: seq<T>) {
    forall i, j :: 0 <= i < j < |s| ==> s[i] != s[j]
  }

  /** Every occurrence of `x` dropped, order of the rest kept (the reference definition). */
  function Without<T(==,!new)>(s: seq<T>, x: T): (r: seq<T>)
    ensures |r| <= |s|
    ensures x !in r
    ensures forall y :: y != x ==> (y in r <==> y in s)
  {
    if s == [] then [] else (if s[0] == x then [] else [s[0]]) + Without(s[1..], x)
  }

  /** Java's `List.remove(Object)`: drops the first occurrence of `x` only. */
  function RemoveFirst<T(==,!new)>(s: seq<T>, x: T): (r: seq<T>)
    ensures x !in s ==> r == s
    ensures x in s ==> |r| == |s| - 1
    ensures forall y :: y != x ==> (y in r <==> y in s)
  {
    if s == [] then []
    else if s[0] == x then s[1..]
    else [s[0]] + RemoveFirst(s[1..], x)
  }

  lemma {:induction false} NoDupTail<T(!new)>(s: seq<T>)
    requires NoDup(s) && s != []
    ensures NoDup(s[1..]) && s[0] !in s[1..]
  {
  }

  /** On a duplicate-free list, removing the first occurrence removes them all. */
  lemma {:induction false} RemoveFirstIsWithout<T(!new)>(s: seq<T>, x: T)
    requires NoDup(s)
    ensures RemoveFirst(s, x) == Without(s, x)
  {
    if s != [] {
      NoDupTail(s);
      RemoveFirstIsWithout(s[1..], x);
      if s[0] == x {
        WithoutAbsent(s[1..], x);
      }
    }
  }

  /** Removing an absent element changes nothing. */
  lemma {:induction false} WithoutAbsent<T(!new)>(s: seq<T>, x: T)
    requires x !in s
    ensures Without(s, x) == s
  {
    if s != [] {
      assert s == [s[0]] + s[1..];
      WithoutAbsent(s[1..], x);
    }
  }

  /** `Without` keeps a list duplicate-free. */
  lemma {:induction false} WithoutNoDup<T(!new)>(s: seq<T>, x: T)
    requires NoDup(s)
    ensures NoDup(Without(s, x))
  {
    if s != [] {
      NoDupTail(s);
      WithoutNoDup(s[1..], x);
      var t := Without(s[1..], x);
      if s[0] != x {
        assert s[0] !in t;
        assert Without(s, x) == [s[0]] + t;
      }
    }
  }

  lemma {:induction false} WithoutAppend<T(!new)>(a: seq<T>, b: seq<T>, x: T)
    ensures Without(a + b, x) == Without(a, x) + Without(b, x)
  {
    if a != [] {
      assert (a + b)[1..] == a[1..] + b;
      WithoutAppend(a[1..], b, x);
    } else {
      assert a + b == b;
    }
  }

  /** Removing twice is removing once, and a trailing `x` vanishes. */
  lemma WithoutThenAppend<T(!new)>(s: seq<T>, x: T)
    ensures Without(Without(s, x) + [x], x) == Without(s, x)
  {
    WithoutAppend(Without(s, x), [x], x);
    WithoutAbsent(Without(s, x), x);
    assert Without([x], x) == [];
  }

  /** Appending a fresh element keeps the list duplicate-free. */
  lemma AppendFreshNoDup<T(!new)>(s: seq<T>, x: T)
    requires NoDup(s) && x !in s
    ensures NoDup(s + [x])
  {
  }
}

=== FILE: messages.dfy ===
/** The request/response vocabulary shared by the coordinator and every worker
    (`EstadoOperacion`, `TipoOperacion`, `Solicitud`, `Respuesta`). Amounts and
    balances are integers; response message texts are not modelled. */
module Messages {
  import opened Wrappers

  /** Outcome statuses. `ErrorCuentaNoEncontrada` exists only in the TypeScript worker's enum. */
  datatype Status =
    | Exito
    | ErrorSaldoInsuficiente
    | ErrorCuentaOrigenNoExiste
    | ErrorCuentaDestinoNoExiste
    | ErrorReintentarEnOtroNodo
    | ErrorGeneralServidor
    | ErrorComunicacion
    | TransaccionPendiente
    | TransaccionConfirmada
    | TransaccionFallida
    | DebitoPreparadoOk
    | DebitoConfirmadoOk
    | DebitoRevertidoOk
    | CreditoAplicadoOk
    | ReplicaActualizadaOk
    | ErrorCuentaNoEncontrada

  /** Operation kinds, client-facing and coordinator-to-worker. */
  datatype Op =
    | ConsultarSaldo
    | TransferirFondos
    | PrepararDebito
    | ConfirmarDebito
    | RevertirDebito
    | AplicarCredito
    | ActualizarSaldoReplica
    | ArqueoCuentas
    | CalcularSaldoParticion

  /** The parameter map of a request; every key may be missing (`None`). */
  datatype Params = Params(
    account: Option<int>,        // ID_CUENTA
    origin: Option<int>,         // ID_CUENTA_ORIGEN
    dest: Option<int>,           // ID_CUENTA_DESTINO
    amount: Option<int>,         // MONTO
    newBalance: Option<int>,     // NUEVO_SALDO
    partition: Option<string>,   // ID_PARTICION
    txId: Option<int>)           // ID_TRANSACCION_GLOBAL

  const NoParams := Params(None, None, None, None, None, None, None)

  datatype Solicitud = Solicitud(op: Op, params: Params)

  /** The `datos` of a response: nothing, a bare number (a balance or a sum), a number
      that failed to parse (JavaScript `NaN`), or a map whose numeric and text
      entries are kept apart. */
  datatype Payload =
    | NoData
    | Num(n: int)
    | NotANumber
    | Fields(nums: map<string, int>, texts: map<string, string>)

  const KeySaldoActualOrigen := "saldoActualOrigen"
  const KeyNuevoSaldoOrigen := "nuevoSaldoOrigen"
  const KeyNuevoSaldoDestino := "nuevoSaldoDestino"
  const KeyWorkerId := "workerIdProcesador"

  datatype Respuesta = Respuesta(status: Status, payload: Payload)

  /** A response carrying no data. */
  function Bare(s: Status): (r: Respuesta)
    ensures r.status == s && r.payload == NoData
  {
    Respuesta(s, NoData)
  }

  /** `((Map) datos).get(key)` read as a number; `None` when the key is absent or the
      payload is not a map. */
  function NumField(p: Payload, key: string): (r: Option<int>)
    ensures r.Some? <==> p.Fields? && key in p.nums
    ensures r.Some? ==> r.value == p.nums[key]
  {
    if p.Fields? && key in p.nums then Some(p.nums[key]) else None
  }

  /** `((Map) datos).get(key)` read as text. */
  function TextField(p: Payload, key: string): (r: Option<string>)
    ensures r.Some? <==> p.Fields? && key in p.texts
    ensures r.Some? ==> r.value == p.texts[key]
  {
    if p.Fields? && key in p.texts then Some(p.texts[key]) else None
  }
}

=== FILE: partitioning.dfy ===
/** How the coordinator splits the seed accounts and clients into three contiguous
    partitions at start-up (`ServidorCentral`, data loading). */
module Partitioning {
  import opened Registry
  import opened Lists

  /** `NUM_PARTICIONES_CUENTAS` and `NUM_PARTICIONES_CLIENTES`. */
  const NumPartitions := 3
  const AccountPrefix := "CUENTA_P"
  const ClientPrefix := "CLIENTE_P"

  /** `(int) Math.ceil((double) n / 3)`: the smallest size for which three buckets hold `n` items. */
  function BucketSize(n: nat): (s: nat)
    ensures NumPartitions * s >= n
    ensures s > 0 ==> NumPartitions * (s - 1) < n
  {
    (n + 2) / 3
  }

  function Min(a: int, b: int): int { if a <= b then a else b }

  /** The id of bucket `i` (0-based): the prefix followed by `i + 1`. */
  function PartitionName(prefix: string, i: nat): (r: string)
    requires i < NumPartitions
    ensures |r| == |prefix| + 1 && r[..|prefix|] == prefix
    ensures r[|prefix|] == ('1' as int + i) as char
  {
    prefix + [('1' as int + i) as char]
  }

  /** Bucket `i`: the items at positions `[i*size, (i+1)*size)` that exist. */
  function Bucket<T>(items: seq<T>, i: nat): (b: seq<T>)
    requires i < NumPartitions
    ensures |b| <= BucketSize(|items|)
  {
    var size := BucketSize(|items|);
    items[Min(i * size, |items|)..Min((i + 1) * size, |items|)]
  }

  /** The bucket that holds position `j`. */
  function BucketOf(j: nat, n: nat): nat
    requires j < n
  {
    j / BucketSize(n)
  }

  /** Every position lies in one of the three buckets. */
  lemma BucketOfBound(j: nat, n: nat)
    requires j < n
    ensures BucketOf(j, n) < NumPartitions
  {
    var size := BucketSize(n);
    assert j < NumPartitions * size;
  }

  /** The three buckets are the item list cut in three consecutive pieces. */
  lemma BucketsCover<T>(items: seq<T>)
    ensures Bucket(items, 0) + Bucket(items, 1) + Bucket(items, 2) == items
  {
    var size := BucketSize(|items|);
    assert Min(3 * size, |items|) == |items|;
    assert items[0..Min(size, |items|)] + items[Min(size, |items|)..Min(2 * size, |items|)]
        == items[0..Min(2 * size, |items|)];
  }

  /** Euclidean division places `j` between two consecutive multiples of `size`. */
  lemma DivBounds(j: nat, size: nat)
    requires size > 0
    ensures (j / size) * size <= j < (j / size) * size + size
  {
  }

  /** Position `j` lies in bucket `j / size`, at offset `j - i * size`. */
  lemma BucketOfPosition<T>(items: seq<T>, j: nat)
    requires j < |items|
    ensures BucketOf(j, |items|) < NumPartitions
    ensures var i := BucketOf(j, |items|);
            0 <= j - i * BucketSize(|items|) < |Bucket(items, i)| &&
            Bucket(items, i)[j - i * BucketSize(|items|)] == items[j]
  {
    var size := BucketSize(|items|);
    var i := j / size;
    BucketOfBound(j, |items|);
    DivBounds(j, size);
    var lo := i * size;
    assert (i + 1) * size == lo + size;
    assert Min(lo, |items|) == lo;
    assert Bucket(items, i) == items[lo..Min(lo + size, |items|)];
  }

  /** The account (or client) to partition index after the loading loop has seen the
      first `k` items: every `put` overwrites an earlier one for the same id. */
  function IndexUpTo(items: seq<Record>, prefix: string, k: nat): (m: map<int, string>)
    requires k <= |items|
    ensures forall j :: 0 <= j < k ==> items[j].id in m
  {
    if k == 0 then map[]
    else
      var j := k - 1;
      BucketOfBound(j, |items|);
      IndexUpTo(items, prefix, j)[items[j].id := PartitionName(prefix, BucketOf(j, |items|))]
  }

  /** The partition data and the id index built from one seed list. */
  function Load(items: seq<Record>, prefix: string): (r: (map<string, seq<Record>>, map<int, string>))
    ensures r.0.Keys == {PartitionName(prefix, 0), PartitionName(prefix, 1), PartitionName(prefix, 2)}
    ensures forall i :: 0 <= i < NumPartitions ==>
      PartitionName(prefix, i) in r.0 && r.0[PartitionName(prefix, i)] == Bucket(items, i)
  {
    (map[PartitionName(prefix, 0) := Bucket(items, 0),
         PartitionName(prefix, 1) := Bucket(items, 1),
         PartitionName(prefix, 2) := Bucket(items, 2)],
     IndexUpTo(items, prefix, |items|))
  }

  /** Ids occur once in the seed list. */
  predicate UniqueIds(items: seq<Record>) {
    forall i, j :: 0 <= i < j < |items| ==> items[i].id != items[j].id
  }

  /** The index holds exactly the ids of the items seen. */
  lemma {:induction false} IndexKeys(items: seq<Record>, prefix: string, k: nat)
    requires k <= |items|
    ensures IndexUpTo(items, prefix, k).Keys == set j | 0 <= j < k :: items[j].id
  {
    if k > 0 {
      IndexKeys(items, prefix, k - 1);
      var s0 := set j | 0 <= j < k - 1 :: items[j].id;
      var s1 := set j | 0 <= j < k :: items[j].id;
      assert s1 == s0 + {items[k - 1].id};
    }
  }

  /** With unique ids, the index sends each item's id to the partition whose data holds it. */
  lemma {:induction false} IndexUpToCorrect(items: seq<Record>, prefix: string, k: nat)
    requires k <= |items| && UniqueIds(items)
    ensures forall j :: 0 <= j < k ==>
      BucketOf(j, |items|) < NumPartitions &&
      IndexUpTo(items, prefix, k)[items[j].id] == PartitionName(prefix, BucketOf(j, |items|))
  {
    if k > 0 {
      IndexUpToCorrect(items, prefix, k - 1);
      var m := IndexUpTo(items, prefix, k - 1);
      BucketOfBound(k - 1, |items|);
      var name := PartitionName(prefix, BucketOf(k - 1, |items|));
      assert IndexUpTo(items, prefix, k) == m[items[k - 1].id := name];
      forall j | 0 <= j < k
        ensures BucketOf(j, |items|) < NumPartitions
        ensures IndexUpTo(items, prefix, k)[items[j].id] == PartitionName(prefix, BucketOf(j, |items|))
      {
        BucketOfBound(j, |items|);
        var want := PartitionName(prefix, BucketOf(j, |items|));
        if j < k - 1 {
          assert items[j].id != items[k - 1].id;
          assert m[items[j].id] == want;
          assert m[items[k - 1].id := name][items[j].id] == want;
        } else {
          assert m[items[k - 1].id := name][items[j].id] == want;
        }
      }
    }
  }

  /** The start-up registry: no workers, no replicas, the client and account partitions
      loaded, the counter at zero. */
  function Initial(accounts: seq<Record>, clients: seq<Record>): (reg: Registry)
    ensures reg.workers == map[] && reg.replicas == map[] && reg.txCounter == 0
    ensures WellFormed(reg) && Consistent(reg)
    ensures forall i :: 0 <= i < NumPartitions ==>
      PartitionName(AccountPrefix, i) in reg.data &&
      reg.data[PartitionName(AccountPrefix, i)] == Bucket(accounts, i)
  {
    var (accData, accIndex) := Load(accounts, AccountPrefix);
    var (cliData, cliIndex) := Load(clients, ClientPrefix);
    Registry(map[], map[], accIndex, cliIndex, cliData + accData, 0)
  }

  /** Loading places every seed account in exactly the partition the index names for it,
      and the three account partitions together are the seed list in order. */
  lemma InitialPlacesAccounts(accounts: seq<Record>, clients: seq<Record>)
    requires UniqueIds(accounts)
    ensures var reg := Initial(accounts, clients);
      && reg.data[PartitionName(AccountPrefix, 0)] + reg.data[PartitionName(AccountPrefix, 1)]
         + reg.data[PartitionName(AccountPrefix, 2)] == accounts
      && forall j :: 0 <= j < |accounts| ==>
           accounts[j].id in reg.accountPartition &&
           var p := reg.accountPartition[accounts[j].id];
           p in reg.data && accounts[j] in reg.data[p]
  {
    var reg := Initial(accounts, clients);
    BucketsCover(accounts);
    IndexUpToCorrect(accounts, AccountPrefix, |accounts|);
    forall j | 0 <= j < |accounts|
      ensures accounts[j].id in reg.accountPartition
      ensures reg.accountPartition[accounts[j].id] in reg.data
      ensures accounts[j] in reg.data[reg.accountPartition[accounts[j].id]]
    {
      BucketOfPosition(accounts, j);
    }
  }
}

=== FILE: py_worker.dfy ===
/** The Python worker's request handler (`NodoTrabajador.procesar_solicitud` in
    `nodo_trabajador.py`). It follows the Java worker step for step but tests its
    parameters for Python truthiness (`not x`, `all([...])`), so an id or amount of `0`
    and an empty partition name count as missing; the two-row rewrite has no `-1`
    sentinel; and the partition sum of an empty file is an error. */
module PyWorker {
  import opened Wrappers
  import opened Messages
  import opened Store
  import J = JavaWorker

  /** A present parameter that is not `0` (Python truthiness of an int). */
  predicate Truthy(o: Option<int>) {
    o.Some? && o.value != 0
  }

  /** A present, non-empty partition name (Python truthiness of a str). */
  predicate TruthyText(o: Option<string>) {
    o.Some? && o.value != ""
  }

  /** `CONSULTAR_SALDO`. */
  function Consult(n: J.Node, prm: Params): (r: Respuesta)
    ensures r.status in {Exito, ErrorGeneralServidor, ErrorCuentaOrigenNoExiste}
    ensures r.status == ErrorGeneralServidor <==> !Truthy(prm.account) || !TruthyText(prm.partition)
    ensures r.status == Exito <==>
      Truthy(prm.account) && TruthyText(prm.partition) &&
      ReadBalance(n.files, prm.partition.value, prm.account.value).Some?
    ensures r.status == Exito ==> r.payload == Num(ReadBalance(n.files, prm.partition.value, prm.account.value).value)
  {
    if !Truthy(prm.account) || !TruthyText(prm.partition) then Bare(ErrorGeneralServidor)
    else
      match ReadBalance(n.files, prm.partition.value, prm.account.value)
      case Some(b) => Respuesta(Exito, Num(b))
      case None => Bare(ErrorCuentaOrigenNoExiste)
  }

  /** `TRANSFERIR_FONDOS` within one partition. */
  function Transfer(n: J.Node, prm: Params): (r: (Respuesta, J.Node))
    ensures r.0.status != Exito ==> r.1 == n
    ensures r.0.status == Exito <==>
      && Truthy(prm.origin) && Truthy(prm.dest) && Truthy(prm.amount) && TruthyText(prm.partition)
      && var p, o, d, m := prm.partition.value, prm.origin.value, prm.dest.value, prm.amount.value;
      && ReadBalance(n.files, p, o).Some? && ReadBalance(n.files, p, o).value >= m
      && ReadBalance(n.files, p, d).Some?
      && UpdateTwoPy(n.files, p, o, ReadBalance(n.files, p, o).value - m,
                     d, ReadBalance(n.files, p, d).value + m).Some?
    ensures r.0.status == Exito ==>
      var p, o, d, m := prm.partition.value, prm.origin.value, prm.dest.value, prm.amount.value;
      var bo, bd := ReadBalance(n.files, p, o).value, ReadBalance(n.files, p, d).value;
      && r.1 == n.(files := UpdateTwoPy(n.files, p, o, bo - m, d, bd + m).value)
      && r.0.payload == J.Stamped(n, map[KeyNuevoSaldoOrigen := bo - m, KeyNuevoSaldoDestino := bd + m])
  {
    if !(Truthy(prm.origin) && Truthy(prm.dest) && Truthy(prm.amount) && TruthyText(prm.partition)) then
      (Bare(ErrorGeneralServidor), n)
    else
      var p, o, d, m := prm.partition.value, prm.origin.value, prm.dest.value, prm.amount.value;
      match ReadBalance(n.files, p, o)
      case None => (Bare(ErrorCuentaOrigenNoExiste), n)
      case Some(bo) =>
        if bo < m then (Respuesta(ErrorSaldoInsuficiente, Num(bo)), n)
        else
          match ReadBalance(n.files, p, d)
          case None => (Bare(ErrorCuentaDestinoNoExiste), n)
          case Some(bd) =>
            match UpdateTwoPy(n.files, p, o, bo - m, d, bd + m)
            case Some(f) => (Respuesta(Exito, J.Stamped(n, map[KeyNuevoSaldoOrigen := bo - m, KeyNuevoSaldoDestino := bd + m])), n.(files := f))
            case None => (Bare(ErrorGeneralServidor), n)
  }

  /** `PREPARAR_DEBITO`: validates the balance; no file is written. */
  function Prepare(n: J.Node, prm: Params): (r: Respuesta)
    ensures r.status in {DebitoPreparadoOk, ErrorGeneralServidor, ErrorCuentaOrigenNoExiste, ErrorSaldoInsuficiente}
    ensures r.status == DebitoPreparadoOk <==>
      Truthy(prm.origin) && Truthy(prm.amount) && TruthyText(prm.partition) &&
      ReadBalance(n.files, prm.partition.value, prm.origin.value).Some? &&
      ReadBalance(n.files, prm.partition.value, prm.origin.value).value >= prm.amount.value
    ensures r.status == DebitoPreparadoOk ==>
      r.payload == J.Stamped(n, map[KeySaldoActualOrigen := ReadBalance(n.files, prm.partition.value, prm.origin.value).value])
  {
    if !(Truthy(prm.origin) && Truthy(prm.amount) && TruthyText(prm.partition)) then Bare(ErrorGeneralServidor)
    else
      match ReadBalance(n.files, prm.partition.value, prm.origin.value)
      case None => Bare(ErrorCuentaOrigenNoExiste)
      case Some(bo) =>
        if bo < prm.amount.value then Respuesta(ErrorSaldoInsuficiente, Num(bo))
        else Respuesta(DebitoPreparadoOk, J.Stamped(n, map[KeySaldoActualOrigen := bo]))
  }

  /** `APLICAR_CREDITO`. */
  function Credit(n: J.Node, prm: Params): (r: (Respuesta, J.Node))
    ensures r.0.status in {CreditoAplicadoOk, ErrorGeneralServidor, ErrorCuentaDestinoNoExiste}
    ensures r.0.status != CreditoAplicadoOk ==> r.1 == n
    ensures r.0.status == CreditoAplicadoOk <==>
      Truthy(prm.dest) && Truthy(prm.amount) && TruthyText(prm.partition) &&
      J.AdjustSucceeds(PySplit, n.files, prm.partition.value, prm.dest.value, prm.amount.value)
    ensures r.0.status == CreditoAplicadoOk ==>
      var b := ReadBalance(n.files, prm.partition.value, prm.dest.value).value;
      r.1.files == UpdateOne(PySplit, n.files, prm.partition.value, prm.dest.value, b + prm.amount.value).value &&
      r.0.payload == J.Stamped(n, map[KeyNuevoSaldoDestino := b + prm.amount.value])
  {
    if !(Truthy(prm.dest) && Truthy(prm.amount) && TruthyText(prm.partition)) then (Bare(ErrorGeneralServidor), n)
    else
      var p, d, m := prm.partition.value, prm.dest.value, prm.amount.value;
      match ReadBalance(n.files, p, d)
      case None => (Bare(ErrorCuentaDestinoNoExiste), n)
      case Some(b) =>
        match UpdateOne(PySplit, n.files, p, d, b + m)
        case Some(f) => (Respuesta(CreditoAplicadoOk, J.Stamped(n, map[KeyNuevoSaldoDestino := b + m])), n.(files := f))
        case None => (Bare(ErrorGeneralServidor), n)
  }

  /** `CONFIRMAR_DEBITO`: origin balance minus the amount, with no funds check. */
  function Confirm(n: J.Node, prm: Params): (r: (Respuesta, J.Node))
    ensures r.0.status in {DebitoConfirmadoOk, ErrorGeneralServidor, ErrorCuentaOrigenNoExiste}
    ensures r.0.status != DebitoConfirmadoOk ==> r.1 == n
    ensures r.0.status == DebitoConfirmadoOk <==>
      Truthy(prm.origin) && Truthy(prm.amount) && TruthyText(prm.partition) &&
      J.AdjustSucceeds(PySplit, n.files, prm.partition.value, prm.origin.value, -prm.amount.value)
    ensures r.0.status == DebitoConfirmadoOk ==>
      var b := ReadBalance(n.files, prm.partition.value, prm.origin.value).value;
      r.1.files == UpdateOne(PySplit, n.files, prm.partition.value, prm.origin.value, b + -prm.amount.value).value &&
      r.0.payload == J.Stamped(n, map[KeyNuevoSaldoOrigen := b + -prm.amount.value])
  {
    if !(Truthy(prm.origin) && Truthy(prm.amount) && TruthyText(prm.partition)) then (Bare(ErrorGeneralServidor), n)
    else
      var p, o, m := prm.partition.value, prm.origin.value, prm.amount.value;
      match ReadBalance(n.files, p, o)
      case None => (Bare(ErrorCuentaOrigenNoExiste), n)
      case Some(b) =>
        var nb := b + -m;
        match UpdateOne(PySplit, n.files, p, o, nb)
        case Some(f) => (Respuesta(DebitoConfirmadoOk, J.Stamped(n, map[KeyNuevoSaldoOrigen := nb])), n.(files := f))
        case None => (Bare(ErrorGeneralServidor), n)
  }

  /** `REVERTIR_DEBITO`: origin balance plus the amount. */
  function Revert(n: J.Node, prm: Params): (r: (Respuesta, J.Node))
    ensures r.0.status in {DebitoRevertidoOk, ErrorGeneralServidor, ErrorCuentaOrigenNoExiste}
    ensures r.0.status != DebitoRevertidoOk ==> r.1 == n
    ensures r.0.status == DebitoRevertidoOk <==>
      Truthy(prm.origin) && Truthy(prm.amount) && TruthyText(prm.partition) &&
      J.AdjustSucceeds(PySplit, n.files, prm.partition.value, prm.origin.value, prm.amount.value)
    ensures r.0.status == DebitoRevertidoOk ==>
      var b := ReadBalance(n.files, prm.partition.value, prm.origin.value).value;
      r.1.files == UpdateOne(PySplit, n.files, prm.partition.value, prm.origin.value, b + prm.amount.value).value &&
      r.0.payload == J.Stamped(n, map[KeyNuevoSaldoOrigen := b + prm.amount.value])
  {
    if !(Truthy(prm.origin) && Truthy(prm.amount) && TruthyText(prm.partition)) then (Bare(ErrorGeneralServidor), n)
    else
      var p, o, m := prm.partition.value, prm.origin.value, prm.amount.value;
      match ReadBalance(n.files, p, o)
      case None => (Bare(ErrorCuentaOrigenNoExiste), n)
      case Some(b) =>
        match UpdateOne(PySplit, n.files, p, o, b + m)
        case Some(f) => (Respuesta(DebitoRevertidoOk, J.Stamped(n, map[KeyNuevoSaldoOrigen := b + m])), n.(files := f))
        case None => (Bare(ErrorGeneralServidor), n)
  }

  /** `ACTUALIZAR_SALDO_REPLICA`: here the account and balance are tested with
      `is not None`, so `0` is accepted. */
  function Replica(n: J.Node, prm: Params): (r: (Respuesta, J.Node))
    ensures r.0.status in {ReplicaActualizadaOk, ErrorGeneralServidor}
    ensures r.0.status == ReplicaActualizadaOk <==>
      prm.account.Some? && prm.newBalance.Some? && TruthyText(prm.partition) &&
      UpdateOne(PySplit, n.files, prm.partition.value, prm.account.value, prm.newBalance.value).Some?
    ensures r.0.status == ReplicaActualizadaOk ==>
      r.1.files == UpdateOne(PySplit, n.files, prm.partition.value, prm.account.value, prm.newBalance.value).value &&
      r.0.payload == NoData
    ensures r.0.status != ReplicaActualizadaOk ==> r.1 == n
  {
    if !(prm.account.Some? && prm.newBalance.Some? && TruthyText(prm.partition)) then (Bare(ErrorGeneralServidor), n)
    else
      match UpdateOne(PySplit, n.files, prm.partition.value, prm.account.value, prm.newBalance.value)
      case Some(f) => (Bare(ReplicaActualizadaOk), n.(files := f))
      case None => (Bare(ErrorGeneralServidor), n)
  }

  /** `CALCULAR_SALDO_PARTICION`: skipping the header of an empty file raises, and the
      handler answers with an error. */
  function PartitionTotal(n: J.Node, prm: Params): (r: Respuesta)
    ensures r.status in {Exito, ErrorGeneralServidor}
    ensures r.status == Exito <==>
      TruthyText(prm.partition) && prm.partition.value in n.held &&
      prm.partition.value in n.files && |n.files[prm.partition.value]| > 0
    ensures r.status == Exito ==> r.payload == Num(PartitionSum(n.files[prm.partition.value]))
  {
    if !TruthyText(prm.partition) then Bare(ErrorGeneralServidor)
    else if prm.partition.value !in n.held then Bare(ErrorGeneralServidor)
    else if prm.partition.value !in n.files || |n.files[prm.partition.value]| == 0 then Bare(ErrorGeneralServidor)
    else Respuesta(Exito, Num(PartitionSum(n.files[prm.partition.value])))
  }

  /** The guard: a non-empty partition name the worker was not assigned. */
  predicate Refused(n: J.Node, prm: Params) {
    TruthyText(prm.partition) && prm.partition.value !in n.held
  }

  /** `procesar_solicitud`: the guard, then dispatch; `ARQUEO_CUENTAS` is not supported. */
  function Process(n: J.Node, req: Solicitud): (r: (Respuesta, J.Node))
    ensures Refused(n, req.params) ==> r == (Bare(ErrorGeneralServidor), n)
    ensures r.1.id == n.id && r.1.held == n.held
    ensures r.1 != n ==> r.0.status in {Exito, CreditoAplicadoOk, DebitoConfirmadoOk, DebitoRevertidoOk, ReplicaActualizadaOk}
    ensures req.op in {ConsultarSaldo, PrepararDebito, CalcularSaldoParticion, ArqueoCuentas} ==> r.1 == n
  {
    var prm := req.params;
    if Refused(n, prm) then (Bare(ErrorGeneralServidor), n)
    else
      match req.op
      case ConsultarSaldo => (Consult(n, prm), n)
      case TransferirFondos => Transfer(n, prm)
      case PrepararDebito => (Prepare(n, prm), n)
      case AplicarCredito => Credit(n, prm)
      case ConfirmarDebito => Confirm(n, prm)
      case RevertirDebito => Revert(n, prm)
      case ActualizarSaldoReplica => Replica(n, prm)
      case CalcularSaldoParticion => (PartitionTotal(n, prm), n)
      case ArqueoCuentas => (Bare(ErrorGeneralServidor), n)
  }
}

/** The Python and Java workers answer every request the same way once the inputs
    avoid the four places where they part: a zero id or amount (or empty partition
    name), the `-1` account sentinel of the Java two-row rewrite, an empty file, and a
    line with a blank account type, which only the Java rewrite shortens. */
module PyWorkerProps {
  import opened Wrappers
  import opened Messages
  import opened Store
  import J = JavaWorker
  import Py = PyWorker
  import StoreProps

  /** Ids and amounts that are not `0`, account ids that are not `-1`, and a non-empty
      partition name, wherever present. */
  predicate Plain(prm: Params) {
    && prm.account != Some(0) && prm.amount != Some(0)
    && prm.origin != Some(0) && prm.dest != Some(0)
    && prm.origin != Some(-1) && prm.dest != Some(-1)
    && prm.partition != Some("")
  }

  /** Every partition file the worker has contains at least its header line. */
  predicate NoEmptyFile(n: J.Node) {
    forall p :: p in n.files ==> |n.files[p]| > 0
  }

  /** No partition file the worker has contains a line with a blank account type. */
  predicate TypedFiles(n: J.Node) {
    forall p :: p in n.files ==> Typed(Body(n.files[p]))
  }

  /** Without the `-1` sentinel the Java and Python two-row updates succeed on the same
      files, and write the same lines when no line's type is blank. */
  lemma UpdateTwoAgree(files: Files, p: string, o: int, nO: int, d: int, nD: int)
    requires o != -1 && d != -1
    ensures UpdateTwoJava(files, p, o, nO, d, nD).Some? <==> UpdateTwoPy(files, p, o, nO, d, nD).Some?
    ensures p in files && Typed(Body(files[p])) ==>
              UpdateTwoJava(files, p, o, nO, d, nD) == UpdateTwoPy(files, p, o, nO, d, nD)
  {
    if p in files && Typed(Body(files[p])) {
      StoreProps.TypedSplitsAgree(Body(files[p]), o, nO, d, nD);
    }
  }

  /** The Java and Python one-row updates succeed on the same files, and write the same
      lines when no line's type is blank. */
  lemma UpdateOneAgree(files: Files, p: string, id: int, nb: int)
    ensures UpdateOne(JavaSplit, files, p, id, nb).Some? <==> UpdateOne(PySplit, files, p, id, nb).Some?
    ensures p in files && Typed(Body(files[p])) ==>
              UpdateOne(JavaSplit, files, p, id, nb) == UpdateOne(PySplit, files, p, id, nb)
  {
    if p in files && Typed(Body(files[p])) {
      StoreProps.TypedSplitsAgree(Body(files[p]), id, nb, id, nb);
    }
  }

  /** On plain parameters and files with no blank account type, the Python transfer is
      the Java one. */
  lemma SameTransfer(n: J.Node, prm: Params)
    requires Plain(prm) && TypedFiles(n)
    ensures Py.Transfer(n, prm) == J.Transfer(n, prm)
  {
    if prm.partition.Some? && prm.origin.Some? && prm.dest.Some? && prm.amount.Some? {
      var p, o, d, m := prm.partition.value, prm.origin.value, prm.dest.value, prm.amount.value;
      if ReadBalance(n.files, p, o).Some? && ReadBalance(n.files, p, d).Some? {
        UpdateTwoAgree(n.files, p, o, ReadBalance(n.files, p, o).value - m, d, ReadBalance(n.files, p, d).value + m);
      }
    }
  }

  /** The same for the credit. */
  lemma SameCredit(n: J.Node, prm: Params)
    requires Plain(prm) && TypedFiles(n)
    ensures Py.Credit(n, prm) == J.Credit(n, prm)
  {
    if prm.partition.Some? && prm.dest.Some? && prm.amount.Some? {
      var p, d, m := prm.partition.value, prm.dest.value, prm.amount.value;
      assert Py.Truthy(prm.dest) && Py.Truthy(prm.amount) && Py.TruthyText(prm.partition);
      match ReadBalance(n.files, p, d)
      case None =>
      case Some(b) =>
        var nb := b + m;
        assert UpdateOne(PySplit, n.files, p, d, nb) == UpdateOne(JavaSplit, n.files, p, d, nb) by {
          UpdateOneAgree(n.files, p, d, nb);
        }
    }
  }



  /** The same for the confirmation. */
  lemma SameConfirm(n: J.Node, prm: Params)
    requires Plain(prm) && TypedFiles(n)
    ensures Py.Confirm(n, prm) == J.Confirm(n, prm)
  {
    if prm.partition.Some? && prm.origin.Some? && prm.amount.Some? {
      var p, o, m := prm.partition.value, prm.origin.value, prm.amount.value;
      assert Py.Truthy(prm.origin) && Py.Truthy(prm.amount) && Py.TruthyText(prm.partition);
      match ReadBalance(n.files, p, o)
      case None =>
      case Some(b) =>
        var nb := b + -m;
        assert UpdateOne(PySplit, n.files, p, o, nb) == UpdateOne(JavaSplit, n.files, p, o, nb) by {
          UpdateOneAgree(n.files, p, o, nb);
        }
    }
  }



  /** The same for the revert. */
  lemma SameRevert(n: J.Node, prm: Params)
    requires Plain(prm) && TypedFiles(n)
    ensures Py.Revert(n, prm) == J.Revert(n, prm)
  {
    if prm.partition.Some? && prm.origin.Some? && prm.amount.Some? {
      var p, o, m := prm.partition.value, prm.origin.value, prm.amount.value;
      assert Py.Truthy(prm.origin) && Py.Truthy(prm.amount) && Py.TruthyText(prm.partition);
      match ReadBalance(n.files, p, o)
      case None =>
      case Some(b) =>
        var nb := b + m;
        assert UpdateOne(PySplit, n.files, p, o, nb) == UpdateOne(JavaSplit, n.files, p, o, nb) by {
          UpdateOneAgree(n.files, p, o, nb);
        }
    }
  }



  /** The same for the replica update. */
  lemma SameReplica(n: J.Node, prm: Params)
    requires Plain(prm) && TypedFiles(n)
    ensures Py.Replica(n, prm) == J.Replica(n, prm)
  {
    if prm.partition.Some? && prm.account.Some? && prm.newBalance.Some? {
      UpdateOneAgree(n.files, prm.partition.value, prm.account.value, prm.newBalance.value);
    }
  }

  /** On plain parameters and on files with a header and no blank account type, the two
      workers give the same answer and leave the same files. */
  lemma SameAsJava(n: J.Node, req: Solicitud)
    requires Plain(req.params) && NoEmptyFile(n) && TypedFiles(n)
    ensures Py.Process(n, req) == J.Process(n, req)
  {
    var prm := req.params;
    match req.op
    case TransferirFondos => SameTransfer(n, prm);
    case AplicarCredito => SameCredit(n, prm);
    case ConfirmarDebito => SameConfirm(n, prm);
    case RevertirDebito => SameRevert(n, prm);
    case ActualizarSaldoReplica => SameReplica(n, prm);
    case _ =>
  }

  /** A transfer of amount `0` succeeds on the Java worker and is refused as incomplete
      by the Python one. */
  lemma ZeroAmountParts()
    ensures var n := J.Node("w", ["P"], map["P" := [Line(1, None, None, false), Line(4, Some(1), Some(5), false), Line(4, Some(2), Some(7), false)]]);
            var prm := NoParams.(origin := Some(1), dest := Some(2), amount := Some(0), partition := Some("P"));
            J.Process(n, Solicitud(TransferirFondos, prm)).0.status == Exito &&
            Py.Process(n, Solicitud(TransferirFondos, prm)).0 == Bare(ErrorGeneralServidor)
  {
    var n := J.Node("w", ["P"], map["P" := [Line(1, None, None, false), Line(4, Some(1), Some(5), false), Line(4, Some(2), Some(7), false)]]);
    var rows := Body(n.files["P"]);
    assert ReadRows(rows, 1) == Some(5);
    assert ReadRows(rows, 2) == Some(7);
    assert Writable(rows[0], 1) && Writable(rows[1], 2) && !Writable(rows[1], 1);
  }

  /** The partition sum of an existing but empty file is `0` on the Java worker and an
      error on the Python one. */
  lemma EmptyFileParts()
    ensures var n := J.Node("w", ["P"], map["P" := []]);
            var req := Solicitud(CalcularSaldoParticion, NoParams.(partition := Some("P")));
            J.Process(n, req).0 == Respuesta(Exito, Num(0)) &&
            Py.Process(n, req).0 == Bare(ErrorGeneralServidor)
  {
  }

  /** The two-row rewrite with origin equal to destination rewrites the line through the
      origin branch only, so it reports failure and the file stays as it was. */
  lemma SameAccountTwoRowFails(files: Files, p: string, o: int, nO: int, nD: int)
    ensures UpdateTwoPy(files, p, o, nO, o, nD).None?
  {
  }

  /** Moving 1000 from an account holding 5000 to one holding 3000 leaves 4000 and 4000. */
  lemma TransferExample()
    ensures var n := J.Node("w", ["P"], map["P" := [Line(4, None, None, false), Line(4, Some(101), Some(5000), false), Line(4, Some(102), Some(3000), false)]]);
            var prm := NoParams.(origin := Some(101), dest := Some(102), amount := Some(1000), partition := Some("P"));
            var r := Py.Process(n, Solicitud(TransferirFondos, prm));
            && r.0.status == Exito
            && ReadBalance(r.1.files, "P", 101) == Some(4000)
            && ReadBalance(r.1.files, "P", 102) == Some(3000 + 1000)
  {
    var rows := [Line(4, Some(101), Some(5000), false), Line(4, Some(102), Some(3000), false)];
    assert ReadRows(rows, 101) == Some(5000);
    assert ReadRows(rows, 102) == Some(3000);
    assert Writable(rows[0], 101) && Writable(rows[1], 102) && !Writable(rows[1], 101);
    var rows2 := [Line(4, Some(101), Some(4000), false), Line(4, Some(102), Some(4000), false)];
    assert RewriteTwo(PySplit, rows, 101, 4000, 102, 4000) == rows2;
    assert ReadRows(rows2, 102) == Some(4000);
  }
}

=== FILE: registry.dfy ===
/** The coordinator's registry (`ServidorCentral`): which workers are registered,
    which workers hold a replica of each partition, where every account lives, the
    seed data of every partition and the global transaction counter. Every operation
    is a pure function from one registry value to the next; the `synchronized`
    serialisation of the original is the sequencing of these calls. */
module Registry {
  import opened Wrappers
  import opened Lists
  import opened Info
  import Text

  /** `MAX_REPLICAS_POR_PARTICION`. */
  const MaxReplicas := 3

  /** A seed row of a partition: an account of `cuentas.csv` or a client of `clientes.csv`. */
  datatype Record =
    | AccountRec(id: int, owner: int, balance: int, kind: string)
    | ClientRec(id: int, name: string, email: string, phone: string)

  /** Partition id to the ids of the workers holding it, in registration order (`particionANodos`). */
  type Replicas = map<string, seq<string>>

  datatype Registry = Registry(
    workers: map<string, InfoWorker>,          // workersActivos
    replicas: Replicas,                        // particionANodos
    accountPartition: map<int, string>,        // cuentaAParticion
    clientPartition: map<int, string>,         // clienteAParticion
    data: map<string, seq<Record>>,            // datosParticionesGlobales
    txCounter: int)                            // contadorIdTransaccionGlobal

  /** The replica list of `p`, empty when `p` has no entry (`getOrDefault(p, new ArrayList())`). */
  function ListOf(m: Replicas, p: string): seq<string> {
    if p in m then m[p] else []
  }

  /** Structural invariant every operation keeps: no worker listed twice for a
      partition, no empty list left behind, workers filed under their own id. */
  predicate WellFormed(reg: Registry) {
    && (forall p :: p in reg.replicas ==> NoDup(reg.replicas[p]) && reg.replicas[p] != [])
    && (forall w :: w in reg.workers ==> reg.workers[w].id == w)
  }

  /** Registry and replica lists agree: every listed worker is registered and records
      the partition among the ones it holds. */
  predicate Consistent(reg: Registry) {
    forall p, w :: p in reg.replicas && w in reg.replicas[p] ==>
      w in reg.workers && p in reg.workers[w].partitions
  }

  /** The workers the registry considers live. */
  predicate IsLive(reg: Registry, w: string) {
    w in reg.workers && reg.workers[w].active
  }

  // ---------------------------------------------------------------------------
  // Registration
  // ---------------------------------------------------------------------------

  /** `l` is not empty and `x` is its last element. */
  predicate EndsWith(l: seq<string>, x: string) {
    |l| > 0 && l[|l| - 1] == x
  }

  /** The registration loop over `parts`; each step removes the worker's first
      occurrence from the partition's list (creating the list if absent), then appends
      it. Afterwards every listed partition has a list
      ending with `id`, every other partition is untouched. */
  function EnrollAll(m: Replicas, id: string, parts: seq<string>): (r: Replicas)
    ensures forall p :: p in r <==> p in m || p in parts
    ensures forall p :: p in parts ==> p in r && EndsWith(r[p], id)
    ensures forall p :: p in m && p !in parts ==> r[p] == m[p]
    decreases |parts|
  {
    if parts == [] then m
    else
      var p0 := parts[0];
      var l := RemoveFirst(ListOf(m, p0), id) + [id];
      var m1 := m[p0 := l];
      assert EndsWith(l, id);
      var r := EnrollAll(m1, id, parts[1..]);
      assert p0 in r && EndsWith(r[p0], id);
      assert forall p :: p in parts ==> p == p0 || p in parts[1..];
      r
  }

  /** `registrarActualizarWorker`: file the worker under its id with `parts` as its
      partition list, and add it to the replica list of each of `parts`. */
  function Register(reg: Registry, info: InfoWorker, parts: seq<string>): (r: Registry)
    ensures r.workers == reg.workers[info.id := info.(partitions := parts)]
    ensures forall p :: p in parts ==> p in r.replicas && info.id in r.replicas[p]
    ensures forall p :: p in reg.replicas && p !in parts ==> p in r.replicas && r.replicas[p] == reg.replicas[p]
    ensures r.(workers := reg.workers, replicas := reg.replicas) == reg
  {
    reg.(workers := reg.workers[info.id := SetPartitions(info, parts)],
         replicas := EnrollAll(reg.replicas, info.id, parts))
  }

  /** Every list with `id` removed; lists that become empty are dropped. */
  function Purge(m: Replicas, id: string): (r: Replicas)
    ensures forall p :: p in r ==> p in m && r[p] == Without(m[p], id) && r[p] != []
    ensures forall p :: p in m && Without(m[p], id) != [] ==> p in r
  {
    map p | p in m && Without(m[p], id) != [] :: Without(m[p], id)
  }

  /** Registration as evidently intended: the worker is first taken off every list, so
      afterwards it is listed for exactly the partitions it records. */
  function RegisterFixed(reg: Registry, info: InfoWorker, parts: seq<string>): (r: Registry)
    ensures r.workers == reg.workers[info.id := info.(partitions := parts)]
    ensures r.(workers := reg.workers, replicas := reg.replicas) == reg
  {
    reg.(workers := reg.workers[info.id := SetPartitions(info, parts)],
         replicas := EnrollAll(Purge(reg.replicas, info.id), info.id, parts))
  }

  // ---------------------------------------------------------------------------
  // Removal
  // ---------------------------------------------------------------------------

  /** Remove the first occurrence of `id` from the list of `p` (if there is one) and
      drop the list when it becomes empty. */
  function Drop(m: Replicas, id: string, p: string): Replicas {
    if p !in m then m
    else
      var l := RemoveFirst(m[p], id);
      if l == [] then m - {p} else m[p := l]
  }

  /** The removal loop shared by deregistration and the tentative-assignment rollback. */
  function DropAll(m: Replicas, id: string, parts: seq<string>): (r: Replicas)
    ensures r.Keys <= m.Keys
    ensures forall p :: p in m && p !in parts ==> p in r && r[p] == m[p]
    ensures forall p :: p in r ==> |r[p]| <= |m[p]|
    decreases |parts|
  {
    if parts == [] then m else DropAll(Drop(m, id, parts[0]), id, parts[1..])
  }

  /** `desregistrarWorker`: forget the worker and take it off the lists of the partitions
      it recorded; an unknown id changes nothing. */
  function Deregister(reg: Registry, id: string): (r: Registry)
    ensures id !in r.workers
    ensures id !in reg.workers ==> r == reg
    ensures r.workers == reg.workers - {id}
    ensures r.replicas.Keys <= reg.replicas.Keys
    ensures r.(workers := reg.workers, replicas := reg.replicas) == reg
  {
    if id !in reg.workers then reg
    else reg.(workers := reg.workers - {id},
              replicas := DropAll(reg.replicas, id, reg.workers[id].partitions))
  }

  /** `removerParticionesDeWorker`: undo a tentative assignment. A missing id or list
      (`null`) is a no-op; the worker map is never touched. */
  function RemoveTentative(reg: Registry, id: Option<string>, parts: Option<seq<string>>): (r: Registry)
    ensures id.None? || parts.None? ==> r == reg
    ensures r.workers == reg.workers
    ensures r.replicas.Keys <= reg.replicas.Keys
    ensures r.(replicas := reg.replicas) == reg
  {
    if id.None? || parts.None? then reg
    else reg.(replicas := DropAll(reg.replicas, id.value, parts.value))
  }

  // ---------------------------------------------------------------------------
  // Assignment
  // ---------------------------------------------------------------------------

  /** What a joining worker is offered: partition ids in offering order and their seed data. */
  datatype Offer = Offer(parts: seq<string>, data: map<string, seq<Record>>)

  /** A partition is offered to `id` when `id` does not already hold it, fewer than
      `MaxReplicas` workers do, and it has non-empty seed data. */
  predicate Eligible(reg: Registry, id: string, p: string) {
    var ws := ListOf(reg.replicas, p);
    id !in ws && |ws| < MaxReplicas && p in reg.data && reg.data[p] != []
  }

  /** `asignarParticionesAWorker`, walking the partition ids in `order` (the shuffled
      key set). Reads the registry only: assignment reserves nothing. */
  function Assign(reg: Registry, id: string, order: seq<string>): (r: Offer)
    ensures forall p :: p in r.parts <==> p in order && Eligible(reg, id, p)
    ensures r.data.Keys == set p | p in r.parts
    ensures forall p :: p in r.data ==> p in reg.data && r.data[p] == reg.data[p]
    ensures NoDup(order) ==> NoDup(r.parts)
    decreases |order|
  {
    if order == [] then Offer([], map[])
    else
      var rest := Assign(reg, id, order[1..]);
      var p := order[0];
      if Eligible(reg, id, p) then
        assert NoDup(order) ==> p !in order[1..];
        Offer([p] + rest.parts, rest.data[p := reg.data[p]])
      else rest
  }

  // ---------------------------------------------------------------------------
  // Transaction ids
  // ---------------------------------------------------------------------------

  /** `generarIdTransaccionGlobal` (`AtomicInteger.incrementAndGet`): the counter advances
      by one, wrapping from `Integer.MAX_VALUE` to `Integer.MIN_VALUE`, and the new value
      is the id handed out. */
  function NextTxId(reg: Registry): (r: (int, Registry))
    requires Text.MinInt32 <= reg.txCounter <= Text.MaxInt32
    ensures Text.MinInt32 <= r.0 <= Text.MaxInt32
    ensures r.1 == reg.(txCounter := r.0)
    ensures reg.txCounter < Text.MaxInt32 ==> r.0 == reg.txCounter + 1
    ensures reg.txCounter == Text.MaxInt32 ==> r.0 == Text.MinInt32
  {
    var next := if reg.txCounter == Text.MaxInt32 then Text.MinInt32 else reg.txCounter + 1;
    (next, reg.(txCounter := next))
  }
}

/** Properties of the registry operations: the exact effect of registration and
    removal on the replica lists, the invariants they keep, the replica bound,
    the stale-membership defect of re-registration and its corrected form, and
    the order of transaction ids. */
module RegistryProps {
  import opened Wrappers
  import opened Lists
  import opened Info
  import opened Registry
  import Text

  predicate ListsNoDup(m: Replicas) {
    forall p :: p in m ==> NoDup(m[p])
  }

  /** The registration loop leaves, for every partition in `parts`, exactly the
      previous other holders in their old order followed by `id`. */
  lemma {:induction false} EnrollAllExact(m: Replicas, id: string, parts: seq<string>)
    requires ListsNoDup(m)
    ensures ListsNoDup(EnrollAll(m, id, parts))
    ensures forall p :: p in parts ==> EnrollAll(m, id, parts)[p] == Without(ListOf(m, p), id) + [id]
    decreases |parts|
  {
    if parts != [] {
      var p0 := parts[0];
      var l := ListOf(m, p0);
      var m1 := m[p0 := RemoveFirst(l, id) + [id]];
      RemoveFirstIsWithout(l, id);
      WithoutNoDup(l, id);
      AppendFreshNoDup(Without(l, id), id);
      assert ListsNoDup(m1);
      EnrollAllExact(m1, id, parts[1..]);
      var r := EnrollAll(m, id, parts);
      assert r == EnrollAll(m1, id, parts[1..]);
      forall p | p in parts
        ensures r[p] == Without(ListOf(m, p), id) + [id]
      {
        if p == p0 {
          if p0 in parts[1..] {
            WithoutThenAppend(l, id);
          }
        } else {
          assert p in parts[1..];
        }
      }
    }
  }

  /** The removal loop leaves, for every partition in `parts` that survives, exactly its
      previous list without `id`, and drops the partitions whose list became empty. */
  lemma {:induction false} DropAllExact(m: Replicas, id: string, parts: seq<string>)
    requires ListsNoDup(m)
    ensures ListsNoDup(DropAll(m, id, parts))
    ensures forall p :: p in parts ==>
      (p in DropAll(m, id, parts) <==> p in m && Without(m[p], id) != [])
    ensures forall p :: p in parts && p in DropAll(m, id, parts) ==>
      DropAll(m, id, parts)[p] == Without(m[p], id)
    decreases |parts|
  {
    if parts != [] {
      var p0 := parts[0];
      var m1 := Drop(m, id, p0);
      if p0 in m {
        RemoveFirstIsWithout(m[p0], id);
        WithoutNoDup(m[p0], id);
      }
      assert ListsNoDup(m1);
      DropAllExact(m1, id, parts[1..]);
      var r := DropAll(m, id, parts);
      assert r == DropAll(m1, id, parts[1..]);
      forall p | p in parts
        ensures (p in r <==> p in m && Without(m[p], id) != [])
        ensures p in r ==> r[p] == Without(m[p], id)
      {
        if p == p0 && p0 in parts[1..] && p0 in m1 {
          WithoutAbsent(m1[p0], id);
        } else if p != p0 {
          assert p in parts[1..];
        }
      }
    }
  }

  /** Registration keeps the registry well formed and places the worker exactly once,
      last, in the list of every partition it was given; other holders keep their order. */
  lemma RegisterExact(reg: Registry, info: InfoWorker, parts: seq<string>)
    requires WellFormed(reg)
    ensures WellFormed(Register(reg, info, parts))
    ensures forall p :: p in parts ==>
      Register(reg, info, parts).replicas[p] == Without(ListOf(reg.replicas, p), info.id) + [info.id]
  {
    EnrollAllExact(reg.replicas, info.id, parts);
  }

  /** Deregistration keeps the registry well formed and removes the worker from the
      list of every partition it recorded, dropping lists that become empty. */
  lemma DeregisterExact(reg: Registry, id: string)
    requires WellFormed(reg) && id in reg.workers
    ensures WellFormed(Deregister(reg, id))
    ensures forall p :: p in reg.workers[id].partitions ==>
      (p in Deregister(reg, id).replicas <==> p in reg.replicas && Without(reg.replicas[p], id) != [])
    ensures forall p :: p in reg.workers[id].partitions && p in Deregister(reg, id).replicas ==>
      Deregister(reg, id).replicas[p] == Without(reg.replicas[p], id)
  {
    DropAllExact(reg.replicas, id, reg.workers[id].partitions);
  }

  /** On a consistent registry, deregistration leaves no list naming the worker and
      keeps the registry consistent: no partition points at a worker that is gone. */
  lemma DeregisterConsistent(reg: Registry, id: string)
    requires WellFormed(reg) && Consistent(reg)
    ensures WellFormed(Deregister(reg, id)) && Consistent(Deregister(reg, id))
    ensures forall p :: p in Deregister(reg, id).replicas ==> id !in Deregister(reg, id).replicas[p]
  {
    if id in reg.workers {
      var recorded := reg.workers[id].partitions;
      var r := Deregister(reg, id);
      DeregisterExact(reg, id);
      forall p, w | p in r.replicas && w in r.replicas[p]
        ensures w != id && w in r.workers && p in r.workers[w].partitions
      {
        if p !in recorded {
          assert r.replicas[p] == reg.replicas[p];
        }
      }
    }
  }

  /** Undoing a tentative assignment keeps the registry well formed and consistent. */
  lemma RemoveTentativeConsistent(reg: Registry, id: Option<string>, parts: Option<seq<string>>)
    requires WellFormed(reg) && Consistent(reg)
    ensures WellFormed(RemoveTentative(reg, id, parts)) && Consistent(RemoveTentative(reg, id, parts))
    ensures id.Some? && parts.Some? ==>
      forall p :: p in parts.value && p in RemoveTentative(reg, id, parts).replicas ==>
        id.value !in RemoveTentative(reg, id, parts).replicas[p]
  {
    if id.Some? && parts.Some? {
      var r := RemoveTentative(reg, id, parts);
      var x, ps := id.value, parts.value;
      assert ListsNoDup(reg.replicas);
      DropAllExact(reg.replicas, x, ps);
      forall p | p in r.replicas
        ensures NoDup(r.replicas[p]) && r.replicas[p] != []
        ensures forall w :: w in r.replicas[p] ==> w in reg.replicas[p]
      {
        if p in ps {
          assert r.replicas[p] == Without(reg.replicas[p], x);
        } else {
          assert r.replicas[p] == reg.replicas[p];
        }
      }
    }
  }

  /** First registration of a worker keeps the registry consistent. */
  lemma RegisterFreshConsistent(reg: Registry, info: InfoWorker, parts: seq<string>)
    requires WellFormed(reg) && Consistent(reg) && info.id !in reg.workers
    ensures Consistent(Register(reg, info, parts))
  {
    var r := Register(reg, info, parts);
    RegisterExact(reg, info, parts);
    forall p, w | p in r.replicas && w in r.replicas[p]
      ensures w in r.workers && p in r.workers[w].partitions
    {
      if p in parts {
        if w != info.id {
          assert w in ListOf(reg.replicas, p);
        }
      } else {
        assert r.replicas[p] == reg.replicas[p];
      }
    }
  }

  /** Sequential assignment followed by registration never exceeds the replica bound. */
  lemma AssignThenRegisterBound(reg: Registry, info: InfoWorker, order: seq<string>)
    requires WellFormed(reg)
    requires forall p :: p in reg.replicas ==> |reg.replicas[p]| <= MaxReplicas
    ensures forall p :: p in Register(reg, info, Assign(reg, info.id, order).parts).replicas ==>
      |Register(reg, info, Assign(reg, info.id, order).parts).replicas[p]| <= MaxReplicas
  {
    var parts := Assign(reg, info.id, order).parts;
    var r := Register(reg, info, parts);
    RegisterExact(reg, info, parts);
    forall p | p in r.replicas
      ensures |r.replicas[p]| <= MaxReplicas
    {
      if p in parts {
        WithoutAbsent(ListOf(reg.replicas, p), info.id);
      }
    }
  }

  /** Assignment reserves nothing, so two handshakes that both assign before either
      registers can push a partition past the replica bound. */
  lemma AssignRaceExceedsBound()
    ensures var reg := Registry(map[], map["P" := ["a", "b"]], map[], map[],
                                map["P" := [AccountRec(1, 1, 100, "Ahorros")]], 0);
            var c := NewInfo("c", "h", 1, [], 0);
            var d := NewInfo("d", "h", 2, [], 0);
            var offerC := Assign(reg, "c", ["P"]);
            var offerD := Assign(reg, "d", ["P"]);
            |Register(Register(reg, c, offerC.parts), d, offerD.parts).replicas["P"]| == MaxReplicas + 1
  {
    var reg := Registry(map[], map["P" := ["a", "b"]], map[], map[],
                        map["P" := [AccountRec(1, 1, 100, "Ahorros")]], 0);
    var c := NewInfo("c", "h", 1, [], 0);
    var d := NewInfo("d", "h", 2, [], 0);
    assert Eligible(reg, "c", "P") && Eligible(reg, "d", "P");
    assert Assign(reg, "c", ["P"]).parts == ["P"];
    assert Assign(reg, "d", ["P"]).parts == ["P"];
    var r1 := Register(reg, c, ["P"]);
    assert r1.replicas["P"] == ["a", "b", "c"];
    assert Register(r1, d, ["P"]).replicas["P"] == ["a", "b", "c", "d"];
  }

  // ---------------------------------------------------------------------------
  // Re-registration: as written and corrected
  // ---------------------------------------------------------------------------

  /** Re-registering a worker with a different partition list leaves it in the lists of
      partitions it no longer records; deregistering it afterwards leaves those lists
      pointing at a worker that is not registered at all. */
  lemma RegisterLeavesStale()
    ensures var reg0 := Registry(map[], map[], map[], map[], map[], 0);
            var w := NewInfo("w1", "h", 1, [], 0);
            var reg1 := Register(reg0, w, ["P1"]);
            var reg2 := Register(reg1, w, ["P2"]);
            var reg3 := Deregister(reg2, "w1");
            && Consistent(reg1) && !Consistent(reg2)
            && "P1" in reg3.replicas && "w1" in reg3.replicas["P1"] && "w1" !in reg3.workers
  {
    var reg0 := Registry(map[], map[], map[], map[], map[], 0);
    var w := NewInfo("w1", "h", 1, [], 0);
    var empty: Replicas := map[];
    assert ListOf(empty, "P1") == [];
    assert RemoveFirst([], "w1") == [];
    var e := empty["P1" := RemoveFirst([], "w1") + ["w1"]];
    assert e.Keys == {"P1"} && e["P1"] == ["w1"];
    var reg1 := Register(reg0, w, ["P1"]);
    assert reg1.replicas == EnrollAll(e, "w1", []);
    assert reg1.replicas.Keys == {"P1"} && reg1.replicas["P1"] == ["w1"];
    var reg2 := Register(reg1, w, ["P2"]);
    assert reg2.replicas["P1"] == ["w1"];
    assert reg2.workers["w1"].partitions == ["P2"];
    var reg3 := Deregister(reg2, "w1");
    assert reg3.replicas["P1"] == ["w1"];
  }

  /** Corrected registration keeps the registry well formed and consistent, and the
      worker is listed for a partition exactly when the partition is among `parts`. */
  lemma RegisterFixedConsistent(reg: Registry, info: InfoWorker, parts: seq<string>)
    requires WellFormed(reg) && Consistent(reg)
    ensures WellFormed(RegisterFixed(reg, info, parts)) && Consistent(RegisterFixed(reg, info, parts))
    ensures forall p :: p in RegisterFixed(reg, info, parts).replicas ==>
      (info.id in RegisterFixed(reg, info, parts).replicas[p] <==> p in parts)
  {
    var id := info.id;
    var m := Purge(reg.replicas, id);
    forall p | p in m ensures NoDup(m[p]) {
      WithoutNoDup(reg.replicas[p], id);
    }
    EnrollAllExact(m, id, parts);
    var r := RegisterFixed(reg, info, parts);
    forall p, w | p in r.replicas && w in r.replicas[p]
      ensures w in r.workers && p in r.workers[w].partitions
    {
      if w != id {
        if p in parts {
          assert w in ListOf(m, p);
        } else {
          assert r.replicas[p] == m[p];
        }
        assert w in reg.replicas[p];
      }
    }
  }

  /** On a worker's first registration the corrected and the original registration agree. */
  lemma RegisterFixedAgreesOnFresh(reg: Registry, info: InfoWorker, parts: seq<string>)
    requires WellFormed(reg) && Consistent(reg) && info.id !in reg.workers
    ensures RegisterFixed(reg, info, parts) == Register(reg, info, parts)
  {
    var m := Purge(reg.replicas, info.id);
    forall p | p in reg.replicas ensures p in m && m[p] == reg.replicas[p] {
      WithoutAbsent(reg.replicas[p], info.id);
    }
    assert m == reg.replicas;
  }

  // ---------------------------------------------------------------------------
  // Transaction ids
  // ---------------------------------------------------------------------------

  /** The ids handed out by `n` successive calls of `NextTxId`, and the final registry. */
  function IssueIds(reg: Registry, n: nat): (r: (seq<int>, Registry))
    requires Text.MinInt32 <= reg.txCounter <= Text.MaxInt32
    ensures |r.0| == n
    ensures Text.MinInt32 <= r.1.txCounter <= Text.MaxInt32
    decreases n
  {
    if n == 0 then ([], reg)
    else
      var (id, reg1) := NextTxId(reg);
      var (ids, reg2) := IssueIds(reg1, n - 1);
      ([id] + ids, reg2)
  }

  /** Until the counter reaches `Integer.MAX_VALUE`, successive ids are consecutive and
      strictly increasing, so no id is handed out twice; from a fresh counter they are 1, 2, 3, ... */
  lemma {:induction false} TxIdsIncrease(reg: Registry, n: nat)
    requires 0 <= reg.txCounter && reg.txCounter + n <= Text.MaxInt32
    ensures forall i :: 0 <= i < n ==> IssueIds(reg, n).0[i] == reg.txCounter + i + 1
    ensures forall i, j :: 0 <= i < j < n ==> IssueIds(reg, n).0[i] < IssueIds(reg, n).0[j]
    decreases n
  {
    if n > 0 {
      var (id, reg1) := NextTxId(reg);
      TxIdsIncrease(reg1, n - 1);
    }
  }
}

=== FILE: store.dfy ===
/** The partition files a worker keeps (`<partition>.txt`), seen as the workers parse
    them: each line is split on `|`; what matters is how many fields it has, whether
    field 0 parses as an account id, whether field 2 parses as a balance and whether
    the fourth field (the account type) is blank. Line 0 is the header and is never
    interpreted. The reader, the one- and two-row rewriters and the partition sum are
    shared by the Java and Python workers; the rewriters differ only in what a rewritten
    line looks like to the worker's next split. */
module Store {
  import opened Wrappers

  /** How a worker splits a line. Java's `split("\\|")` drops trailing empty fields;
      Python's `strip().split("|")` keeps them. */
  datatype Split = JavaSplit | PySplit

  /** The parsed view of one line, as the worker that owns the file splits it: the number
      of fields, the id in field 0, the balance in field 2, and whether the text has a
      fourth field that is empty or all blanks (`blankType`). */
  datatype Line = Line(fields: nat, id: Option<int>, balance: Option<int>, blankType: bool)

  /** A partition file, header first. */
  type Table = seq<Line>

  /** A worker's data directory: partition id to file; a missing key is a missing file. */
  type Files = map<string, Table>

  /** The lines after the header. */
  function Body(t: Table): (r: seq<Line>)
    ensures |t| > 0 ==> r == t[1..]
    ensures |t| == 0 ==> r == []
  {
    if |t| == 0 then [] else t[1..]
  }

  /** A line the balance reader answers from for account `id`: at least three fields, an
      id that parses to `id` and a balance that parses. */
  predicate Readable(l: Line, id: int) {
    l.fields >= 3 && l.id == Some(id) && l.balance.Some?
  }

  /** A line the rewriters replace for account `id`: at least four fields and an id that
      parses to `id`. */
  predicate Writable(l: Line, id: int) {
    l.fields >= 4 && l.id == Some(id)
  }

  /** Whether the line still has four fields after this worker rewrites it. The Java
      rewriter writes the trimmed type, so a blank type leaves the line ending in `|`,
      and the next Java split drops that empty field. The Python rewriter's split keeps it. */
  predicate KeepsFourth(l: Line, sp: Split) {
    sp.PySplit? || !l.blankType
  }

  /** No line has a blank account type. */
  predicate Typed(rows: seq<Line>) {
    forall i :: 0 <= i < |rows| ==> !rows[i].blankType
  }

  /** The line written back in place of a matched one: same id and type, the new balance,
      and field 0, 1, the balance and the type as the only fields. The reader always finds
      it; the rewriter finds it again exactly when it kept its fourth field. */
  function Rewrite(sp: Split, l: Line, nb: int): (r: Line)
    ensures r.id == l.id && r.balance == Some(nb) && r.blankType == l.blankType
    ensures l.id.Some? ==> Readable(r, l.id.value) && (Writable(r, l.id.value) <==> KeepsFourth(l, sp))
    ensures r.fields <= 4
  {
    Line(if KeepsFourth(l, sp) then 4 else 3, l.id, Some(nb), l.blankType)
  }

  // ---------------------------------------------------------------------------
  // Reading
  // ---------------------------------------------------------------------------

  /** The balance on the first readable line for `id`; lines that do not parse are skipped. */
  function ReadRows(rows: seq<Line>, id: int): Option<int> {
    if rows == [] then None
    else if Readable(rows[0], id) then rows[0].balance
    else ReadRows(rows[1..], id)
  }

  /** The reader finds nothing exactly when no line is readable for `id`, and otherwise
      answers with the balance of the first readable line. */
  lemma {:induction false} ReadRowsSpec(rows: seq<Line>, id: int)
    ensures ReadRows(rows, id).None? <==> forall i :: 0 <= i < |rows| ==> !Readable(rows[i], id)
    ensures ReadRows(rows, id).Some? ==>
      exists i :: 0 <= i < |rows| && Readable(rows[i], id) && rows[i].balance == ReadRows(rows, id) &&
        forall k :: 0 <= k < i ==> !Readable(rows[k], id)
  {
    if rows != [] && !Readable(rows[0], id) {
      ReadRowsSpec(rows[1..], id);
      assert forall k :: 0 <= k < |rows| - 1 ==> rows[1..][k] == rows[k + 1];
      if ReadRows(rows, id).Some? {
        var i :| 0 <= i < |rows[1..]| && Readable(rows[1..][i], id) && rows[1..][i].balance == ReadRows(rows, id) &&
                 forall k :: 0 <= k < i ==> !Readable(rows[1..][k], id);
        assert Readable(rows[i + 1], id) && forall k :: 0 <= k < i + 1 ==> !Readable(rows[k], id);
      }
    }
  }

  /** `leerSaldoDeArchivo` / `_leer_saldo_archivo`: a missing file or no readable line is `None`. */
  function ReadBalance(files: Files, p: string, id: int): Option<int> {
    if p in files then ReadRows(Body(files[p]), id) else None
  }

  // ---------------------------------------------------------------------------
  // Rewriting
  // ---------------------------------------------------------------------------

  /** Every line writable for `id` replaced by its rewrite; all other lines kept. */
  function RewriteRows(sp: Split, rows: seq<Line>, id: int, nb: int): (r: seq<Line>)
    ensures |r| == |rows|
    ensures forall i :: 0 <= i < |rows| ==> r[i] == if Writable(rows[i], id) then Rewrite(sp, rows[i], nb) else rows[i]
  {
    if rows == [] then [] else [if Writable(rows[0], id) then Rewrite(sp, rows[0], nb) else rows[0]] + RewriteRows(sp, rows[1..], id, nb)
  }

  predicate HasWritable(rows: seq<Line>, id: int) {
    exists i :: 0 <= i < |rows| && Writable(rows[i], id)
  }

  /** `actualizarSaldoUnicaCuentaEnArchivo` / `_actualizar_saldo_unica_cuenta`: rewrite every
      matching line with balance `nb`; fails (`None`, file untouched) when the file is
      missing or no line matches. */
  function UpdateOne(sp: Split, files: Files, p: string, id: int, nb: int): (r: Option<Files>)
    ensures r.Some? <==> p in files && HasWritable(Body(files[p]), id)
    ensures r.Some? ==> r.value == files[p := [files[p][0]] + RewriteRows(sp, Body(files[p]), id, nb)]
  {
    if p in files && HasWritable(Body(files[p]), id) then
      Some(files[p := [files[p][0]] + RewriteRows(sp, Body(files[p]), id, nb)])
    else None
  }

  /** The two-row rewrite of the intra-partition transfer: a line is rewritten for the
      origin when its id is `o`, otherwise for the destination when its id is `d`. */
  function RewriteTwo(sp: Split, rows: seq<Line>, o: int, nO: int, d: int, nD: int): (r: seq<Line>)
    ensures |r| == |rows|
  {
    if rows == [] then []
    else
      var l := rows[0];
      [if Writable(l, o) then Rewrite(sp, l, nO) else if Writable(l, d) then Rewrite(sp, l, nD) else l]
        + RewriteTwo(sp, rows[1..], o, nO, d, nD)
  }

  /** Some line is rewritten through the destination branch (its id is `d` and not `o`). */
  predicate DestinationRewritten(rows: seq<Line>, o: int, d: int) {
    exists i :: 0 <= i < |rows| && Writable(rows[i], d) && !Writable(rows[i], o)
  }

  /** `actualizarSaldosEnArchivo` (Java): fails when the file is missing, or when an account
      other than the sentinel `-1` was not rewritten. */
  function UpdateTwoJava(files: Files, p: string, o: int, nO: int, d: int, nD: int): (r: Option<Files>)
    ensures r.Some? <==> (p in files && (HasWritable(Body(files[p]), o) || o == -1) &&
                          (DestinationRewritten(Body(files[p]), o, d) || d == -1))
  {
    if p !in files then None
    else
      var rows := Body(files[p]);
      if (!HasWritable(rows, o) && o != -1) || (!DestinationRewritten(rows, o, d) && d != -1) then None
      else Some(files[p := Take1(files[p]) + RewriteTwo(JavaSplit, rows, o, nO, d, nD)])
  }

  /** `_actualizar_saldos_archivo` (Python): no sentinel, both rows must be rewritten. */
  function UpdateTwoPy(files: Files, p: string, o: int, nO: int, d: int, nD: int): (r: Option<Files>)
    ensures r.Some? <==> (p in files && HasWritable(Body(files[p]), o) && DestinationRewritten(Body(files[p]), o, d))
  {
    if p !in files then None
    else
      var rows := Body(files[p]);
      if !HasWritable(rows, o) || !DestinationRewritten(rows, o, d) then None
      else Some(files[p := Take1(files[p]) + RewriteTwo(PySplit, rows, o, nO, d, nD)])
  }

  /** The header, if the file has one. */
  function Take1(t: Table): (r: Table)
    ensures |r| == if |t| == 0 then 0 else 1
    ensures r + Body(t) == t
  {
    if |t| == 0 then [] else [t[0]]
  }

  // ---------------------------------------------------------------------------
  // Summing
  // ---------------------------------------------------------------------------

  /** What a line adds to the partition sum: its balance when it has three fields and the
      balance parses, nothing otherwise. */
  function Contribution(l: Line): int {
    if l.fields >= 3 && l.balance.Some? then l.balance.value else 0
  }

  /** The `CALCULAR_SALDO_PARTICION` loop over the lines after the header. */
  function SumRows(rows: seq<Line>): int {
    if rows == [] then 0 else Contribution(rows[0]) + SumRows(rows[1..])
  }

  function PartitionSum(t: Table): int {
    SumRows(Body(t))
  }
}

/** What the file operations guarantee: a rewrite is read back, leaves every other
    account alone, is idempotent, and changes the partition sum by exactly the
    difference between the new and the old balance. Whether it can be repeated depends
    on the account type: a Java rewrite of a line with a blank type leaves a line the
    reader still finds but the rewriter no longer matches. */
module StoreProps {
  import opened Wrappers
  import opened Store

  /** No account id occurs on two lines. */
  predicate Unique(rows: seq<Line>) {
    forall i, j :: 0 <= i < j < |rows| && rows[i].id.Some? ==> rows[i].id != rows[j].id
  }

  /** Every line of account `x` has four fields and a balance that parses. */
  predicate Full(rows: seq<Line>, x: int) {
    forall i :: 0 <= i < |rows| && rows[i].id == Some(x) ==> rows[i].fields >= 4 && rows[i].balance.Some?
  }

  /** A well-kept file body: every line whose id parses has four fields and a balance
      that parses, and no account id occurs on two lines (what the workers write). */
  predicate Tidy(rows: seq<Line>) {
    && (forall i :: 0 <= i < |rows| && rows[i].id.Some? ==> rows[i].fields >= 4 && rows[i].balance.Some?)
    && Unique(rows)
  }

  /** No line the reader would answer from for `id` is left out by the rewriter. */
  predicate NoShortRow(rows: seq<Line>, id: int) {
    forall i :: 0 <= i < |rows| && Readable(rows[i], id) ==> Writable(rows[i], id)
  }

  /** Every line the rewriter replaces for `id` keeps its fourth field. */
  predicate AllKeepFourth(sp: Split, rows: seq<Line>, id: int) {
    forall i :: 0 <= i < |rows| && Writable(rows[i], id) ==> KeepsFourth(rows[i], sp)
  }

  /** Some line the rewriter replaces for `id` keeps its fourth field. */
  predicate SomeKeepsFourth(sp: Split, rows: seq<Line>, id: int) {
    exists i :: 0 <= i < |rows| && Writable(rows[i], id) && KeepsFourth(rows[i], sp)
  }

  /** Two bodies that agree, line by line, on what the reader sees for `x` read the same. */
  lemma {:induction false} ReadRowsAgree(a: seq<Line>, b: seq<Line>, x: int)
    requires |a| == |b|
    requires forall i :: 0 <= i < |a| ==> (Readable(a[i], x) <==> Readable(b[i], x))
    requires forall i :: 0 <= i < |a| && Readable(a[i], x) ==> a[i].balance == b[i].balance
    ensures ReadRows(a, x) == ReadRows(b, x)
  {
    if a != [] {
      ReadRowsAgree(a[1..], b[1..], x);
    }
  }

  /** Read after write on a body: once the account's lines are rewritten the reader
      returns the new balance. */
  lemma ReadAfterRewrite(sp: Split, rows: seq<Line>, id: int, nb: int)
    requires HasWritable(rows, id) && NoShortRow(rows, id)
    ensures ReadRows(RewriteRows(sp, rows, id, nb), id) == Some(nb)
  {
    var rows' := RewriteRows(sp, rows, id, nb);
    var k :| 0 <= k < |rows| && Writable(rows[k], id);
    assert Readable(rows'[k], id);
    ReadRowsSpec(rows', id);
    var r := ReadRows(rows', id);
    var i :| 0 <= i < |rows'| && Readable(rows'[i], id) && rows'[i].balance == r;
    assert Writable(rows[i], id);
  }

  /** Rewriting one account leaves what the reader sees for every other account unchanged. */
  lemma ReadFrameRewrite(sp: Split, rows: seq<Line>, id: int, nb: int, x: int)
    requires x != id
    ensures ReadRows(RewriteRows(sp, rows, id, nb), x) == ReadRows(rows, x)
  {
    ReadRowsAgree(rows, RewriteRows(sp, rows, id, nb), x);
  }

  /** Read after write on the files: a successful update is read back. */
  lemma UpdateThenRead(sp: Split, files: Files, p: string, id: int, nb: int)
    requires UpdateOne(sp, files, p, id, nb).Some?
    requires NoShortRow(Body(files[p]), id)
    ensures ReadBalance(UpdateOne(sp, files, p, id, nb).value, p, id) == Some(nb)
  {
    assert Body(UpdateOne(sp, files, p, id, nb).value[p]) == RewriteRows(sp, Body(files[p]), id, nb);
    ReadAfterRewrite(sp, Body(files[p]), id, nb);
  }

  /** Write frame on the files: every other account of the partition, and every other
      partition file, reads as before. */
  lemma UpdateFrame(sp: Split, files: Files, p: string, id: int, nb: int, q: string, x: int)
    requires UpdateOne(sp, files, p, id, nb).Some?
    requires x != id || q != p
    ensures ReadBalance(UpdateOne(sp, files, p, id, nb).value, q, x) == ReadBalance(files, q, x)
  {
    if q == p {
      assert Body(UpdateOne(sp, files, p, id, nb).value[p]) == RewriteRows(sp, Body(files[p]), id, nb);
      ReadFrameRewrite(sp, Body(files[p]), id, nb, x);
    }
  }

  /** After a successful update the account can be updated again exactly when one of its
      lines kept its fourth field; a file with no short line for it still has none
      exactly when all of them did. */
  lemma UpdateAgain(sp: Split, files: Files, p: string, id: int, nb: int, nb2: int)
    requires UpdateOne(sp, files, p, id, nb).Some?
    ensures UpdateOne(sp, UpdateOne(sp, files, p, id, nb).value, p, id, nb2).Some? <==>
            SomeKeepsFourth(sp, Body(files[p]), id)
    ensures NoShortRow(Body(files[p]), id) ==>
              (NoShortRow(Body(UpdateOne(sp, files, p, id, nb).value[p]), id) <==> AllKeepFourth(sp, Body(files[p]), id))
  {
    var rows := Body(files[p]);
    var rows1 := RewriteRows(sp, rows, id, nb);
    assert Body(UpdateOne(sp, files, p, id, nb).value[p]) == rows1;
    RewriteKeepsWritable(sp, rows, id, nb);
    if NoShortRow(rows, id) {
      if NoShortRow(rows1, id) {
        forall i | 0 <= i < |rows| && Writable(rows[i], id) ensures KeepsFourth(rows[i], sp) {
          assert Readable(rows1[i], id);
        }
      }
      if AllKeepFourth(sp, rows, id) {
        forall i | 0 <= i < |rows1| && Readable(rows1[i], id) ensures Writable(rows1[i], id) {
          if !Writable(rows[i], id) {
            assert rows1[i] == rows[i];
          }
        }
      }
    }
  }

  /** A header put back in front of a body: the header is line 0 and the body follows. */
  lemma HeaderThen(h: Line, rows: seq<Line>)
    ensures ([h] + rows)[0] == h && Body([h] + rows) == rows
  {
  }

  /** After a rewrite the account still has a writable line exactly when one of its
      rewritten lines kept its fourth field. */
  lemma RewriteKeepsWritable(sp: Split, rows: seq<Line>, id: int, nb: int)
    ensures HasWritable(RewriteRows(sp, rows, id, nb), id) <==> SomeKeepsFourth(sp, rows, id)
  {
    var rows1 := RewriteRows(sp, rows, id, nb);
    if HasWritable(rows1, id) {
      var k :| 0 <= k < |rows1| && Writable(rows1[k], id);
      assert Writable(rows[k], id) && KeepsFourth(rows[k], sp);
    }
    if SomeKeepsFourth(sp, rows, id) {
      var k :| 0 <= k < |rows| && Writable(rows[k], id) && KeepsFourth(rows[k], sp);
      assert Writable(rows1[k], id);
    }
  }

  /** Applying the same update twice leaves the files as applying it once, provided one of
      the account's lines kept its fourth field; otherwise the second update fails. */
  lemma UpdateIdempotent(sp: Split, files: Files, p: string, id: int, nb: int)
    requires UpdateOne(sp, files, p, id, nb).Some?
    ensures UpdateOne(sp, UpdateOne(sp, files, p, id, nb).value, p, id, nb) ==
            if SomeKeepsFourth(sp, Body(files[p]), id) then UpdateOne(sp, files, p, id, nb) else None
  {
    var t := files[p];
    var rows1 := RewriteRows(sp, Body(t), id, nb);
    var t1 := [t[0]] + rows1;
    HeaderThen(t[0], rows1);
    RewriteKeepsWritable(sp, Body(t), id, nb);
    RewriteRowsIdempotent(sp, Body(t), id, nb);
    assert files[p := t1][p := t1] == files[p := t1];
  }

  /** Rewriting twice with the same balance is rewriting once: a line that kept its fourth
      field is rewritten to itself, and one that lost it is no longer matched. */
  lemma RewriteRowsIdempotent(sp: Split, rows: seq<Line>, id: int, nb: int)
    ensures RewriteRows(sp, RewriteRows(sp, rows, id, nb), id, nb) == RewriteRows(sp, rows, id, nb)
  {
    var rows1 := RewriteRows(sp, rows, id, nb);
    assert forall i :: 0 <= i < |rows1| ==> RewriteRows(sp, rows1, id, nb)[i] == rows1[i];
  }

  /** How many lines are writable for `id`, and the sum of what they contribute. */
  function WCount(rows: seq<Line>, id: int): nat {
    if rows == [] then 0 else (if Writable(rows[0], id) then 1 else 0) + WCount(rows[1..], id)
  }

  function WSum(rows: seq<Line>, id: int): int {
    if rows == [] then 0 else (if Writable(rows[0], id) then Contribution(rows[0]) else 0) + WSum(rows[1..], id)
  }

  /** Rewriting replaces the contribution of each rewritten line by the new balance. */
  lemma {:induction false} SumAfterRewrite(sp: Split, rows: seq<Line>, id: int, nb: int)
    ensures SumRows(RewriteRows(sp, rows, id, nb)) == SumRows(rows) + WCount(rows, id) * nb - WSum(rows, id)
  {
    if rows != [] {
      SumAfterRewrite(sp, rows[1..], id, nb);
      assert RewriteRows(sp, rows, id, nb)[1..] == RewriteRows(sp, rows[1..], id, nb);
    }
  }

  /** When an account has at most one line and that line is full, it has one writable line
      iff the reader finds it, and that line holds the balance read. */
  lemma {:induction false} TidySingleRow(rows: seq<Line>, id: int)
    requires Unique(rows) && Full(rows, id)
    ensures WCount(rows, id) == if ReadRows(rows, id).Some? then 1 else 0
    ensures WSum(rows, id) == ReadRows(rows, id).GetOr(0)
  {
    if rows != [] {
      assert Unique(rows[1..]) && Full(rows[1..], id) by {
        assert forall i :: 0 <= i < |rows| - 1 ==> rows[1..][i] == rows[i + 1];
      }
      TidySingleRow(rows[1..], id);
      if Writable(rows[0], id) {
        assert ReadRows(rows[1..], id).None? by {
          ReadRowsSpec(rows[1..], id);
          forall i | 0 <= i < |rows[1..]| ensures !Readable(rows[1..][i], id) {
            assert rows[1..][i] == rows[i + 1];
          }
        }
      }
    }
  }

  /** A rewrite never makes two lines share an id, leaves every other account's lines as
      they were, and leaves the account's own lines full exactly when they all kept their
      fourth field. */
  lemma RewriteFrameFull(sp: Split, rows: seq<Line>, id: int, nb: int)
    ensures Unique(rows) ==> Unique(RewriteRows(sp, rows, id, nb))
    ensures forall x :: x != id && Full(rows, x) ==> Full(RewriteRows(sp, rows, id, nb), x)
    ensures Full(rows, id) ==> (Full(RewriteRows(sp, rows, id, nb), id) <==> AllKeepFourth(sp, rows, id))
  {
    var rows1 := RewriteRows(sp, rows, id, nb);
    assert forall i :: 0 <= i < |rows| ==> rows1[i].id == rows[i].id;
    forall x | x != id && Full(rows, x) ensures Full(rows1, x) {
      forall i | 0 <= i < |rows1| && rows1[i].id == Some(x) ensures rows1[i].fields >= 4 && rows1[i].balance.Some? {
        assert rows1[i] == rows[i];
      }
    }
    if Full(rows, id) {
      if Full(rows1, id) {
        forall i | 0 <= i < |rows| && Writable(rows[i], id) ensures KeepsFourth(rows[i], sp) {
          assert rows1[i].id == Some(id);
        }
      }
      if AllKeepFourth(sp, rows, id) {
        forall i | 0 <= i < |rows1| && rows1[i].id == Some(id) ensures rows1[i].fields >= 4 && rows1[i].balance.Some? {
          assert Writable(rows[i], id);
        }
      }
    }
  }


  /** A rewrite keeps a tidy body tidy exactly when each rewritten line keeps its fourth
      field, and a tidy body has no short line the rewriter would miss. */
  lemma RewriteKeepsTidy(sp: Split, rows: seq<Line>, id: int, nb: int)
    requires Tidy(rows)
    ensures Tidy(RewriteRows(sp, rows, id, nb)) <==> AllKeepFourth(sp, rows, id)
    ensures forall x :: NoShortRow(rows, x)
  {
    var rows1 := RewriteRows(sp, rows, id, nb);
    RewriteFrameFull(sp, rows, id, nb);
    assert Full(rows, id);
    if Tidy(rows1) {
      assert Full(rows1, id);
    }
    if AllKeepFourth(sp, rows, id) {
      forall i | 0 <= i < |rows1| && rows1[i].id.Some? ensures rows1[i].fields >= 4 && rows1[i].balance.Some? {
        var x := rows1[i].id.value;
        assert Full(rows, x);
        assert Full(rows1, x);
      }
    }
  }

  /** With distinct accounts the two-row rewrite is two one-row rewrites in a row. */
  lemma {:induction false} RewriteTwoComposes(sp: Split, rows: seq<Line>, o: int, nO: int, d: int, nD: int)
    requires o != d
    ensures RewriteTwo(sp, rows, o, nO, d, nD) == RewriteRows(sp, RewriteRows(sp, rows, o, nO), d, nD)
    ensures DestinationRewritten(rows, o, d) <==> HasWritable(rows, d)
  {
    if rows != [] {
      RewriteTwoComposes(sp, rows[1..], o, nO, d, nD);
      assert RewriteRows(sp, rows, o, nO)[1..] == RewriteRows(sp, rows[1..], o, nO);
      assert RewriteRows(sp, RewriteRows(sp, rows, o, nO), d, nD)[1..] == RewriteRows(sp, RewriteRows(sp, rows[1..], o, nO), d, nD);
    }
  }

  /** On lines with no blank type the Java and Python rewriters write the same lines. */
  lemma {:induction false} TypedSplitsAgree(rows: seq<Line>, o: int, nO: int, d: int, nD: int)
    requires Typed(rows)
    ensures RewriteRows(JavaSplit, rows, o, nO) == RewriteRows(PySplit, rows, o, nO)
    ensures RewriteTwo(JavaSplit, rows, o, nO, d, nD) == RewriteTwo(PySplit, rows, o, nO, d, nD)
  {
    if rows != [] {
      assert Typed(rows[1..]) by {
        assert forall i :: 0 <= i < |rows| - 1 ==> rows[1..][i] == rows[i + 1];
      }
      TypedSplitsAgree(rows[1..], o, nO, d, nD);
      assert !rows[0].blankType;
    }
  }
}

=== FILE: text.dfy ===
/** Java and Python string primitives the core relies on, over `string = seq<char>`:
    `indexOf`, `startsWith`, `contains`, `trim`, `Integer.parseInt` and `String.valueOf`. */
module Text {
  import opened Wrappers

  /** Java's `Integer.MIN_VALUE` and `Integer.MAX_VALUE`. */
  const MinInt32: int := -0x8000_0000
  const MaxInt32: int := 0x7FFF_FFFF

  predicate IsDigit(c: char) { '0' <= c <= '9' }

  /** `s` starts with `p` (Java `startsWith`). */
  predicate StartsWith(s: string, p: string) {
    |p| <= |s| && s[..|p|] == p
  }

  /** `p` occurs in `s` at position `i`. */
  predicate OccursAt(s: string, p: string, i: int) {
    0 <= i && i + |p| <= |s| && s[i..i + |p|] == p
  }

  /** Java's `s.indexOf(p, from)`: the first occurrence of `p` at or after `from`. */
  function IndexOfFrom(s: string, p: string, from: nat): (r: Option<nat>)
    decreases |s| - from
    ensures r.Some? ==> from <= r.value && OccursAt(s, p, r.value)
    ensures r.Some? ==> forall j :: from <= j < r.value ==> !OccursAt(s, p, j)
    ensures r.None? ==> forall j :: from <= j ==> !OccursAt(s, p, j)
  {
    if from + |p| > |s| then None
    else if s[from..from + |p|] == p then Some(from)
    else IndexOfFrom(s, p, from + 1)
  }

  /** Java's `s.indexOf(p)`. */
  function IndexOf(s: string, p: string): (r: Option<nat>)
    ensures r.Some? ==> OccursAt(s, p, r.value)
    ensures r.Some? ==> forall j :: 0 <= j < r.value ==> !OccursAt(s, p, j)
    ensures r.None? ==> forall j :: 0 <= j ==> !OccursAt(s, p, j)
  {
    IndexOfFrom(s, p, 0)
  }

  /** Java's `s.contains(p)`. */
  predicate Contains(s: string, p: string) {
    IndexOf(s, p).Some?
  }

  /** A text found in `b` is still found after something is put in front of it. */
  lemma ContainsAfter(a: string, b: string, s: string)
    requires Contains(b, s)
    ensures Contains(a + b, s)
  {
    var i := IndexOf(b, s).value;
    assert (a + b)[|a| + i..|a| + i + |s|] == b[i..i + |s|];
    assert OccursAt(a + b, s, |a| + i);
  }

  /** A text is found at the front of anything it starts. */
  lemma ContainsFront(s: string, b: string)
    ensures Contains(s + b, s)
  {
    assert (s + b)[0..|s|] == s;
    assert OccursAt(s + b, s, 0);
  }

  /** Characters removed by Java's `String.trim` (every code point up to U+0020). */
  predicate IsBlank(c: char) { c <= ' ' }

  function TrimStart(s: string): (r: string)
    ensures |r| <= |s| && r == s[|s| - |r|..]
    ensures r == [] || !IsBlank(r[0])
    ensures forall i :: 0 <= i < |s| - |r| ==> IsBlank(s[i])
  {
    if |s| > 0 && IsBlank(s[0]) then TrimStart(s[1..]) else s
  }

  function TrimEnd(s: string): (r: string)
    ensures |r| <= |s| && r == s[..|r|]
    ensures r == [] || !IsBlank(r[|r| - 1])
    ensures forall i :: |r| <= i < |s| ==> IsBlank(s[i])
  {
    if |s| > 0 && IsBlank(s[|s| - 1]) then TrimEnd(s[..|s| - 1]) else s
  }

  /** Java's `String.trim`. */
  function Trim(s: string): string {
    TrimEnd(TrimStart(s))
  }

  /** The value of a non-empty run of decimal digits. */
  function DigitsValue(s: string): nat
    requires forall i :: 0 <= i < |s| ==> IsDigit(s[i])
  {
    if |s| == 0 then 0
    else
      assert IsDigit(s[|s| - 1]);
      DigitsValue(s[..|s| - 1]) * 10 + (s[|s| - 1] as int - '0' as int)
  }

  predicate AllDigits(s: string) {
    |s| > 0 && forall i :: 0 <= i < |s| ==> IsDigit(s[i])
  }

  /** Java's `Integer.parseInt`: an optional sign followed by decimal digits, whose value
      fits a 32-bit `int`; anything else is a `NumberFormatException` (`None`). */
  function ParseInt(s: string): (r: Option<int>)
    ensures r.Some? ==> MinInt32 <= r.value <= MaxInt32
    ensures r.Some? ==> |s| > 0
  {
    var neg := |s| > 0 && s[0] == '-';
    var body := if |s| > 0 && (s[0] == '-' || s[0] == '+') then s[1..] else s;
    if !AllDigits(body) then None
    else
      var d: int := DigitsValue(body);
      var v := if neg then -d else d;
      if MinInt32 <= v <= MaxInt32 then Some(v) else None
  }

  /** Decimal digits of a natural number, most significant first. */
  function NatToString(n: nat): (r: string)
    ensures AllDigits(r)
    ensures DigitsValue(r) == n
    decreases n
  {
    if n < 10 then [('0' as int + n) as char]
    else NatToString(n / 10) + [('0' as int + n % 10) as char]
  }

  /** Java's `String.valueOf` on an integer. */
  function IntToString(n: int): (r: string)
    ensures n >= 0 ==> AllDigits(r)
    ensures n < 0 ==> |r| > 1 && r[0] == '-' && AllDigits(r[1..])
  {
    if n >= 0 then NatToString(n) else "-" + NatToString(-n)
  }

  /** `IntToString` never produces the given separator character (any non-digit other than '-'). */
  lemma IntToStringHasNo(n: int, c: char)
    requires !IsDigit(c) && c != '-'
    ensures c !in IntToString(n)
  {
    var r := IntToString(n);
    if n < 0 {
      assert r == "-" + r[1..];
      assert forall i :: 0 <= i < |r[1..]| ==> IsDigit(r[1..][i]);
    }
  }

  /** `ParseInt` reads back every 32-bit value that `IntToString` writes. */
  lemma {:induction false} ParseIntToString(n: int)
    requires MinInt32 <= n <= MaxInt32
    ensures ParseInt(IntToString(n)) == Some(n)
  {
    var s := IntToString(n);
    if n >= 0 {
      assert s[0] != '-' && s[0] != '+' by { assert IsDigit(s[0]); }
    } else {
      assert s[1..] == NatToString(-n);
    }
  }
}

=== FILE: ts_worker.dfy ===
/** The partial TypeScript worker (`workernode-ts/src/NodoTrabajador.ts`): it stores the
    partition data it receives at registration, and of all operations it answers only
    the balance query. Its reader differs from the Java and Python ones in two ways: a
    line whose id matches but whose balance does not parse yields `NaN` instead of being
    skipped, and a missing account is `ERROR_CUENTA_NO_ENCONTRADA`. */
module TsWorker {
  import opened Wrappers
  import opened Messages
  import opened Store
  import opened Text
  import opened Registry
  import opened Partitioning
  import J = JavaWorker
  import Py = PyWorker

  /** The parsed view of the header lines the worker writes (`ID_CUENTA|ID_CLIENTE|SALDO|TIPO_CUENTA`,
      `ID_CLIENTE|NOMBRE|EMAIL|TELEFONO`): four fields, none of which parses as a number. */
  const Header := Line(4, None, None, false)

  /** The line an account partition gets for a record, its fourth field the account type
      as given; a record with no balance makes `saldo.toFixed` throw, which aborts the
      whole save. */
  function AccountLine(rec: Record): (r: Option<Line>)
    ensures r.Some? <==> rec.AccountRec?
    ensures r.Some? ==> r.value == Line(4, Some(rec.id), Some(rec.balance), Trim(rec.kind) == "")
  {
    match rec
    case AccountRec(id, _, balance, kind) => Some(Line(4, Some(id), Some(balance), Trim(kind) == ""))
    case ClientRec(_, _, _, _) => None
  }

  /** The line a client partition gets for a record: `idCliente|nombre|email|telefono`,
      whose third field (an e-mail address) is not a number. An account record there
      contributes its owner's id and three `undefined` fields. The fourth field is the
      phone number, blank when the phone is. */
  function ClientLine(rec: Record): (r: Line)
    ensures r.fields == 4 && r.balance.None?
    ensures r.id == Some(if rec.ClientRec? then rec.id else rec.owner)
    ensures r.blankType <==> rec.ClientRec? && Trim(rec.phone) == ""
  {
    match rec
    case ClientRec(id, _, _, phone) => Line(4, Some(id), None, Trim(phone) == "")
    case AccountRec(_, owner, _, _) => Line(4, Some(owner), None, false)
  }

  /** The account lines of a list of records, or `None` if some record is not an account. */
  function AccountLines(recs: seq<Record>): (r: Option<seq<Line>>)
    ensures r.Some? <==> forall k :: 0 <= k < |recs| ==> recs[k].AccountRec?
    ensures r.Some? ==> |r.value| == |recs|
    ensures r.Some? ==> forall k :: 0 <= k < |recs| ==> r.value[k] == Line(4, Some(recs[k].id), Some(recs[k].balance), Trim(recs[k].kind) == "")
  {
    if recs == [] then Some([])
    else
      match (AccountLine(recs[0]), AccountLines(recs[1..]))
      case (Some(l), Some(rest)) => Some([l] + rest)
      case _ => None
  }

  /** The file written for one partition: header plus one line per record for an account
      or client partition, and a lone empty line for any other name. */
  function FileFor(p: string, recs: seq<Record>): (r: Option<Table>)
    ensures !StartsWith(p, AccountPrefix) ==> r.Some?
    ensures StartsWith(p, AccountPrefix) ==> (r.Some? <==> AccountLines(recs).Some?)
    ensures StartsWith(p, AccountPrefix) && r.Some? ==> r.value == [Header] + AccountLines(recs).value
  {
    if StartsWith(p, AccountPrefix) then
      match AccountLines(recs)
      case Some(rows) => Some([Header] + rows)
      case None => None
    else if StartsWith(p, ClientPrefix) then
      Some([Header] + seq(|recs|, k requires 0 <= k < |recs| => ClientLine(recs[k])))
    else Some([Line(1, None, None, false)])
  }

  /** `guardarDatosDeParticiones`: write each listed partition that has data, in order;
      the first failing partition stops the loop and the result is `false`, with the
      files written before it kept. */
  function Save(files: Files, data: map<string, seq<Record>>, parts: seq<string>): (r: (bool, Files))
    ensures r.0 ==> forall k :: 0 <= k < |parts| && parts[k] in data ==>
      parts[k] in r.1 && FileFor(parts[k], data[parts[k]]) == Some(r.1[parts[k]])
    ensures forall p :: p in files && (p !in parts || p !in data) ==> p in r.1 && r.1[p] == files[p]
    ensures forall p :: p in r.1 ==> p in files || (p in parts && p in data)
    ensures !r.0 ==> exists k :: 0 <= k < |parts| && parts[k] in data && FileFor(parts[k], data[parts[k]]).None?
    decreases |parts|
  {
    if parts == [] then (true, files)
    else if parts[0] !in data then Save(files, data, parts[1..])
    else
      match FileFor(parts[0], data[parts[0]])
      case None => (false, files)
      case Some(t) => Save(files[parts[0] := t], data, parts[1..])
  }

  /** The reader's line scan: the first line with at least three fields whose id matches;
      its balance, or `NaN` when the balance does not parse. */
  function ReadRowsTs(rows: seq<Line>, id: int): Option<Payload> {
    if rows == [] then None
    else if rows[0].fields >= 3 && rows[0].id == Some(id) then
      Some(if rows[0].balance.Some? then Num(rows[0].balance.value) else NotANumber)
    else ReadRowsTs(rows[1..], id)
  }

  /** `leerSaldoDeArchivo`: `null` (here `None`) for a missing file or no matching line. */
  function ReadTs(files: Files, p: string, id: int): Option<Payload> {
    if p in files then ReadRowsTs(Body(files[p]), id) else None
  }

  /** `procesarSolicitud`: the partition guard; `CONSULTAR_SALDO` with a truthy account id
      and partition; every other operation unsupported. No file is ever written. */
  function Process(n: J.Node, req: Solicitud): (r: Respuesta)
    ensures r.status in {Exito, ErrorGeneralServidor, ErrorCuentaNoEncontrada}
    ensures req.op != ConsultarSaldo ==> r == Bare(ErrorGeneralServidor)
    ensures Py.Refused(n, req.params) ==> r == Bare(ErrorGeneralServidor)
    ensures r.status == Exito <==>
      req.op == ConsultarSaldo && !Py.Refused(n, req.params) &&
      Py.Truthy(req.params.account) && Py.TruthyText(req.params.partition) &&
      ReadTs(n.files, req.params.partition.value, req.params.account.value).Some?
    ensures r.status == Exito ==> r.payload == ReadTs(n.files, req.params.partition.value, req.params.account.value).value
  {
    var prm := req.params;
    if Py.Refused(n, prm) then Bare(ErrorGeneralServidor)
    else
      if req.op != ConsultarSaldo then Bare(ErrorGeneralServidor)
      else if !Py.Truthy(prm.account) || !Py.TruthyText(prm.partition) then Bare(ErrorGeneralServidor)
      else
        match ReadTs(n.files, prm.partition.value, prm.account.value)
        case Some(pl) => Respuesta(Exito, pl)
        case None => Bare(ErrorCuentaNoEncontrada)
  }
}

/** How the TypeScript worker relates to its own writer and to the Java reader. */
module TsWorkerProps {
  import opened Wrappers
  import opened Messages
  import opened Store
  import opened StoreProps
  import opened Text
  import opened Registry
  import opened Partitioning
  import opened TsWorker
  import J = JavaWorker

  /** Every line the readers look at whose id parses also has a balance that parses. */
  predicate BalancesParse(rows: seq<Line>) {
    forall i :: 0 <= i < |rows| && rows[i].fields >= 3 && rows[i].id.Some? ==> rows[i].balance.Some?
  }

  /** Where balances parse, the TypeScript reader finds what the Java reader finds. */
  lemma {:induction false} ReadRowsTsAgrees(rows: seq<Line>, id: int)
    requires BalancesParse(rows)
    ensures ReadRowsTs(rows, id) == (match ReadRows(rows, id) case Some(b) => Some(Num(b)) case None => None)
  {
    if rows != [] {
      assert BalancesParse(rows[1..]) by {
        forall i | 0 <= i < |rows[1..]| && rows[1..][i].fields >= 3 && rows[1..][i].id.Some?
          ensures rows[1..][i].balance.Some?
        {
          assert rows[1..][i] == rows[i + 1];
        }
      }
      ReadRowsTsAgrees(rows[1..], id);
    }
  }

  /** A matching line whose balance does not parse: the TypeScript worker answers `EXITO`
      with `NaN`, while the Java worker reports the account as missing. */
  lemma UnparsedBalanceParts()
    ensures var n := J.Node("w", ["P"], map["P" := [Header, Line(4, Some(7), None, false)]]);
            var req := Solicitud(ConsultarSaldo, NoParams.(account := Some(7), partition := Some("P")));
            Process(n, req) == Respuesta(Exito, NotANumber) &&
            J.Process(n, req).0 == Bare(ErrorCuentaOrigenNoExiste)
  {
    var rows := [Line(4, Some(7), None, false)];
    assert ReadRows(rows, 7) == ReadRows(rows[1..], 7);
  }

  /** On a file whose balances parse, the TypeScript query answers as the Java one, with
      the "not found" status renamed. */
  lemma ConsultLikeJava(n: J.Node, prm: Params)
    requires prm.account.Some? && prm.account.value != 0
    requires prm.partition.Some? && prm.partition.value != "" && prm.partition.value in n.held
    requires prm.partition.value in n.files ==> BalancesParse(Body(n.files[prm.partition.value]))
    ensures var j := J.Process(n, Solicitud(ConsultarSaldo, prm)).0;
            var t := Process(n, Solicitud(ConsultarSaldo, prm));
            && (t.status == Exito <==> j.status == Exito)
            && (t.status == Exito ==> t.payload == j.payload)
            && (t.status == ErrorCuentaNoEncontrada <==> j.status == ErrorCuentaOrigenNoExiste)
  {
    if prm.partition.value in n.files {
      ReadRowsTsAgrees(Body(n.files[prm.partition.value]), prm.account.value);
    }
  }

  /** The account lines of records with distinct ids are tidy. */
  lemma AccountLinesTidy(recs: seq<Record>)
    requires AccountLines(recs).Some? && UniqueIds(recs)
    ensures Tidy(AccountLines(recs).value)
  {
  }

  /** Both readers stop at the first line with the id, when that line is readable. */
  lemma {:induction false} ReadFirstMatch(rows: seq<Line>, id: int, k: nat)
    requires k < |rows| && Readable(rows[k], id)
    requires forall j :: 0 <= j < k ==> rows[j].id != Some(id)
    ensures ReadRows(rows, id) == rows[k].balance
    ensures ReadRowsTs(rows, id) == Some(Num(rows[k].balance.value))
  {
    if k > 0 {
      assert rows[0].id != Some(id);
      assert rows[1..][k - 1] == rows[k];
      ReadFirstMatch(rows[1..], id, k - 1);
    }
  }

  /** The reader finds the balance of an account record in the lines written for it,
      provided no earlier record has the same id. */
  lemma ReadAccountLines(recs: seq<Record>, k: nat)
    requires AccountLines(recs).Some? && k < |recs|
    requires forall j :: 0 <= j < k ==> recs[j].id != recs[k].id
    ensures ReadRows(AccountLines(recs).value, recs[k].id) == Some(recs[k].balance)
    ensures ReadRowsTs(AccountLines(recs).value, recs[k].id) == Some(Num(recs[k].balance))
  {
    var rows := AccountLines(recs).value;
    forall j | 0 <= j < k ensures rows[j].id != Some(recs[k].id) {
      assert rows[j].id == Some(recs[j].id);
    }
    ReadFirstMatch(rows, recs[k].id, k);
  }

  /** After a successful save, every account of a listed account partition is read back
      with the balance it was sent with, by the TypeScript and by the Java reader. */
  lemma SaveThenRead(files: Files, data: map<string, seq<Record>>, parts: seq<string>, i: nat, k: nat)
    requires Save(files, data, parts).0
    requires i < |parts| && parts[i] in data && StartsWith(parts[i], AccountPrefix)
    requires k < |data[parts[i]]| && UniqueIds(data[parts[i]])
    ensures var saved, rec := Save(files, data, parts).1, data[parts[i]][k];
            && ReadTs(saved, parts[i], rec.id) == Some(Num(rec.balance))
            && ReadBalance(saved, parts[i], rec.id) == Some(rec.balance)
  {
    var p, recs := parts[i], data[parts[i]];
    var saved := Save(files, data, parts).1;
    assert saved[p] == [Header] + AccountLines(recs).value;
    assert Body(saved[p]) == AccountLines(recs).value;
    ReadAccountLines(recs, k);
  }
}

=== FILE: wire.dfy ===
/** The coordinator's side of the worker connection below the message level
    (`ManejadorWorkerServidor`): telling a Python worker's length-prefixed JSON from a
    Java object stream by the first eight bytes, and reading and writing JSON frames
    (a 4-byte big-endian length followed by the UTF-8 text). The byte stream is the
    sequence of bytes the peer sent; partial reads are not modelled. */
module Wire {
  import opened Wrappers
  import opened Text

  type Byte = x: int | 0 <= x < 256

  /** `ByteBuffer.getInt`: the first four bytes as a big-endian two's-complement int. */
  function GetInt(b: seq<Byte>): (r: int)
    requires |b| >= 4
    ensures MinInt32 <= r <= MaxInt32
    ensures r < 0 <==> b[0] >= 128
  {
    var u: int := ((b[0] as int * 256 + b[1] as int) * 256 + b[2] as int) * 256 + b[3] as int;
    if u > MaxInt32 then u - 0x1_0000_0000 else u
  }

  /** `ByteBuffer.putInt` (and Python's `to_bytes(4, "big")` for non-negative values). */
  function PutInt(n: int): (r: seq<Byte>)
    requires MinInt32 <= n <= MaxInt32
    ensures |r| == 4
    ensures n >= 0 ==> r[0] < 128
  {
    var u := if n < 0 then n + 0x1_0000_0000 else n;
    var q1 := u / 256;
    var q2 := q1 / 256;
    [q2 / 256, q2 % 256, q1 % 256, u % 256]
  }

  /** The byte value of `{`. */
  const OpenBrace: Byte := 123

  /** Upper bound (exclusive) on the first message's length for the connection to count as JSON. */
  const SniffLimit := 10000

  /** Upper bound (inclusive) on the length of every later JSON frame. */
  const MaxFrame := 100000

  /** `detectProtocolAndCreateStreams`: `first` is what the first read of up to eight bytes
      returned. The connection is JSON iff all eight arrived, their length prefix is in
      (0, 10000) and the fifth byte is `{`; anything else is taken for a Java object stream. */
  predicate IsJson(first: seq<Byte>)
    requires |first| <= 8
  {
    |first| >= 8 && 0 < GetInt(first) < SniffLimit && first[4] == OpenBrace
  }

  /** `sendJsonMessage`: the length prefix, then the bytes. */
  function Frame(body: seq<Byte>): (r: seq<Byte>)
    requires |body| <= MaxInt32
    ensures |r| == |body| + 4 && r[4..] == body
  {
    PutInt(|body|) + body
  }

  /** `receiveJsonMessage` for every frame after the first: the body and the rest of the
      stream, or `None` for a short length header, a length outside (0, 100000], or a
      stream that ends before the body does. */
  function ReadFrame(s: seq<Byte>): (r: Option<(seq<Byte>, seq<Byte>)>)
    ensures r.Some? ==> |s| >= 4 && 0 < |r.value.0| <= MaxFrame && |r.value.0| == GetInt(s)
    ensures r.Some? ==> |s| >= 4 && s[4..] == r.value.0 + r.value.1
    ensures |s| >= 4 && (GetInt(s) <= 0 || GetInt(s) > MaxFrame) ==> r.None?
    ensures |s| >= 4 && 0 < GetInt(s) <= MaxFrame && |s| >= 4 + GetInt(s) ==> r.Some?
  {
    if |s| < 4 then None
    else
      var len := GetInt(s);
      if len <= 0 || len > MaxFrame then None
      else if |s| - 4 < len then None
      else
        assert s[4..] == s[4..4 + len] + s[4 + len..];
        Some((s[4..4 + len], s[4 + len..]))
  }

  /** `receiveJsonMessage` for the first frame, whose length and first four body bytes
      were consumed by the protocol sniff (`header`, exactly eight bytes). It copies
      `min(4, length)` body bytes from the header and reads the remainder from `s`. */
  function ReadFirstFrame(header: seq<Byte>, s: seq<Byte>): (r: Option<(seq<Byte>, seq<Byte>)>)
    requires |header| == 8 && IsJson(header)
    ensures r.Some? ==> |r.value.0| == GetInt(header)
    ensures r.Some? <==> |s| >= GetInt(header) - 4
  {
    var len := GetInt(header);
    var have := if len < 4 then len else 4;
    if |s| < len - have then None
    else Some((header[4..4 + have] + s[..len - have], s[len - have..]))
  }
}

module WireProps {
  import opened Wrappers
  import opened Text
  import opened Wire

  /** Reading back a written length gives the length. */
  lemma GetPutInt(n: int)
    requires MinInt32 <= n <= MaxInt32
    ensures GetInt(PutInt(n)) == n
  {
    var u := if n < 0 then n + 0x1_0000_0000 else n;
    var q1 := u / 256;
    var q2 := q1 / 256;
    assert u == q1 * 256 + u % 256;
    assert q1 == q2 * 256 + q1 % 256;
    assert q2 == (q2 / 256) * 256 + q2 % 256;
    assert q2 / 256 < 256;
  }

  /** Writing a read length gives back its four bytes. */
  lemma PutGetInt(b: seq<Byte>)
    requires |b| == 4
    ensures PutInt(GetInt(b)) == b
  {
    var u: int := ((b[0] as int * 256 + b[1] as int) * 256 + b[2] as int) * 256 + b[3] as int;
    assert u / 256 == (b[0] as int * 256 + b[1] as int) * 256 + b[2] as int;
    assert u / 256 / 256 == b[0] as int * 256 + b[1] as int;
    assert u / 256 / 256 / 256 == b[0];
  }

  /** A frame written by either side is read back whole, leaving the rest of the stream. */
  lemma ReadFrameOfFrame(body: seq<Byte>, rest: seq<Byte>)
    requires 0 < |body| <= MaxFrame
    ensures ReadFrame(Frame(body) + rest) == Some((body, rest))
  {
    var s := Frame(body) + rest;
    assert s[..4] == PutInt(|body|);
    GetPutInt(|body|);
    assert GetInt(s) == GetInt(s[..4]);
    assert s[4..4 + |body|] == body;
    assert s[4 + |body|..] == rest;
  }

  /** A read frame is exactly a written frame: nothing is skipped or invented. */
  lemma ReadFrameIsFrame(s: seq<Byte>)
    requires ReadFrame(s).Some?
    ensures var (body, rest) := ReadFrame(s).value; s == Frame(body) + rest
  {
    var (body, rest) := ReadFrame(s).value;
    PutGetInt(s[..4]);
    assert GetInt(s[..4]) == GetInt(s);
    assert s == s[..4] + s[4..];
  }

  /** The Python worker's registration frame (a JSON object of at least four bytes and under
      10000) is detected as JSON, and the coordinator reads the whole message back. */
  lemma PythonFrameDetected(body: seq<Byte>, rest: seq<Byte>)
    requires 4 <= |body| < SniffLimit && body[0] == OpenBrace
    ensures var s := Frame(body) + rest; IsJson(s[..8])
    ensures var s := Frame(body) + rest; ReadFirstFrame(s[..8], s[8..]) == Some((body, rest))
  {
    var s := Frame(body) + rest;
    GetPutInt(|body|);
    assert s[..8][..4] == PutInt(|body|);
    assert GetInt(s[..8]) == GetInt(s[..8][..4]);
    assert s[..8][4] == body[0];
    assert s[..8][4..8] == body[..4];
    assert s[8..][..|body| - 4] == body[4..];
    assert body == body[..4] + body[4..];
    assert s[8..][|body| - 4..] == rest;
  }

  /** A Java object stream opens with the serialization magic 0xACED, whose sign bit makes
      the length prefix negative: it is never taken for JSON. */
  lemma JavaStreamNotJson(first: seq<Byte>)
    requires 2 <= |first| <= 8 && first[0] == 0xAC && first[1] == 0xED
    ensures !IsJson(first)
  {
  }

  /** A frame longer than 100000 bytes is refused even when the whole body is there. */
  lemma OversizedFrameRefused(body: seq<Byte>, rest: seq<Byte>)
    requires MaxFrame < |body| <= MaxInt32
    ensures ReadFrame(Frame(body) + rest).None?
  {
    var s := Frame(body) + rest;
    assert s[..4] == PutInt(|body|);
    GetPutInt(|body|);
    assert GetInt(s) == GetInt(s[..4]);
  }
}

=== FILE: worker_message.dfy ===
/** The coordinator/worker handshake message (`MensajeWorker`): which message type and
    fields each constructor produces, and the debug rendering `toString`. A field the
    constructor does not set is `None` (Java `null`); the port defaults to 0. */
module WorkerMessage {
  import opened Wrappers
  import opened Text
  import Registry

  datatype Kind =
    | Registro
    | AsignacionParticionesYDatos
    | DatosRecibidosPorWorker
    | ConfirmacionRegistroCompleto
    | Heartbeat
    | RespuestaHeartbeat
    | NuevaTarea
    | ResultadoTarea
    | Error

  /** The task object a `NUEVA_TAREA`/`RESULTADO_TAREA` message carries; only its class
      name is ever inspected (by `toString`). */
  datatype Attachment = Attachment(className: string)

  datatype Message = Message(
    kind: Option<Kind>,
    workerId: Option<string>,
    partitions: Option<seq<string>>,
    data: Option<map<string, seq<Registry.Record>>>,
    task: Option<Attachment>,
    text: Option<string>,
    port: int)

  /** The no-argument constructor: every reference field null, port 0. */
  const Blank := Message(None, None, None, None, None, None, 0)

  /** Worker to coordinator: the registration request. */
  function Registration(id: Option<string>, suggested: Option<seq<string>>, port: int): (m: Message)
    ensures m.kind == Some(Registro)
    ensures m.workerId == id && m.partitions == suggested && m.port == port
    ensures m.text == Some("Solicitud de registro")
    ensures m.data.None? && m.task.None?
  {
    Blank.(kind := Some(Registro), workerId := id, partitions := suggested, port := port,
           text := Some("Solicitud de registro"))
  }

  /** Coordinator to worker: the partitions assigned and their contents. */
  function Assignment(data: Option<map<string, seq<Registry.Record>>>, ids: Option<seq<string>>,
                      text: Option<string>): (m: Message)
    ensures m.kind == Some(AsignacionParticionesYDatos)
    ensures m.data == data && m.partitions == ids && m.text == text
    ensures m.workerId.None? && m.task.None? && m.port == 0
  {
    Blank.(kind := Some(AsignacionParticionesYDatos), data := data, partitions := ids, text := text)
  }

  /** Worker to coordinator: the assigned data arrived. */
  function DataReceived(id: Option<string>, text: Option<string>): (m: Message)
    ensures m.kind == Some(DatosRecibidosPorWorker)
    ensures m.workerId == id && m.text == text
    ensures m.partitions.None? && m.data.None? && m.task.None? && m.port == 0
  {
    Blank.(kind := Some(DatosRecibidosPorWorker), workerId := id, text := text)
  }

  /** Coordinator to worker: registration is complete. The flag argument only selects
      this overload and is otherwise ignored. */
  function RegistrationComplete(id: Option<string>, text: Option<string>, isFinal: bool): (m: Message)
    ensures m.kind == Some(ConfirmacionRegistroCompleto)
    ensures m.workerId == id && m.text == text
    ensures m.partitions.None? && m.data.None? && m.task.None? && m.port == 0
  {
    Blank.(kind := Some(ConfirmacionRegistroCompleto), workerId := id, text := text)
  }

  /** The task constructor: `None` stands for the `IllegalArgumentException` it throws
      for any type other than `NUEVA_TAREA` and `RESULTADO_TAREA` (a null type included). */
  function ForTask(kind: Option<Kind>, id: Option<string>, task: Option<Attachment>): (r: Option<Message>)
    ensures r.Some? <==> kind == Some(NuevaTarea) || kind == Some(ResultadoTarea)
    ensures r.Some? ==> r.value.kind == kind && r.value.workerId == id && r.value.task == task
    ensures r.Some? ==> r.value.text.None? && r.value.partitions.None? && r.value.port == 0
  {
    if kind != Some(NuevaTarea) && kind != Some(ResultadoTarea) then None
    else Some(Blank.(kind := kind, workerId := id, task := task))
  }

  /** Heartbeats, errors and other plain-text messages: any type is accepted. */
  function Plain(kind: Option<Kind>, id: Option<string>, text: Option<string>): (m: Message)
    ensures m.kind == kind && m.workerId == id && m.text == text
    ensures m.partitions.None? && m.data.None? && m.task.None? && m.port == 0
  {
    Blank.(kind := kind, workerId := id, text := text)
  }

  /** Java's enum `toString`: the constant's declared name (`null` for a null type). */
  function KindName(k: Option<Kind>): string {
    match k
    case None => "null"
    case Some(Registro) => "REGISTRO"
    case Some(AsignacionParticionesYDatos) => "ASIGNACION_PARTICIONES_Y_DATOS"
    case Some(DatosRecibidosPorWorker) => "DATOS_RECIBIDOS_POR_WORKER"
    case Some(ConfirmacionRegistroCompleto) => "CONFIRMACION_REGISTRO_COMPLETO"
    case Some(Heartbeat) => "HEARTBEAT"
    case Some(RespuestaHeartbeat) => "RESPUESTA_HEARTBEAT"
    case Some(NuevaTarea) => "NUEVA_TAREA"
    case Some(ResultadoTarea) => "RESULTADO_TAREA"
    case Some(Error) => "ERROR"
  }

  /** The elements of a Java list after the first, each preceded by ", ". */
  function JoinRest(xs: seq<string>): string {
    if xs == [] then "" else ", " + xs[0] + JoinRest(xs[1..])
  }

  /** Java's `List.toString`: "[a, b, c]". */
  function ListText(xs: seq<string>): string {
    if xs == [] then "[]" else "[" + xs[0] + JoinRest(xs[1..]) + "]"
  }

  /** The optional segments of the rendering; each is empty when its field is null. */
  function IdSegment(m: Message): string {
    if m.workerId.Some? then ", workerId='" + m.workerId.value + "'" else ""
  }

  function PartitionsSegment(m: Message): string {
    if m.partitions.Some? then ", listaParticiones=" + ListText(m.partitions.value) else ""
  }

  function DataSegment(m: Message): string {
    if m.data.Some? then ", datosPorParticion_count=" + IntToString(|m.data.value|) else ""
  }

  function PortSegment(m: Message): string {
    if m.port > 0 then ", puertoTareasWorker=" + IntToString(m.port) else ""
  }

  function TaskSegment(m: Message): string {
    if m.task.Some? then ", datosAdicionalesTarea_type=" + m.task.value.className else ""
  }

  function TextSegment(m: Message): string {
    if m.text.Some? then ", mensajeTexto='" + m.text.value + "'" else ""
  }

  /** `toString`: the type always, then each non-null field in declaration order, the
      port only when positive. */
  function Render(m: Message): string {
    "MensajeWorker{tipo=" + KindName(m.kind)
      + (IdSegment(m) + (PartitionsSegment(m) + (DataSegment(m)
      + (PortSegment(m) + (TaskSegment(m) + (TextSegment(m) + "}"))))))
  }
}

module WorkerMessageProps {
  import opened Wrappers
  import opened Text
  import opened WorkerMessage

  /** Every constructor yields its own message type, and only the task constructor can fail. */
  lemma ConstructorKinds(id: Option<string>, ps: Option<seq<string>>, port: int, t: Option<string>, b: bool)
    ensures var kinds := [Registration(id, ps, port).kind, Assignment(None, ps, t).kind,
                          DataReceived(id, t).kind, RegistrationComplete(id, t, b).kind];
            forall i, j :: 0 <= i < j < |kinds| ==> kinds[i] != kinds[j]
    ensures RegistrationComplete(id, t, true) == RegistrationComplete(id, t, false)
    ensures ForTask(Some(Registro), id, None).None? && ForTask(None, id, None).None?
    ensures Plain(Some(Registro), id, t).kind == Registration(id, ps, port).kind
  {
  }

  /** A message with every optional field null and no positive port renders as its type alone. */
  lemma RenderMinimal(m: Message)
    requires m.workerId.None? && m.partitions.None? && m.data.None? && m.task.None? && m.text.None?
    requires m.port <= 0
    ensures Render(m) == "MensajeWorker{tipo=" + KindName(m.kind) + "}"
  {
  }

  /** The port never shows when it is not positive: such a message renders exactly like
      the same message with port 0. */
  lemma RenderHidesPort(m: Message)
    requires m.port <= 0
    ensures Render(m) == Render(m.(port := 0))
  {
  }

  /** The rendering always starts with the message type. */
  lemma RenderShowsKind(m: Message)
    ensures StartsWith(Render(m), "MensajeWorker{tipo=" + KindName(m.kind))
  {
    var head := "MensajeWorker{tipo=" + KindName(m.kind);
    assert Render(m)[..|head|] == head;
  }

  /** A non-null worker id appears in the rendering. */
  lemma RenderShowsId(m: Message)
    requires m.workerId.Some?
    ensures Contains(Render(m), ", workerId='" + m.workerId.value + "'")
  {
    var rest := PartitionsSegment(m) + (DataSegment(m)
      + (PortSegment(m) + (TaskSegment(m) + (TextSegment(m) + "}"))));
    ContainsFront(IdSegment(m), rest);
    ContainsAfter("MensajeWorker{tipo=" + KindName(m.kind), IdSegment(m) + rest, IdSegment(m));
  }

  /** A positive task port appears in the rendering. */
  lemma RenderShowsPort(m: Message)
    requires m.port > 0
    ensures Contains(Render(m), ", puertoTareasWorker=" + IntToString(m.port))
  {
    var t3 := PortSegment(m) + (TaskSegment(m) + (TextSegment(m) + "}"));
    var t2 := DataSegment(m) + t3;
    var t1 := PartitionsSegment(m) + t2;
    ContainsFront(PortSegment(m), TaskSegment(m) + (TextSegment(m) + "}"));
    ContainsAfter(DataSegment(m), t3, PortSegment(m));
    ContainsAfter(PartitionsSegment(m), t2, PortSegment(m));
    ContainsAfter(IdSegment(m), t1, PortSegment(m));
    ContainsAfter("MensajeWorker{tipo=" + KindName(m.kind), IdSegment(m) + t1, PortSegment(m));
  }

  /** A non-null message text appears in the rendering. */
  lemma RenderShowsText(m: Message)
    requires m.text.Some?
    ensures Contains(Render(m), ", mensajeTexto='" + m.text.value + "'")
  {
    var t5 := TextSegment(m) + "}";
    var t4 := TaskSegment(m) + t5;
    var t3 := PortSegment(m) + t4;
    var t2 := DataSegment(m) + t3;
    var t1 := PartitionsSegment(m) + t2;
    ContainsFront(TextSegment(m), "}");
    ContainsAfter(TaskSegment(m), t5, TextSegment(m));
    ContainsAfter(PortSegment(m), t4, TextSegment(m));
    ContainsAfter(DataSegment(m), t3, TextSegment(m));
    ContainsAfter(PartitionsSegment(m), t2, TextSegment(m));
    ContainsAfter(IdSegment(m), t1, TextSegment(m));
    ContainsAfter("MensajeWorker{tipo=" + KindName(m.kind), IdSegment(m) + t1, TextSegment(m));
  }

  /** The list rendering of the registration example. */
  lemma ListTextExample()
    ensures ListText(["CUENTA_P1", "CLIENTE_P1"]) == "[CUENTA_P1, CLIENTE_P1]"
  {
  }
}

=== FILE: wrappers.dfy ===
/** The optional value used throughout the model wherever the original code
    works with a reference that may be null, a key that may be missing or a
    parse that may fail. */
module Wrappers {

  /** `None` stands for Java's `null` / Python's `None`; `Some(v)` for a present value. */
  datatype Option<+T> = None | Some(value: T) {

    /** Returns the encapsulated value, or `default` when absent. */
    function GetOr(default: T): T {
      match this
      case Some(v) => v
      case None => default
    }
  }

  /** Java's `Map.get`: the stored value, or `None` for a missing key. */
  function Lookup<K, V>(m: map<K, V>, k: K): (r: Option<V>)
    ensures r.Some? <==> k in m
    ensures r.Some? ==> r.value == m[k]
  {
    if k in m then Some(m[k]) else None
  }
}
